=== FILE: README.md ===
# Photo backup: a Dafny model of the upload client, the backup run and the ledger

The app backs up the photos and videos of an Android device to an FTP server.
A backup run does the following:
- It resets its progress state and stores a provisional session row.
- It rejects a blank server address.
- It builds the target list: the local media paths not yet uploaded successfully that still name an existing, non-empty file.
- It uploads each target with `FtpClientWrapper.uploadFile` and records one history row per file.
- It rewrites the session row with the final outcome counts.

Stopping a run rewrites the session as cancelled by the user. The settings screen stores the FTP connection settings in a preference store. It parses the port text on the way.

The model has one module per part of the program:

- `Entities` and `Converters`: the two Room rows and their enums, and the enum/string converters.
- `Lists`: the two query shapes. `WHERE` is an order-preserving filter; `ORDER BY … DESC` is a stable sort.
- `Dao`: the two tables held in memory (`class Database`).
  - `file_history` is keyed by `filePath`; an insert replaces the row with the same path.
  - `backup_session` has AUTOINCREMENT ids.
  - The foreign key from history rows to sessions is part of the database invariant.
  - ON DELETE CASCADE is modelled by `DeleteSession`, which no DAO method issues. A REPLACE of an existing session does not cascade here (see "## Left out").
- `Settings` and `SettingsUi`:
  - `FtpSettings` with its defaults;
  - the preference store and the repository over it;
  - the view model's `saveSettings`, including Kotlin's `toIntOrNull`.
- `PhotoRepo`: `createBackupTargetList`. The media index is an input; the file system is a map from path to length.
- `RemotePath`: the working directory `uploadFolder/yyyy/yyyyMM`, taken from the first eight-digit run in the file name. Also the split of a path into the absolute prefixes `/s1`, `/s1/s2`, … that are entered or created one by one.
- `FtpSession`: an FTP control session (`class FtpClient`).
  - The server's answers are not computed. A `Server` value says what the n-th call of each kind returns.
  - The client records every command it sends, and every wait, in a trace.
  - A greeting is accepted only when it is a positive completion reply (2yz, section 4.2.1 of RFC 959). The commands are those of section 4.1 of RFC 959.
- `FtpUpload`: `uploadFile`, written as its loops.
  - Up to five connects, with waits of 2, 4, 8 and 10 seconds between them.
  - Up to three logins, half a second apart.
  - TYPE I and passive mode.
  - The working directory, or the walk over its prefixes.
  - Up to three stores, with waits of 2 and 4 seconds and a reconnect when the connection is gone.
  - The `finally` block, which sends QUIT and closes the connection.
- `Service`: `BackupService` (a class over the database).
  - The clock is a sequence of readings, `clock(0)`, `clock(1)`, …, one per `currentTimeMillis` call in `BackupService`.
  - The n-th upload of a run talks to the server `servers(n)`.

The directory walk does not do what its comments suggest. When CWD into the whole working path is refused, the walk does this for each prefix:
- It sends CWD to the prefix.
- When that is refused, it sends MKD to the prefix and goes on to the next one without entering the new directory.

So after a walk that had to create directories, the file is stored in the last directory the walk did enter. When none was entered, that is the directory login left the session in. `FtpUpload.CreatedDirectoriesAreNotEntered` proves this, and `FtpClient.remoteDir` tracks the directory the session is in.

The first CWD also uses the relative path `backup/2023/202306`, while the walk uses the absolute prefixes `/backup`, `/backup/2023`, `/backup/2023/202306`.

Three behaviours of the code are easy to miss:
- **Created directories are not entered.** The walk creates a missing directory and goes on without entering it (the walk above).
- **History rows are keyed by path.** `file_history` is keyed by `filePath`, so a path has one row across all sessions.
- **Reconnect results are not checked.** In the reconnect after a lost connection, a refused greeting, a refused login and a refused CWD are not looked at. Only an I/O error ends the upload.

## Model

Source paths are relative to the repository root. `FtpClientWrapper.kt` is `app/src/main/java/com/example/photobackerupper/data/remote/FtpClientWrapper.kt`, and so on.

| member | source | states |
|---|---|---|
| Chars.IsWhitespace | app/src/main/java/com/example/photobackerupper/service/BackupService.kt:347 | space, tab, newline, no-break space and ideographic space are whitespace; digits, '.' and ASCII letters are not |
| Chars.IsBlank | app/src/main/java/com/example/photobackerupper/service/BackupService.kt:347 | the empty string is blank; a string holding any non-whitespace character is not; a blank string is a whitespace character followed by a blank string |
| Converters.FromBackupStatus | app/src/main/java/com/example/photobackerupper/data/local/db/Converters.kt:9-11 | the stored name of a status decodes back to that status |
| Converters.ToBackupStatus | app/src/main/java/com/example/photobackerupper/data/local/db/Converters.kt:14-16 | decoding succeeds exactly for the strings "SUCCESS" and "FAILURE" (case-sensitive); anything else is rejected |
| Converters.FromBackupResult | app/src/main/java/com/example/photobackerupper/data/local/db/Converters.kt:19-21 | the stored name of a result decodes back to that result |
| Converters.ToBackupResult | app/src/main/java/com/example/photobackerupper/data/local/db/Converters.kt:24-26 | decoding succeeds exactly for "COMPLETED", "USER_CANCELLED" and "ERROR_STOPPED" |
| Converters.StatusNameRoundTrip | app/src/main/java/com/example/photobackerupper/data/local/db/Converters.kt:9-16 | a stored status string that decodes is written back unchanged |
| Converters.ResultNameRoundTrip | app/src/main/java/com/example/photobackerupper/data/local/db/Converters.kt:19-26 | a stored result string that decodes is written back unchanged |
| Converters.SuccessLiteralMatchesQuery | app/src/main/java/com/example/photobackerupper/data/local/dao/BackupHistoryDao.kt:14-15 | the literal 'SUCCESS' of the successful-paths query is the stored form of SUCCESS and of no other status |
| Lists.Filter | app/src/main/java/com/example/photobackerupper/data/local/dao/BackupHistoryDao.kt:20-21 | a `WHERE` keeps exactly the rows that satisfy the condition, never more rows than the table |
| Lists.SortDesc | app/src/main/java/com/example/photobackerupper/data/local/dao/BackupHistoryDao.kt:17-18 | `ORDER BY … DESC` returns a permutation of its rows in non-increasing key order |
| Lists.InsertDesc | app/src/main/java/com/example/photobackerupper/data/local/dao/BackupHistoryDao.kt:17-18 | inserting a row into a sorted result keeps it sorted and adds exactly that row |
| Lists.SortDescMembers | app/src/main/java/com/example/photobackerupper/data/local/dao/BackupHistoryDao.kt:17-18 | sorting neither adds nor drops a row |
| Lists.FilterKeepsDistinctKeys | app/src/main/java/com/example/photobackerupper/data/local/dao/BackupHistoryDao.kt:20-21 | a filtered table keeps its primary key unique |
| Lists.FilterIsSubsequence | app/src/main/java/com/example/photobackerupper/data/repository/PhotoRepository.kt:23 | `filterNot`/`filter` keep the surviving elements in their original order |
| Lists.Map | app/src/main/java/com/example/photobackerupper/data/repository/PhotoRepository.kt:25 | `map` gives one element per input, in place |
| Lists.MapKeepsSubsequence | app/src/main/java/com/example/photobackerupper/data/repository/PhotoRepository.kt:25 | mapping keeps a subsequence a subsequence |
| Lists.SubsequenceTransitive | app/src/main/java/com/example/photobackerupper/data/repository/PhotoRepository.kt:23-25 | a subsequence of a subsequence is a subsequence, so the two filters compose |
| Lists.FilterAppend | app/src/main/java/com/example/photobackerupper/data/remote/FtpClientWrapper.kt:137 | dropping empty segments distributes over joined paths |
| Settings.ReadSettings | app/src/main/java/com/example/photobackerupper/data/repository/SettingsRepository.kt:30-39 | each field is the stored value under its key, or "", 21, "backup", "", "" when that key is missing |
| Settings.WriteSettings | app/src/main/java/com/example/photobackerupper/data/repository/SettingsRepository.kt:41-48 | reading back gives exactly the saved settings; the five keys are added; every other preference is kept unchanged |
| Settings.EmptyStoreReadsDefaults | app/src/main/java/com/example/photobackerupper/data/model/FtpSettings.kt:3-9 | the defaults are port 21, folder "backup" and empty address, user and password; an empty store reads as them |
| Settings.SettingsRepository.constructor | app/src/main/java/com/example/photobackerupper/data/repository/SettingsRepository.kt:17-20 | the repository starts from the store's current snapshot |
| Settings.SettingsRepository.FtpSettingsFlow | app/src/main/java/com/example/photobackerupper/data/repository/SettingsRepository.kt:30-39 | the settings read from the current snapshot; an empty store gives `FtpSettings()`; a missing address reads as ""; a stored port is returned unchanged |
| Settings.SettingsRepository.SaveSettings | app/src/main/java/com/example/photobackerupper/data/repository/SettingsRepository.kt:41-48 | one edit writes the five keys; the settings flow then reads exactly the saved settings |
| SettingsUi.ToIntOrNull | app/src/main/java/com/example/photobackerupper/ui/viewmodel/SettingsViewModel.kt:28 | a value exactly for an optional sign followed by at least one digit whose value fits in `Int`, and then that value; null otherwise |
| SettingsUi.ParsePort | app/src/main/java/com/example/photobackerupper/ui/viewmodel/SettingsViewModel.kt:28 | the parsed `Int` when the text parses, otherwise 21; `ParsePortRoundTrip`, `NegativePortKept` and `UnparsablePortIsDefault` say which texts parse |
| SettingsUi.FormSettings | app/src/main/java/com/example/photobackerupper/ui/viewmodel/SettingsViewModel.kt:28-37 | address, folder, user and password are passed unchanged; the port is the parsed value, or 21 when the parse is null |
| SettingsUi.ExposedSettings | app/src/main/java/com/example/photobackerupper/ui/viewmodel/SettingsViewModel.kt:19-24 | before any stored value arrives the screen sees `FtpSettings()`, afterwards the latest stored value |
| SettingsUi.SaveSettings | app/src/main/java/com/example/photobackerupper/ui/viewmodel/SettingsViewModel.kt:26-39 | one repository write of the form's settings; the settings flow then reads them |
| SettingsUi.NatToDigits | app/src/main/java/com/example/photobackerupper/ui/viewmodel/SettingsViewModel.kt:28 | the decimal rendering the parse inverts: non-empty and all digits |
| SettingsUi.DigitsValueOfNatToDigits | app/src/main/java/com/example/photobackerupper/ui/viewmodel/SettingsViewModel.kt:28 | the digits of n have the value n |
| SettingsUi.ParsePortRoundTrip | app/src/main/java/com/example/photobackerupper/ui/viewmodel/SettingsViewModel.kt:28 | every `Int` typed in decimal is parsed and stored as itself |
| SettingsUi.NegativePortKept | app/src/main/java/com/example/photobackerupper/ui/viewmodel/SettingsViewModel.kt:28 | there is no range check: "-1" is stored as -1 |
| SettingsUi.UnparsablePortIsDefault | app/src/main/java/com/example/photobackerupper/ui/viewmodel/SettingsViewModel.kt:28 | empty or non-numeric text, and digits beyond the `Int` range with or without a sign, are stored as 21 |
| PhotoRepo.FileName | app/src/main/java/com/example/photobackerupper/data/repository/PhotoRepository.kt:25 | a file's name contains no '/' and is no longer than its path |
| PhotoRepo.FileNameIsLastComponent | app/src/main/java/com/example/photobackerupper/data/repository/PhotoRepository.kt:25 | the name is the end of the path and is either the whole path or follows a '/' |
| PhotoRepo.CreateBackupTargetList | app/src/main/java/com/example/photobackerupper/data/repository/PhotoRepository.kt:19-26 | no target is already successful; every target exists with a positive length; every local path that is neither successful nor missing or empty is a target; the targets keep the media order |
| PhotoRepo.TargetsAreNew | app/src/main/java/com/example/photobackerupper/data/repository/PhotoRepository.kt:23 | no file that survives both filters has a successful path |
| PhotoRepo.TargetsAreComplete | app/src/main/java/com/example/photobackerupper/data/repository/PhotoRepository.kt:23-25 | every new path that names an existing, non-empty file survives both filters |
| Dao.Upsert | app/src/main/java/com/example/photobackerupper/data/local/dao/BackupHistoryDao.kt:11-12 | after REPLACE the only row with the entity's path is the entity; every other row is kept and none is added; paths stay unique |
| Dao.SuccessfulPaths | app/src/main/java/com/example/photobackerupper/data/local/dao/BackupHistoryDao.kt:14-15 | exactly the paths of rows whose status is SUCCESS |
| Dao.FailureReplacesSuccess | app/src/main/java/com/example/photobackerupper/data/local/dao/BackupHistoryDao.kt:11-15 | re-inserting a path with FAILURE takes it out of the successful paths |
| Dao.SuccessIsRecorded | app/src/main/java/com/example/photobackerupper/data/local/dao/BackupHistoryDao.kt:11-15 | inserting a path with SUCCESS puts it in the successful paths |
| Dao.OtherPathsUnaffected | app/src/main/java/com/example/photobackerupper/data/local/dao/BackupHistoryDao.kt:11-15 | an insert does not change whether any other path is successful |
| Dao.PutSession | app/src/main/java/com/example/photobackerupper/data/local/dao/BackupSessionDao.kt:14-15 | REPLACE with an explicit id overwrites that row (the count is unchanged) or appends it; every other row stays; ids stay unique |
| Dao.IndexOfId | app/src/main/java/com/example/photobackerupper/data/local/dao/BackupSessionDao.kt:14-15 | the position of the row with an id, or -1 exactly when no row has it |
| Dao.DeletedIds | app/src/main/java/com/example/photobackerupper/data/local/entity/FileHistoryEntity.kt:10-17 | deleting the rows with one id removes exactly that id |
| Dao.FindSession | app/src/main/java/com/example/photobackerupper/data/local/dao/BackupSessionDao.kt:23-24 | a stored row with the id, or null exactly when no row has it |
| Dao.FindStored | app/src/main/java/com/example/photobackerupper/data/local/dao/BackupSessionDao.kt:23-24 | with unique ids, looking up a stored row's id finds that row |
| Dao.Database.constructor | app/src/main/java/com/example/photobackerupper/data/local/entity/FileHistoryEntity.kt:8-21 | an empty database satisfies both primary keys and the foreign key |
| Dao.Database.InsertFileHistory | app/src/main/java/com/example/photobackerupper/data/local/dao/BackupHistoryDao.kt:11-12 | REPLACE on `filePath` when the row's session exists; the foreign key refuses the row otherwise and nothing changes; the keys stay valid |
| Dao.Database.InsertSession | app/src/main/java/com/example/photobackerupper/data/local/dao/BackupSessionDao.kt:14-15 | id 0 gets the next AUTOINCREMENT id, unused so far, appended and returned; a non-zero id overwrites or adds that row and is returned; the keys stay valid |
| Dao.Database.DeleteSession | app/src/main/java/com/example/photobackerupper/data/local/entity/FileHistoryEntity.kt:10-17 | ON DELETE CASCADE: deleting a session deletes exactly the history rows that reference it |
| Dao.Database.GetAllSuccessfulBackupPaths | app/src/main/java/com/example/photobackerupper/data/local/dao/BackupHistoryDao.kt:14-15 | exactly the paths of the rows whose status is SUCCESS |
| Dao.Database.GetAllHistory | app/src/main/java/com/example/photobackerupper/data/local/dao/BackupHistoryDao.kt:17-18 | every history row, newest upload first |
| Dao.Database.GetHistoryAfterTimestamp | app/src/main/java/com/example/photobackerupper/data/local/dao/BackupHistoryDao.kt:20-21 | exactly the rows uploaded at or after t, newest first |
| Dao.Database.AfterTimestampWithinAll | app/src/main/java/com/example/photobackerupper/data/local/dao/BackupHistoryDao.kt:17-21 | every row of the after-timestamp query is a row of the full history query |
| Dao.Database.GetAllSessions | app/src/main/java/com/example/photobackerupper/data/local/dao/BackupSessionDao.kt:17-18 | every session, newest start first |
| Dao.Database.GetFilesForSession | app/src/main/java/com/example/photobackerupper/data/local/dao/BackupSessionDao.kt:20-21 | exactly the history rows of that session, newest upload first |
| Dao.Database.GetSessionById | app/src/main/java/com/example/photobackerupper/data/local/dao/BackupSessionDao.kt:23-24 | the stored row with that id, or null exactly when there is none |
| RemotePath.FindDateFrom | app/src/main/java/com/example/photobackerupper/data/remote/FtpClientWrapper.kt:123-124 | the leftmost eight-digit run at or after a position; none when no position has one |
| RemotePath.FindDate | app/src/main/java/com/example/photobackerupper/data/remote/FtpClientWrapper.kt:123-124 | the position of the leftmost eight-digit run in the name; none exactly when no position starts one |
| RemotePath.CameraNameDate | app/src/main/java/com/example/photobackerupper/data/remote/FtpClientWrapper.kt:123-124 | in `IMG_20230615_0001.jpg` the date starts after `IMG_` |
| RemotePath.WorkingPath | app/src/main/java/com/example/photobackerupper/data/remote/FtpClientWrapper.kt:126-133 | without a date, the upload folder itself; with one, the folder followed by `/dddd/dddddd`, twelve characters longer, whose month directory starts with its year directory; `WorkingPathSegments` and the two examples below pin which digits |
| RemotePath.DatedNameExample | app/src/main/java/com/example/photobackerupper/data/remote/FtpClientWrapper.kt:126-133 | `IMG_20230615_0001.jpg` with folder `backup` goes to `backup/2023/202306` |
| RemotePath.UndatedNameExample | app/src/main/java/com/example/photobackerupper/data/remote/FtpClientWrapper.kt:126-127 | a name without eight digits in a row stays in the upload folder |
| RemotePath.WorkingPathSegments | app/src/main/java/com/example/photobackerupper/data/remote/FtpClientWrapper.kt:126-137 | with a date in the name, the path's segments are the folder's followed by `yyyy` and `yyyyMM` |
| RemotePath.SplitSlash | app/src/main/java/com/example/photobackerupper/data/remote/FtpClientWrapper.kt:137 | `split("/")` gives at least one piece and no piece contains '/' |
| RemotePath.JoinSplitRoundTrip | app/src/main/java/com/example/photobackerupper/data/remote/FtpClientWrapper.kt:137 | joining the pieces with '/' gives the path back |
| RemotePath.SplitAppend | app/src/main/java/com/example/photobackerupper/data/remote/FtpClientWrapper.kt:137 | the pieces of `a/b` are the pieces of a followed by those of b |
| RemotePath.Segments | app/src/main/java/com/example/photobackerupper/data/remote/FtpClientWrapper.kt:137 | the kept segments are non-empty and contain no '/' |
| RemotePath.SegmentsAppend | app/src/main/java/com/example/photobackerupper/data/remote/FtpClientWrapper.kt:137 | the segments of `a/b` are those of a followed by those of b |
| RemotePath.SegmentsOfPiece | app/src/main/java/com/example/photobackerupper/data/remote/FtpClientWrapper.kt:137 | a non-empty piece without '/' is its own single segment |
| RemotePath.AppendTwoSegments | app/src/main/java/com/example/photobackerupper/data/remote/FtpClientWrapper.kt:132-137 | appending `/yyyy/yyyyMM` to a folder adds exactly those two segments |
| RemotePath.Prefixes | app/src/main/java/com/example/photobackerupper/data/remote/FtpClientWrapper.kt:138-140 | one directory per segment |
| RemotePath.PrefixAt | app/src/main/java/com/example/photobackerupper/data/remote/FtpClientWrapper.kt:139-140 | the k-th directory is `/s1/…/sk+1` |
| RemotePath.PrefixStep | app/src/main/java/com/example/photobackerupper/data/remote/FtpClientWrapper.kt:140 | appending `/segment` to `currentPath` gives the next prefix |
| FtpSession.NoWaits | app/src/main/java/com/example/photobackerupper/data/remote/FtpClientWrapper.kt:199-209 | a trace without sleeps has no waits |
| FtpSession.DirectoryCommandsDoNotWait | app/src/main/java/com/example/photobackerupper/data/remote/FtpClientWrapper.kt:135-146 | CWD and MKD add no wait, so every wait stays within ten seconds |
| FtpSession.FtpClient.constructor | app/src/main/java/com/example/photobackerupper/data/remote/FtpClientWrapper.kt:31 | a new client is disconnected, has sent nothing and has made no call |
| FtpSession.FtpClient.Delay | app/src/main/java/com/example/photobackerupper/data/remote/FtpClientWrapper.kt:61 | one wait of at most ten seconds is recorded |
| FtpSession.FtpClient.Connect | app/src/main/java/com/example/photobackerupper/data/remote/FtpClientWrapper.kt:66 | the greeting is the server's next one; any reply leaves the socket open, at the login directory |
| FtpSession.FtpClient.Disconnect | app/src/main/java/com/example/photobackerupper/data/remote/FtpClientWrapper.kt:75-77 | the connection is closed |
| FtpSession.FtpClient.IsConnected | app/src/main/java/com/example/photobackerupper/data/remote/FtpClientWrapper.kt:200 | false once closed; on an open socket, what the server's state says |
| FtpSession.FtpClient.Login | app/src/main/java/com/example/photobackerupper/data/remote/FtpClientWrapper.kt:101 | USER/PASS is sent and answered with the server's next login answer |
| FtpSession.FtpClient.SetBinaryFileType | app/src/main/java/com/example/photobackerupper/data/remote/FtpClientWrapper.kt:118 | TYPE I is sent |
| FtpSession.FtpClient.EnterLocalPassiveMode | app/src/main/java/com/example/photobackerupper/data/remote/FtpClientWrapper.kt:119 | passive mode is set |
| FtpSession.FtpClient.ChangeWorkingDirectory | app/src/main/java/com/example/photobackerupper/data/remote/FtpClientWrapper.kt:135 | CWD is sent; only an accepted CWD changes the current directory |
| FtpSession.FtpClient.MakeDirectory | app/src/main/java/com/example/photobackerupper/data/remote/FtpClientWrapper.kt:142 | MKD is sent; the current directory does not change |
| FtpSession.FtpClient.StoreFile | app/src/main/java/com/example/photobackerupper/data/remote/FtpClientWrapper.kt:174-176 | STOR is sent and answered with the server's next transfer outcome |
| FtpSession.FtpClient.Logout | app/src/main/java/com/example/photobackerupper/data/remote/FtpClientWrapper.kt:224 | QUIT is sent |
| FtpUpload.Backoff | app/src/main/java/com/example/photobackerupper/data/remote/FtpClientWrapper.kt:58 | a backoff never exceeds ten seconds |
| FtpUpload.BackoffValues | app/src/main/java/com/example/photobackerupper/data/remote/FtpClientWrapper.kt:58 | the waits are 2, 4 and 8 seconds, then 10 seconds from the fourth failure on |
| FtpUpload.RetrySchedules | app/src/main/java/com/example/photobackerupper/data/remote/FtpClientWrapper.kt:56-62 | a failing connect waits 2, 4, 8 and 10 seconds between its five attempts; a failing store waits 2 and 4 seconds between its three |
| FtpUpload.ConnectRoundShape | app/src/main/java/com/example/photobackerupper/data/remote/FtpClientWrapper.kt:56-79 | one attempt opens one connection; a wait comes first only on a retry |
| FtpUpload.ConnectTraceShape | app/src/main/java/com/example/photobackerupper/data/remote/FtpClientWrapper.kt:49-91 | n attempts open n connections; the first command is a connect, never a wait; the waits are the backoff schedule |
| FtpUpload.ConnectTraceHasNoLogin | app/src/main/java/com/example/photobackerupper/data/remote/FtpClientWrapper.kt:49-91 | the connect loop sends no login |
| FtpUpload.FailedConnectTrace | app/src/main/java/com/example/photobackerupper/data/remote/FtpClientWrapper.kt:49-91 | five failed attempts: five connects, no login, and waits of 2, 4, 8 and 10 seconds |
| FtpUpload.ConnectAttempt | app/src/main/java/com/example/photobackerupper/data/remote/FtpClientWrapper.kt:56-79 | the attempt waits first on a retry, and disconnects after a greeting that is not 2yz; it is connected exactly when the greeting is accepted |
| FtpUpload.ConnectWithRetry | app/src/main/java/com/example/photobackerupper/data/remote/FtpClientWrapper.kt:49-91 | 1 to 5 attempts; it stops at the first accepted greeting; success exactly when the last greeting is accepted, and every earlier one was refused or unreachable; failure only after five attempts |
| FtpUpload.LoginTraceShape | app/src/main/java/com/example/photobackerupper/data/remote/FtpClientWrapper.kt:94-115 | n attempts send n logins, with half a second before each retry |
| FtpUpload.LoginWithRetry | app/src/main/java/com/example/photobackerupper/data/remote/FtpClientWrapper.kt:94-115 | 1 to 3 attempts; it stops at the first accepted login; a refusal and an I/O error both count as failures; failure only after three |
| FtpUpload.MakePath | app/src/main/java/com/example/photobackerupper/data/remote/FtpClientWrapper.kt:137-146 | a failed create names one of the prefixes, and so does the last directory entered; `MakePathVisitsInOrder` and `CreatedDirectoriesAreNotEntered` give the order and what is entered |
| FtpUpload.MakePathVisitsInOrder | app/src/main/java/com/example/photobackerupper/data/remote/FtpClientWrapper.kt:137-146 | the walk tries the prefixes in order, each once; success means all were tried; a failed create names the last prefix tried, and its MKD is the last command |
| FtpUpload.CreatedDirectoriesAreNotEntered | app/src/main/java/com/example/photobackerupper/data/remote/FtpClientWrapper.kt:139-146 | when every prefix is missing and can be created, the walk creates them all, succeeds, and enters none of them |
| FtpUpload.MakePathSendsDirectoryCommands | app/src/main/java/com/example/photobackerupper/data/remote/FtpClientWrapper.kt:139-146 | the walk sends only CWD and MKD |
| FtpUpload.VisitPrefix | app/src/main/java/com/example/photobackerupper/data/remote/FtpClientWrapper.kt:141-145 | one prefix: CWD, and MKD when the CWD is refused; the walk stops on a refused MKD or an I/O error |
| FtpUpload.WalkStep | app/src/main/java/com/example/photobackerupper/data/remote/FtpClientWrapper.kt:139-145 | one iteration of the loop: extends `currentPath` by the next segment and does what the walk does at that prefix |
| FtpUpload.CreateWorkingPath | app/src/main/java/com/example/photobackerupper/data/remote/FtpClientWrapper.kt:137-146 | the loop's outcome, commands and final directory are the walk's over the path's prefixes |
| FtpUpload.CreateQuietly | app/src/main/java/com/example/photobackerupper/data/remote/FtpClientWrapper.kt:137-146 | the same walk, which adds no wait |
| FtpUpload.ChangeToWorkingDirectory | app/src/main/java/com/example/photobackerupper/data/remote/FtpClientWrapper.kt:135-149 | an accepted CWD of the working path enters it and a CWD I/O error stops at once; in every case the outcome, the commands, the directory entered and the answers used are those of entering the working path from the same answers |
| FtpUpload.EnterWorkingDirectory | app/src/main/java/com/example/photobackerupper/data/remote/FtpClientWrapper.kt:135-149 | the first command is CWD of the whole path; when it is accepted the session is there, with no MKD and no walk; when it fails with an I/O error nothing else is sent; a failed create happens only after a refusal and names one of the path's prefixes |
| FtpUpload.EnterFailureNamesPrefix | app/src/main/java/com/example/photobackerupper/data/remote/FtpClientWrapper.kt:135-144 | a failed create happens only after CWD of the whole path was refused; it names one of the path's absolute prefixes, and the MKD of that prefix is the last command |
| FtpUpload.ReconnectTraceHasNoWaits | app/src/main/java/com/example/photobackerupper/data/remote/FtpClientWrapper.kt:199-209 | the reconnect sequence, and any part of it, has no wait |
| FtpUpload.Reopen | app/src/main/java/com/example/photobackerupper/data/remote/FtpClientWrapper.kt:202-205 | connect, then log in unless the connect hit an I/O error; a refused greeting or login does not stop it |
| FtpUpload.Resume | app/src/main/java/com/example/photobackerupper/data/remote/FtpClientWrapper.kt:206-208 | TYPE I, then passive mode and CWD, unless TYPE I hit an I/O error |
| FtpUpload.Reconnect | app/src/main/java/com/example/photobackerupper/data/remote/FtpClientWrapper.kt:199-209 | connect, login, TYPE I, passive mode and CWD in order, each unless the step before hit an I/O error; it opens exactly one connection, ends in the state a reconnect from the same answers reaches, fails exactly when a step hits an I/O error, and has no wait |
| FtpUpload.ReconnectFrom | app/src/main/java/com/example/photobackerupper/data/remote/FtpClientWrapper.kt:202-208 | a reconnect gets through exactly when a greeting arrives and none of login, TYPE I and CWD hits an I/O error; it opens one connection, stores nothing and asks nothing of `isConnected`; a reconnect that gets through leaves the client connected |
| FtpUpload.AfterFailure | app/src/main/java/com/example/photobackerupper/data/remote/FtpClientWrapper.kt:199-209 | after the wait, one `isConnected` question; the loop may go on exactly when the connection is reported up or the reconnect gets through; one more connect exactly when the connection was found gone |
| FtpUpload.AfterFailedStore | app/src/main/java/com/example/photobackerupper/data/remote/FtpClientWrapper.kt:194-209 | wait 2^r seconds, then ask `isConnected`; when the connection is up nothing more is sent and the loop goes on; when it is gone exactly one reconnect follows, its commands in order after the wait, and the loop goes on exactly when that reconnect gets through |
| FtpUpload.StoreRound | app/src/main/java/com/example/photobackerupper/data/remote/FtpClientWrapper.kt:170-209 | one STOR answered with the server's next transfer; after the last attempt or a success nothing more is sent; otherwise one wait and the reconnect check; the transfer, the decision and the new state are those of one round from the same answers |
| FtpUpload.Round | app/src/main/java/com/example/photobackerupper/data/remote/FtpClientWrapper.kt:170-209 | one round uses the next transfer answer; it stops the loop without a result exactly when the transfer failed with attempts left, the connection was found gone and the reconnect did not get through |
| FtpUpload.StoreFrom | app/src/main/java/com/example/photobackerupper/data/remote/FtpClientWrapper.kt:163-211 | the store loop from attempt r makes between r+1 and three attempts |
| FtpUpload.StoreFromOutcomes | app/src/main/java/com/example/photobackerupper/data/remote/FtpClientWrapper.kt:163-211 | each attempt uses one transfer answer; the loop ends uploaded exactly when its last transfer was stored, after failed ones only, with that transfer's elapsed time; exhausted only after three attempts; a failed reconnect only before the third, when `isConnected` had reported the connection gone and the reconnect hit an I/O error |
| FtpUpload.LiveConnectionNeverReconnects | app/src/main/java/com/example/photobackerupper/data/remote/FtpClientWrapper.kt:186-209 | while `isConnected` reports the connection up, the loop never reconnects and never fails a reconnect; when every transfer fails it ends exhausted |
| FtpUpload.StoreStep | app/src/main/java/com/example/photobackerupper/data/remote/FtpClientWrapper.kt:169-210 | the next store attempt keeps the loop's account of answers used, waits made and reconnects |
| FtpUpload.FirstStore | app/src/main/java/com/example/photobackerupper/data/remote/FtpClientWrapper.kt:169-210 | the first attempt: a stored transfer sends only STOR; the loop's state and its decision agree with the store loop from the start |
| FtpUpload.StoreWithRetry | app/src/main/java/com/example/photobackerupper/data/remote/FtpClientWrapper.kt:163-211 | the outcome and the number of attempts are those of the store loop over the server's answers; one transfer answer per attempt; the waits are 2 and then 4 seconds; at most one reconnect per wait; a first-time store sends only STOR |
| FtpUpload.StoreLoop | app/src/main/java/com/example/photobackerupper/data/remote/FtpClientWrapper.kt:169-211 | the loop stops at a stored transfer, after the third attempt, or when the loop may not go on; how it ended and after how many attempts is what the store loop over the server's answers decides |
| FtpUpload.Cleanup | app/src/main/java/com/example/photobackerupper/data/remote/FtpClientWrapper.kt:221-231 | QUIT and close only when still connected; an I/O error during QUIT skips the close and is swallowed |
| FtpUpload.OpenSession | app/src/main/java/com/example/photobackerupper/data/remote/FtpClientWrapper.kt:49-119 | connect failure exactly when all five greetings fail, and then no login is sent; login failure exactly when a greeting was accepted and all three logins fail; an I/O error exactly when both succeeded and TYPE I hit one; otherwise the session is ready: it stopped at the first accepted greeting and the first accepted login, sent TYPE I once and asked nothing else |
| FtpUpload.UploadInSession | app/src/main/java/com/example/photobackerupper/data/remote/FtpClientWrapper.kt:135-216 | the result is the session result over the server's answers: a refused create of a prefix, an I/O error entering the path, or what the store loop decides; a first-time CWD and store send only CWD and STOR |
| FtpUpload.StoreInSession | app/src/main/java/com/example/photobackerupper/data/remote/FtpClientWrapper.kt:163-216 | the result is the store loop's outcome: uploaded is a success with its elapsed time, exhausted is `UploadFailed`, a failed reconnect is an I/O error |
| FtpUpload.SessionResult | app/src/main/java/com/example/photobackerupper/data/remote/FtpClientWrapper.kt:135-219 | an open session fails only with a refused create, `UploadFailed` or an I/O error |
| FtpUpload.SessionCreateFailure | app/src/main/java/com/example/photobackerupper/data/remote/FtpClientWrapper.kt:135-144 | a directory failure means CWD of the whole path was refused, and it names the absolute prefix where the walk stopped |
| FtpUpload.SessionSuccess | app/src/main/java/com/example/photobackerupper/data/remote/FtpClientWrapper.kt:163-216 | success exactly when the directory is ready and the store loop ends uploaded; the elapsed time is that of the first stored transfer among at most three |
| FtpUpload.SessionUploadFailed | app/src/main/java/com/example/photobackerupper/data/remote/FtpClientWrapper.kt:186-192 | `UploadFailed` means the directory was ready and three transfers in a row failed |
| FtpUpload.SessionRefusedOnLiveConnection | app/src/main/java/com/example/photobackerupper/data/remote/FtpClientWrapper.kt:186-209 | with the directory ready and the connection reported up throughout, three failed transfers give `UploadFailed` |
| FtpUpload.SessionIoFailure | app/src/main/java/com/example/photobackerupper/data/remote/FtpClientWrapper.kt:199-219 | an I/O error comes from entering the working path, or from a reconnect that hit one after the connection was found gone |
| FtpUpload.TryUpload | app/src/main/java/com/example/photobackerupper/data/remote/FtpClientWrapper.kt:30-220 | an invalid port fails with nothing sent; connect and login failures happen exactly under their conditions; once both succeed, TYPE I's I/O error fails, and otherwise the session is ready and the result is the session result over the server's answers; a success reports the first stored transfer; the commands of a first-time success are listed in order |
| FtpUpload.UploadFile | app/src/main/java/com/example/photobackerupper/data/remote/FtpClientWrapper.kt:27-233 | the result classifies the server's answers: invalid port, five failed connects (no login), three failed logins, an I/O error on TYPE I, and otherwise the session result (a refused create of a prefix, three failed stores, an I/O error, or the elapsed time of the first stored attempt); at most 7 connects, 5 logins and 3 stores; no wait over ten seconds |
| Service.CreateHistoryEntity | app/src/main/java/com/example/photobackerupper/service/BackupService.kt:560-587 | the row is SUCCESS exactly for a successful upload, with that duration, and FAILURE with duration 0 otherwise; path, name, size, time and session are copied in both cases |
| Service.Advance | app/src/main/java/com/example/photobackerupper/service/BackupService.kt:385-397 | completed goes up by one and exactly one of success or failure goes up by one; the size grows by the file's length only on success; nothing else changes |
| Service.OutcomesPartition | app/src/main/java/com/example/photobackerupper/service/BackupService.kt:426-433 | successes and failures add up to the number of rows |
| Service.AdvanceAllCounts | app/src/main/java/com/example/photobackerupper/service/BackupService.kt:385-397 | after the per-file updates, completed has grown by the number of files and the other counters by the successes, the failures and the uploaded bytes |
| Service.UpsertRecords | app/src/main/java/com/example/photobackerupper/service/BackupService.kt:381-382 | inserting a file's row records it and keeps every other file's record |
| Service.Tally | app/src/main/java/com/example/photobackerupper/service/BackupService.kt:425-433 | the final loop counts the successes, the failures and the bytes of the successful files; the two counts add up to the number of files |
| Service.SessionRow | app/src/main/java/com/example/photobackerupper/service/BackupService.kt:441-448 | the row overwrites an existing session exactly when its id is non-zero; the duration is end minus start |
| Service.BackupService.constructor | app/src/main/java/com/example/photobackerupper/service/BackupService.kt:136-144 | the service starts idle, with every counter 0, no message and no session |
| Service.BackupService.Now | app/src/main/java/com/example/photobackerupper/service/BackupService.kt:339 | each clock read takes the next reading |
| Service.BackupService.Reset | app/src/main/java/com/example/photobackerupper/service/BackupService.kt:306-316 | backing up, every counter 0, no message |
| Service.BackupService.OpenSession | app/src/main/java/com/example/photobackerupper/service/BackupService.kt:320-332 | the provisional session (COMPLETED, 0, 0, duration 0) is stored under a new positive id, which becomes the current session |
| Service.BackupService.Abort | app/src/main/java/com/example/photobackerupper/service/BackupService.kt:472-494 | it stops with the message; for a positive id the session becomes ERROR_STOPPED with the live counts and the duration up to now |
| Service.BackupService.UploadOne | app/src/main/java/com/example/photobackerupper/service/BackupService.kt:378-397 | one upload, one history row at the next clock reading for the current session, stored by REPLACE and counted once |
| Service.BackupService.UploadNext | app/src/main/java/com/example/photobackerupper/service/BackupService.kt:373-421 | the next target is uploaded, recorded and counted, and the earlier targets stay recorded |
| Service.BackupService.UploadAll | app/src/main/java/com/example/photobackerupper/service/BackupService.kt:373-425 | one row per target in order, each for the current session; the state is the per-file updates applied in order; every target is recorded |
| Service.BackupService.CompleteBackup | app/src/main/java/com/example/photobackerupper/service/BackupService.kt:425-460 | the counters become the tallies; for a positive id the session is rewritten as COMPLETED with those counts and the duration end minus start, and reads back as such |
| Service.BackupService.StartBackup | app/src/main/java/com/example/photobackerupper/service/BackupService.kt:296-504 | a whole run: the targets are the target list over the successful paths at the start; a blank address ends as ERROR_STOPPED with no file; no targets leave the provisional session; otherwise every target is recorded, completed = success + failure = targets, and the session is COMPLETED with those counts; the session table is the earlier rows plus the run's own row, and every earlier row is still stored |
| Service.BackupService.Begin | app/src/main/java/com/example/photobackerupper/service/BackupService.kt:306-339 | reset, the provisional session appended to the session table under a new id, then the run's start time |
| Service.BackupService.Run | app/src/main/java/com/example/photobackerupper/service/BackupService.kt:344-470 | the `try` block ends the run in one of the three ways `StartBackup` states, rewriting at most the current session's row |
| Service.BackupService.AbortBlank | app/src/main/java/com/example/photobackerupper/service/BackupService.kt:346-350 | a blank address stops the run before any file; the current session's row, and no other, becomes ERROR_STOPPED with counts 0 |
| Service.BackupService.StopEmpty | app/src/main/java/com/example/photobackerupper/service/BackupService.kt:353-363 | no targets: stopped with the "no new files" message, and the session table and history are unchanged |
| Service.BackupService.BackupFiles | app/src/main/java/com/example/photobackerupper/service/BackupService.kt:365-460 | a non-empty target list is uploaded, recorded and completed; only the current session's row is rewritten |
| Service.BackupService.UploadTargets | app/src/main/java/com/example/photobackerupper/service/BackupService.kt:365-433 | the total is the number of targets, the counters are the outcome counts, and every target is recorded |
| Service.BackupService.Complete | app/src/main/java/com/example/photobackerupper/service/BackupService.kt:425-460 | after all targets the run stops with the outcome counts, and the current session's row, and no other, is rewritten as COMPLETED with them |
| Service.BackupService.CompletedIsFinished | app/src/main/java/com/example/photobackerupper/service/BackupService.kt:425-460 | the field-by-field state after completion is a finished run |
| Service.BackupService.FinishedKeepsOtherSessions | app/src/main/java/com/example/photobackerupper/service/BackupService.kt:296-504 | a finished run keeps every session row other than the current one |
| Service.BackupService.StopBackup | app/src/main/java/com/example/photobackerupper/service/BackupService.kt:509-552 | it stops with the user-stopped message; a stored current session becomes USER_CANCELLED with the live counts, its own start time and the duration up to now; no session is added or removed and history is untouched |

## Left out

- The fan-out through `Semaphore(5)` and `async`/`awaitAll` is modelled as uploads one after another in target order. The model has no interleaving of the counter updates and no five-permit bound. History rows are inserted in target order rather than completion order.
- Cancellation of a running job (`backupJob?.cancel()`) is not modelled. `StopBackup` is an operation on its own, and the run it stops is not interrupted halfway. Its session rewrite runs in the same step rather than in a separately launched coroutine.
- Notifications, broadcasts, the wake lock, the foreground service and the network callbacks of `BackupService.kt` are user-interface and platform I/O. Logging is left out too.
- Float arithmetic is not modelled: the duration in seconds and the size in MB sent with the broadcasts. The backoff's `Math.pow` is written as the integer 2^r·1000 capped at 10000, which equals it for every retry count used.
- The `FTPClient` configuration (encoding, timeouts, keep-alive, buffer size) and the socket and byte stream are library calls. The server's answers are the `Server` oracle.
  - A failure to open the local file's stream, and the clock readings around `storeFile`, are folded into the transfer outcome (`Broken`, `Stored(elapsedMs)`).
  - The text of the exceptions in `Result.failure` is not modelled; `UploadError` names the cause.
- The check for files over 50 GB only logs, so it is not modelled.
- The media index query (`getLocalImageAndVideoPaths`) is an input list of paths. `File.exists()` and `File.length()` are one snapshot of the file system (`FileLengths`), read once per file.
- `file.absolutePath` is taken to be the path the media index reports, which is absolute.
- The Room and DataStore engines are not modelled. Tables are sequences and preferences are maps. Queries that return a `Flow` give the current table contents.
  - `getAllSuccessfulBackupPaths` has no `ORDER BY`; it returns storage order.
  - Sorting ties keep storage order; SQLite does not promise that.
- Dao.Database.InsertSession: a REPLACE of an existing session id is modelled as an overwrite that keeps the session's history rows. Room turns SQLite's foreign keys on, and SQLite's REPLACE deletes the old row first, so in the app the ON DELETE CASCADE of `file_history` probably fires: finalising a run (BackupService.kt:449, :493 and :543) would then delete that run's history rows. The model is the reading without that cascade.
- Dao.Database.InsertFileHistory: a row naming a missing session returns `false` and leaves the table unchanged. The library throws a constraint exception instead. The service never inserts such a row, because the current session is always stored.
- Integer widths: the `Int` and `Long` counters, sizes and times are unbounded. Overflow is not modelled. The port keeps its 32-bit `Int` range.
- SettingsUi.ToIntOrNull: only the ASCII digits '0' to '9' are accepted. Kotlin also accepts the other Unicode decimal digits.
- PhotoRepo.FileName: does not model `java.io.File` dropping a trailing '/' before taking the name. Media paths do not end in '/'.
- Service.BackupService.Run: only one exception is modelled, a blank server address. The other exceptions that could end the `try` block (database failures, a failed settings read) are not modelled; `Abort` is the `catch` block they would reach.
- The settings are read once, as the parameter of `StartBackup`.
- FtpSession.FtpClient.IsConnected: the answer on an open socket is the server oracle's `alive`. It is not derived from the library's socket state.
- FtpUpload.TryUpload: a port outside 0..65535 fails at once with `InvalidPort` and nothing sent, which is what happens when the host name resolves. The library resolves the host name before it checks the port, so with a name that does not resolve the connect loop retries (`UnknownHostException` is an `IOException`) and ends with `ConnectFailed`. Host name resolution is not modelled.
- FtpSession.FtpClient.Connect: an `Unreachable` greeting leaves the client disconnected. A socket that opens but whose greeting times out, or whose 421 reply fails the connect, is not modelled: the library leaves `isConnected` true then, so the `finally` block would also send QUIT.

=== FILE: chars.dfy ===
/** Character classes used by the parsers and checks of the app. */
module Chars {

  /** An ASCII decimal digit (`\d` in a Java regex, and the digits `toIntOrNull` accepts here). */
  predicate IsDigit(c: char) {
    '0' <= c <= '9'
  }

  predicate AllDigits(s: string) {
    forall i :: 0 <= i < |s| ==> IsDigit(s[i])
  }

  /**
   * Kotlin's `Char.isWhitespace()` on the JVM: Java whitespace or a Unicode
   * space separator, line separator or paragraph separator.
   */
  predicate IsWhitespace(c: char)
    ensures c == ' ' || c == '\t' || c == '\n' || c == '\U{00A0}' || c == '\U{3000}' ==> IsWhitespace(c)
    ensures IsDigit(c) || c == '.' || ('a' <= c <= 'z') || ('A' <= c <= 'Z') ==> !IsWhitespace(c)
  {
    c == ' ' || c == '\t' || c == '\n' || c == '\U{000B}' || c == '\U{000C}' || c == '\r'
    || ('\U{001C}' <= c <= '\U{001F}')
    || c == '\U{00A0}' || c == '\U{1680}' || ('\U{2000}' <= c <= '\U{200A}')
    || c == '\U{2028}' || c == '\U{2029}' || c == '\U{202F}' || c == '\U{205F}' || c == '\U{3000}'
  }

  /** Kotlin's `isBlank()`: empty or whitespace only. */
  predicate IsBlank(s: string)
    ensures s == [] ==> IsBlank(s)
    ensures (exists i :: 0 <= i < |s| && !IsWhitespace(s[i])) ==> !IsBlank(s)
    ensures IsBlank(s) && |s| > 0 ==> IsWhitespace(s[0]) && IsBlank(s[1..])
  {
    forall i :: 0 <= i < |s| ==> IsWhitespace(s[i])
  }
}

=== FILE: converters.dfy ===
/**
 * Room type converters: each enum is stored as its constant's name and read
 * back with `valueOf`, which rejects any string that is not exactly such a
 * name (case-sensitive). `None` stands for that rejection.
 */
module Converters {
  import opened Wrappers
  import opened Entities

  function FromBackupStatus(status: BackupStatus): (name: string)
    ensures ToBackupStatus(name) == Some(status)
  {
    match status
    case SUCCESS => "SUCCESS"
    case FAILURE => "FAILURE"
  }

  function ToBackupStatus(name: string): (r: Option<BackupStatus>)
    ensures r.Some? <==> name == "SUCCESS" || name == "FAILURE"
  {
    if name == "SUCCESS" then Some(SUCCESS)
    else if name == "FAILURE" then Some(FAILURE)
    else None
  }

  function FromBackupResult(result: BackupResult): (name: string)
    ensures ToBackupResult(name) == Some(result)
  {
    match result
    case COMPLETED => "COMPLETED"
    case USER_CANCELLED => "USER_CANCELLED"
    case ERROR_STOPPED => "ERROR_STOPPED"
  }

  function ToBackupResult(name: string): (r: Option<BackupResult>)
    ensures r.Some? <==> name == "COMPLETED" || name == "USER_CANCELLED" || name == "ERROR_STOPPED"
  {
    if name == "COMPLETED" then Some(COMPLETED)
    else if name == "USER_CANCELLED" then Some(USER_CANCELLED)
    else if name == "ERROR_STOPPED" then Some(ERROR_STOPPED)
    else None
  }

  /** A stored status string that decodes is written back unchanged. */
  lemma StatusNameRoundTrip(name: string)
    requires ToBackupStatus(name).Some?
    ensures FromBackupStatus(ToBackupStatus(name).value) == name
  {
  }

  /** A stored result string that decodes is written back unchanged. */
  lemma ResultNameRoundTrip(name: string)
    requires ToBackupResult(name).Some?
    ensures FromBackupResult(ToBackupResult(name).value) == name
  {
  }

  /**
   * The literal 'SUCCESS' in the successful-paths query is what the
   * converter stores for SUCCESS, and no other status is stored as it.
   */
  lemma SuccessLiteralMatchesQuery(status: BackupStatus)
    ensures FromBackupStatus(status) == "SUCCESS" <==> status == SUCCESS
  {
  }
}

=== FILE: dao.dfy ===
/**
 * The two Room tables as in-memory rows, in storage order, with the
 * operations of the history DAO and the session DAO. Inserts use the REPLACE
 * conflict strategy; the queries are filters and `ORDER BY ... DESC` sorts.
 */
module Dao {
  import opened Wrappers
  import opened Entities
  import opened Lists

  function PathOf(h: FileHistoryEntity): string { h.filePath }
  function UploadTimeOf(h: FileHistoryEntity): int { h.uploadTimestamp }
  function IdOf(s: BackupSessionEntity): int { s.id }
  function BackupTimeOf(s: BackupSessionEntity): int { s.backupTimestamp }

  /** Row filters used by the queries. */
  function PathIsNot(p: string): FileHistoryEntity -> bool { (h: FileHistoryEntity) => h.filePath != p }
  function UploadedSince(t: int): FileHistoryEntity -> bool { (h: FileHistoryEntity) => h.uploadTimestamp >= t }
  function InSession(id: int): FileHistoryEntity -> bool { (h: FileHistoryEntity) => h.sessionId == id }
  function NotInSession(id: int): FileHistoryEntity -> bool { (h: FileHistoryEntity) => h.sessionId != id }
  function IdIsNot(id: int): BackupSessionEntity -> bool { (s: BackupSessionEntity) => s.id != id }

  /** `filePath` is the primary key of `file_history`. */
  predicate DistinctPaths(rows: seq<FileHistoryEntity>) {
    forall i, j :: 0 <= i < j < |rows| ==> rows[i].filePath != rows[j].filePath
  }

  /** `id` is the primary key of `backup_session`. */
  predicate DistinctIds(rows: seq<BackupSessionEntity>) {
    forall i, j :: 0 <= i < j < |rows| ==> rows[i].id != rows[j].id
  }

  function SessionIds(rows: seq<BackupSessionEntity>): set<int> {
    set s | s in rows :: s.id
  }

  // ---- file_history ----

  /**
   * The rows after `INSERT OR REPLACE` of `e`: the row with the same path, if
   * any, is deleted and `e` is stored as a new row.
   */
  function Upsert(rows: seq<FileHistoryEntity>, e: FileHistoryEntity): (r: seq<FileHistoryEntity>)
    ensures DistinctPaths(rows) ==> DistinctPaths(r)
    ensures e in r
    ensures forall i :: 0 <= i < |r| && r[i].filePath == e.filePath ==> r[i] == e
    ensures forall i :: 0 <= i < |r| && r[i].filePath != e.filePath ==> r[i] in rows
    ensures forall i :: 0 <= i < |rows| && rows[i].filePath != e.filePath ==> rows[i] in r
  {
    var kept := Filter(rows, PathIsNot(e.filePath));
    assert DistinctPaths(rows) ==> DistinctPaths(kept) by {
      if DistinctPaths(rows) {
        assert DistinctKeys(rows, PathOf);
        FilterKeepsDistinctKeys(rows, PathIsNot(e.filePath), PathOf);
      }
    }
    assert forall i :: 0 <= i < |kept| ==> kept[i] in kept;
    assert forall i :: 0 <= i < |rows| ==> rows[i] in rows;
    kept + [e]
  }

  /** The paths of the rows whose status is SUCCESS. */
  function SuccessfulPaths(rows: seq<FileHistoryEntity>): (r: seq<string>)
    ensures forall p :: p in r <==> exists i :: 0 <= i < |rows| && rows[i].filePath == p && rows[i].status == SUCCESS
  {
    if rows == [] then []
    else
      var rest := SuccessfulPaths(rows[1..]);
      assert forall i :: 1 <= i < |rows| ==> rows[i] == rows[1..][i - 1];
      if rows[0].status == SUCCESS then [rows[0].filePath] + rest else rest
  }

  /** Re-inserting a path with FAILURE takes it out of the successful set. */
  lemma FailureReplacesSuccess(rows: seq<FileHistoryEntity>, e: FileHistoryEntity)
    requires e.status == FAILURE
    ensures e.filePath !in SuccessfulPaths(Upsert(rows, e))
  {
  }

  /** Inserting with SUCCESS puts the path in the successful set. */
  lemma SuccessIsRecorded(rows: seq<FileHistoryEntity>, e: FileHistoryEntity)
    requires e.status == SUCCESS
    ensures e.filePath in SuccessfulPaths(Upsert(rows, e))
  {
    var r := Upsert(rows, e);
    var i :| 0 <= i < |r| && r[i] == e;
  }

  /** An insert leaves whether any other path is successful as it was. */
  lemma OtherPathsUnaffected(rows: seq<FileHistoryEntity>, e: FileHistoryEntity, p: string)
    requires p != e.filePath
    ensures p in SuccessfulPaths(Upsert(rows, e)) <==> p in SuccessfulPaths(rows)
  {
    var r := Upsert(rows, e);
    if p in SuccessfulPaths(r) {
      var i :| 0 <= i < |r| && r[i].filePath == p && r[i].status == SUCCESS;
      var j :| 0 <= j < |rows| && rows[j] == r[i];
    }
    if p in SuccessfulPaths(rows) {
      var j :| 0 <= j < |rows| && rows[j].filePath == p && rows[j].status == SUCCESS;
      var i :| 0 <= i < |r| && r[i] == rows[j];
    }
  }

  // ---- backup_session ----

  /**
   * `INSERT OR REPLACE` of a session with an explicit id: the row with that
   * id is overwritten in place, or the session is added when there is none.
   */
  function PutSession(rows: seq<BackupSessionEntity>, s: BackupSessionEntity): (r: seq<BackupSessionEntity>)
    requires DistinctIds(rows)
    ensures DistinctIds(r)
    ensures s in r
    ensures SessionIds(r) == SessionIds(rows) + {s.id}
    ensures s.id in SessionIds(rows) ==> |r| == |rows|
    ensures s.id !in SessionIds(rows) ==> r == rows + [s]
    ensures forall i :: 0 <= i < |rows| && rows[i].id != s.id ==> rows[i] in r
    ensures forall i :: 0 <= i < |r| && r[i].id != s.id ==> r[i] in rows
  {
    var k := IndexOfId(rows, s.id);
    if k < 0 then
      rows + [s]
    else
      var r := rows[k := s];
      assert forall i :: 0 <= i < |rows| && i != k ==> r[i] == rows[i];
      assert SessionIds(r) == SessionIds(rows) by {
        forall x | x in SessionIds(rows) ensures x in SessionIds(r) {
          var y :| y in rows && y.id == x;
          var i :| 0 <= i < |rows| && rows[i] == y;
          assert r[i].id == x;
        }
        forall x | x in SessionIds(r) ensures x in SessionIds(rows) {
          var y :| y in r && y.id == x;
          var i :| 0 <= i < |r| && r[i] == y;
          assert rows[i].id == x;
        }
      }
      r
  }

  /** The position of the row with `id`, or -1. */
  function IndexOfId(rows: seq<BackupSessionEntity>, id: int): (k: int)
    ensures -1 <= k < |rows|
    ensures k >= 0 ==> rows[k].id == id
    ensures k < 0 ==> id !in SessionIds(rows)
  {
    if rows == [] then -1
    else if rows[|rows| - 1].id == id then |rows| - 1
    else
      var k := IndexOfId(rows[..|rows| - 1], id);
      assert rows == rows[..|rows| - 1] + [rows[|rows| - 1]];
      k
  }

  /** Dropping the rows with one id removes exactly that id. */
  lemma DeletedIds(rows: seq<BackupSessionEntity>, id: int)
    ensures SessionIds(Filter(rows, IdIsNot(id))) == SessionIds(rows) - {id}
  {
    var kept := Filter(rows, IdIsNot(id));
    forall x | x in SessionIds(rows) - {id} ensures x in SessionIds(kept) {
      var r :| r in rows && r.id == x;
      var i :| 0 <= i < |rows| && rows[i] == r;
      assert rows[i] in kept;
    }
    forall x | x in SessionIds(kept) ensures x in SessionIds(rows) - {id} {
      var r :| r in kept && r.id == x;
      var j :| 0 <= j < |kept| && kept[j] == r;
      assert kept[j] in rows;
    }
  }

  /** The row with `id`, if any. */
  function FindSession(rows: seq<BackupSessionEntity>, id: int): (r: Option<BackupSessionEntity>)
    ensures r.Some? ==> r.value in rows && r.value.id == id
    ensures r.None? <==> id !in SessionIds(rows)
  {
    if rows == [] then None
    else
      assert SessionIds(rows) == {rows[0].id} + SessionIds(rows[1..]);
      if rows[0].id == id then Some(rows[0]) else FindSession(rows[1..], id)
  }

  /** In a table with distinct ids, looking up a stored row's id finds that row. */
  lemma FindStored(rows: seq<BackupSessionEntity>, s: BackupSessionEntity)
    requires DistinctIds(rows) && s in rows
    ensures FindSession(rows, s.id) == Some(s)
  {
    var r := FindSession(rows, s.id).value;
    var i :| 0 <= i < |rows| && rows[i] == r;
    var j :| 0 <= j < |rows| && rows[j] == s;
    assert IdOf(rows[i]) == IdOf(rows[j]);
  }

  /** The local database: both tables and `backup_session`'s AUTOINCREMENT counter. */
  class Database {
    var history: seq<FileHistoryEntity>
    var sessions: seq<BackupSessionEntity>
    var lastSessionId: int

    /**
     * Both primary keys hold, every stored id is non-zero and at most the
     * counter, and every history row's session exists (the foreign key).
     */
    ghost predicate Valid()
      reads this
    {
      DistinctPaths(history) && DistinctIds(sessions) && 0 <= lastSessionId &&
      (forall i :: 0 <= i < |sessions| ==> sessions[i].id != 0 && sessions[i].id <= lastSessionId) &&
      (forall i :: 0 <= i < |history| ==> history[i].sessionId in SessionIds(sessions))
    }

    constructor ()
      ensures Valid()
      ensures history == [] && sessions == [] && lastSessionId == 0
    {
      history, sessions, lastSessionId := [], [], 0;
    }

    /**
     * `insertFileHistory`: REPLACE on `filePath`. With foreign keys enforced,
     * a row naming a missing session is refused and nothing changes.
     */
    method InsertFileHistory(e: FileHistoryEntity) returns (ok: bool)
      requires Valid()
      modifies this`history
      ensures Valid()
      ensures ok <==> e.sessionId in SessionIds(sessions)
      ensures history == if ok then Upsert(old(history), e) else old(history)
    {
      ok := e.sessionId in SessionIds(sessions);
      if ok {
        history := Upsert(history, e);
      }
    }

    /**
     * `insertSession`: an id of 0 is assigned the next AUTOINCREMENT value;
     * a non-zero id overwrites that row, or adds it when it is missing.
     * Returns the row id.
     */
    method InsertSession(s: BackupSessionEntity) returns (id: int)
      requires Valid()
      modifies this`sessions, this`lastSessionId
      ensures Valid()
      ensures s.IsNew() ==> id == old(lastSessionId) + 1 && id !in old(SessionIds(sessions))
      ensures s.IsNew() ==> sessions == old(sessions) + [s.(id := id)]
      ensures !s.IsNew() ==> id == s.id && sessions == PutSession(old(sessions), s)
      ensures SessionIds(sessions) == old(SessionIds(sessions)) + {id}
    {
      if s.IsNew() {
        id := lastSessionId + 1;
        assert id !in SessionIds(sessions);
        sessions := sessions + [s.(id := id)];
        lastSessionId := id;
      } else {
        id := s.id;
        sessions := PutSession(sessions, s);
        if lastSessionId < id {
          lastSessionId := id;
        }
        forall i | 0 <= i < |sessions| ensures sessions[i].id != 0 && sessions[i].id <= lastSessionId {
          assert sessions[i] in sessions;
          assert sessions[i].id in SessionIds(sessions);
        }
      }
    }

    /**
     * Deleting a session (as SQLite does for ON DELETE CASCADE) deletes every
     * history row that references it; no DAO issues this delete.
     */
    method DeleteSession(id: int)
      requires Valid()
      modifies this`sessions, this`history
      ensures Valid()
      ensures SessionIds(sessions) == old(SessionIds(sessions)) - {id}
      ensures forall i :: 0 <= i < |history| ==> history[i].sessionId != id
      ensures history == Filter(old(history), NotInSession(id))
    {
      var keptSessions := Filter(sessions, IdIsNot(id));
      var keptHistory := Filter(history, NotInSession(id));
      assert DistinctKeys(sessions, IdOf) && DistinctKeys(history, PathOf);
      FilterKeepsDistinctKeys(sessions, IdIsNot(id), IdOf);
      FilterKeepsDistinctKeys(history, NotInSession(id), PathOf);
      DeletedIds(sessions, id);
      forall j | 0 <= j < |keptHistory| ensures keptHistory[j].sessionId in SessionIds(keptSessions) {
        assert keptHistory[j] in history;
      }
      forall j | 0 <= j < |keptSessions| ensures keptSessions[j].id != 0 && keptSessions[j].id <= lastSessionId {
        assert keptSessions[j] in sessions;
      }
      sessions, history := keptSessions, keptHistory;
    }

    /** `getAllSuccessfulBackupPaths`: exactly the paths of SUCCESS rows. */
    function GetAllSuccessfulBackupPaths(): (r: seq<string>)
      reads this
      ensures forall p :: p in r <==> exists i :: 0 <= i < |history| && history[i].filePath == p && history[i].status == SUCCESS
    {
      SuccessfulPaths(history)
    }

    /** `getAllHistory`: every row, newest upload first. */
    function GetAllHistory(): (r: seq<FileHistoryEntity>)
      reads this
      ensures multiset(r) == multiset(history)
      ensures SortedDesc(r, UploadTimeOf)
    {
      SortDesc(history, UploadTimeOf)
    }

    /** `getHistoryAfterTimestamp`: the rows uploaded at or after `t`, newest first. */
    function GetHistoryAfterTimestamp(t: int): (r: seq<FileHistoryEntity>)
      reads this
      ensures multiset(r) == multiset(Filter(history, UploadedSince(t)))
      ensures SortedDesc(r, UploadTimeOf)
    {
      SortDesc(Filter(history, UploadedSince(t)), UploadTimeOf)
    }

    /** `getAllSessions`: every session, newest start first. */
    function GetAllSessions(): (r: seq<BackupSessionEntity>)
      reads this
      ensures multiset(r) == multiset(sessions)
      ensures SortedDesc(r, BackupTimeOf)
    {
      SortDesc(sessions, BackupTimeOf)
    }

    /** `getFilesForSession`: the history rows of one session, newest upload first. */
    function GetFilesForSession(sessionId: int): (r: seq<FileHistoryEntity>)
      reads this
      ensures multiset(r) == multiset(Filter(history, InSession(sessionId)))
      ensures SortedDesc(r, UploadTimeOf)
    {
      SortDesc(Filter(history, InSession(sessionId)), UploadTimeOf)
    }

    /** `getSessionById`: the row with that id, or null. */
    function GetSessionById(id: int): (r: Option<BackupSessionEntity>)
      reads this
      ensures r.Some? ==> r.value in sessions && r.value.id == id
      ensures r.None? <==> id !in SessionIds(sessions)
    {
      FindSession(sessions, id)
    }

    /** Every row of the after-timestamp query is also a row of the full history query. */
    lemma AfterTimestampWithinAll(t: int)
      ensures forall x :: x in GetHistoryAfterTimestamp(t) ==> x in GetAllHistory()
    {
      forall x | x in GetHistoryAfterTimestamp(t) ensures x in GetAllHistory() {
        var kept := Filter(history, UploadedSince(t));
        SortDescMembers(kept, UploadTimeOf, x);
        assert x in kept;
        SortDescMembers(history, UploadTimeOf, x);
      }
    }
  }
}

=== FILE: entities.dfy ===
/**
 * The two Room entities of the local ledger and their enums: one row per
 * backup run (`backup_session`) and one row per file transfer attempt
 * (`file_history`, keyed by the file path).
 */
module Entities {

  /** Outcome of one file transfer. */
  datatype BackupStatus = SUCCESS | FAILURE

  /** Terminal outcome of one backup run. */
  datatype BackupResult = COMPLETED | USER_CANCELLED | ERROR_STOPPED

  /**
   * A `file_history` row. `filePath` is the primary key; `sessionId` is a
   * foreign key to `backup_session.id` declared ON DELETE CASCADE.
   */
  datatype FileHistoryEntity = FileHistoryEntity(
    filePath: string,
    fileName: string,
    fileSize: int,
    uploadTimestamp: int,
    uploadDurationMs: int,
    status: BackupStatus,
    sessionId: int)

  /**
   * A `backup_session` row. The id is auto-generated: an entity built with
   * the default id 0 is new and the store assigns its id; a non-zero id names
   * the row to overwrite. Every other field has no default.
   */
  datatype BackupSessionEntity = BackupSessionEntity(
    id: int := 0,
    backupTimestamp: int,
    backupResult: BackupResult,
    successCount: int,
    failureCount: int,
    totalDurationMs: int)
  {
    /** True when the store is to assign the id. */
    predicate IsNew() {
      id == 0
    }
  }
}

=== FILE: ftp_session.dfy ===
/**
 * One FTP control session as the upload code sees it through Apache Commons
 * Net's `FTPClient`. What the server answers is not computed here: a `Server`
 * says what the n-th call of each kind returns, and the client records the
 * commands it sends (and the waits between them) in a trace.
 * Command names follow section 4.1 of RFC 959; a reply code counts as success
 * when it is a positive completion reply (2yz, section 4.2.1 of RFC 959).
 */
module FtpSession {
  import opened Wrappers

  /** The highest wait the retry loops ever ask for. */
  const BackoffCapMs: nat := 10000

  /** Reply codes 200 to 299. */
  predicate PositiveCompletion(code: int) {
    200 <= code <= 299
  }

  /** A TCP port number `InetSocketAddress` accepts. */
  predicate ValidPort(port: int) {
    0 <= port <= 65535
  }

  /** What `connect` ends with: a greeting reply, or an I/O failure before one. */
  datatype Greeting = Reply(code: int) | Unreachable

  predicate Accepted(g: Greeting) {
    g.Reply? && PositiveCompletion(g.code)
  }

  /** A boolean command: `true`, `false`, or an `IOException`. */
  datatype Answer = Yes | No | IoError

  /** `storeFile`: stored after the given number of milliseconds, `false`, or an `IOException`. */
  datatype Transfer = Stored(elapsedMs: int) | Refused | Broken

  /**
   * The server's behaviour: the answer to the n-th call (counted from 0 in
   * this session) of each kind. `alive(n)` is what the n-th `isConnected`
   * check on an open connection reports.
   */
  datatype Server = Server(
    greeting: nat -> Greeting,
    login: nat -> Answer,
    fileType: nat -> Answer,
    cwd: nat -> Answer,
    mkd: nat -> Answer,
    store: nat -> Transfer,
    alive: nat -> bool,
    logout: nat -> Answer)
  {
    // Named readers of the answers, so that code over a client refers to them without applying a function value.
    function GreetingAt(n: nat): Greeting { greeting(n) }
    function LoginAt(n: nat): Answer { login(n) }
    function FileTypeAt(n: nat): Answer { fileType(n) }
    function CwdAt(n: nat): Answer { cwd(n) }
    function MkdAt(n: nat): Answer { mkd(n) }
    function StoreAt(n: nat): Transfer { store(n) }
    function AliveAt(n: nat): bool { alive(n) }
    function LogoutAt(n: nat): Answer { logout(n) }
  }

  /** What the client does, in order. */
  datatype Event =
    | Sleep(ms: nat)
    | Open(host: string, port: int)
    | Close
    | UserPass(user: string, password: string)
    | TypeImage
    | Passive
    | Cwd(path: string)
    | Mkd(path: string)
    | Stor(name: string)
    | Quit

  function IsOpen(e: Event): bool { e.Open? }
  function IsUserPass(e: Event): bool { e.UserPass? }
  function IsStor(e: Event): bool { e.Stor? }

  /** How many events of the trace satisfy `p`. */
  function Count(t: seq<Event>, p: Event -> bool): (n: nat)
    ensures n <= |t|
  {
    if t == [] then 0 else (if p(t[0]) then 1 else 0) + Count(t[1..], p)
  }

  lemma {:induction false} CountAppend(a: seq<Event>, b: seq<Event>, p: Event -> bool)
    ensures Count(a + b, p) == Count(a, p) + Count(b, p)
  {
    if a == [] {
      assert a + b == b;
    } else {
      assert (a + b)[1..] == a[1..] + b;
      CountAppend(a[1..], b, p);
    }
  }

  /** The waits of the trace, in order. */
  function Waits(t: seq<Event>): (w: seq<nat>)
    ensures |w| <= |t|
  {
    if t == [] then [] else (if t[0].Sleep? then [t[0].ms] else []) + Waits(t[1..])
  }

  lemma {:induction false} WaitsAppend(a: seq<Event>, b: seq<Event>)
    ensures Waits(a + b) == Waits(a) + Waits(b)
  {
    if a == [] {
      assert a + b == b;
    } else {
      assert (a + b)[1..] == a[1..] + b;
      WaitsAppend(a[1..], b);
      var head: seq<nat> := if a[0].Sleep? then [a[0].ms] else [];
      calc {
        Waits(a + b);
        head + Waits(a[1..] + b);
        head + (Waits(a[1..]) + Waits(b));
        (head + Waits(a[1..])) + Waits(b);
      }
    }
  }

  /** The directories the trace tries to enter, in order. */
  function CwdPaths(t: seq<Event>): (ps: seq<string>)
    ensures |ps| <= |t|
  {
    if t == [] then [] else (if t[0].Cwd? then [t[0].path] else []) + CwdPaths(t[1..])
  }

  lemma {:induction false} CwdPathsAppend(a: seq<Event>, b: seq<Event>)
    ensures CwdPaths(a + b) == CwdPaths(a) + CwdPaths(b)
  {
    if a == [] {
      assert a + b == b;
    } else {
      assert (a + b)[1..] == a[1..] + b;
      CwdPathsAppend(a[1..], b);
      var head: seq<string> := if a[0].Cwd? then [a[0].path] else [];
      calc {
        CwdPaths(a + b);
        head + CwdPaths(a[1..] + b);
        head + (CwdPaths(a[1..]) + CwdPaths(b));
        (head + CwdPaths(a[1..])) + CwdPaths(b);
      }
    }
  }

  lemma AppendAssoc(a: seq<Event>, b: seq<Event>, c: seq<Event>)
    ensures (a + b) + c == a + (b + c)
  {
  }

  /** What a single event contributes to each projection. */
  lemma Single(e: Event, p: Event -> bool)
    ensures Count([e], p) == (if p(e) then 1 else 0)
    ensures Waits([e]) == (if e.Sleep? then [e.ms] else [])
    ensures CwdPaths([e]) == (if e.Cwd? then [e.path] else [])
  {
    assert [e][1..] == [];
  }

  /** A trace without waits. */
  lemma {:induction false} NoWaits(t: seq<Event>)
    requires forall i :: 0 <= i < |t| ==> !t[i].Sleep?
    ensures Waits(t) == []
  {
    if t != [] {
      NoWaits(t[1..]);
    }
  }

  /** Only directory commands: CWD and MKD. */
  predicate DirectoryCommands(t: seq<Event>) {
    forall i :: 0 <= i < |t| ==> t[i].Cwd? || t[i].Mkd?
  }

  /** Every wait in the trace is within the cap. */
  predicate WaitsCapped(t: seq<Event>) {
    forall i :: 0 <= i < |t| && t[i].Sleep? ==> t[i].ms <= BackoffCapMs
  }

  /** Directory commands add no wait, so they keep every wait within the cap. */
  lemma DirectoryCommandsDoNotWait(t: seq<Event>, more: seq<Event>)
    requires DirectoryCommands(more) && WaitsCapped(t)
    ensures WaitsCapped(t + more)
  {
    forall i | 0 <= i < |t + more| && (t + more)[i].Sleep?
      ensures (t + more)[i].ms <= BackoffCapMs
    {
      if i < |t| {
        assert (t + more)[i] == t[i];
      }
    }
  }


  /**
   * An `FTPClient` bound to one server. The counters say how many calls of
   * each kind were made, so the next call of a kind gets the server's answer
   * at that index.
   */
  class FtpClient {
    const server: Server
    var connected: bool
    /** The directory the last successful CWD entered; `None` is where login left the session. */
    var remoteDir: Option<string>
    var trace: seq<Event>
    var connects: nat
    var logins: nat
    var fileTypes: nat
    var cwds: nat
    var mkds: nat
    var stores: nat
    var probes: nat
    var logouts: nat

    /** No wait the client has made exceeds the cap. */
    ghost predicate Valid()
      reads this
    {
      WaitsCapped(trace)
    }

    constructor (server: Server)
      ensures this.server == server
      ensures !connected && remoteDir == None && trace == []
      ensures connects == 0 && logins == 0 && fileTypes == 0 && cwds == 0
      ensures mkds == 0 && stores == 0 && probes == 0 && logouts == 0
      ensures Valid()
    {
      this.server := server;
      connected := false;
      remoteDir := None;
      trace := [];
      connects, logins, fileTypes, cwds := 0, 0, 0, 0;
      mkds, stores, probes, logouts := 0, 0, 0, 0;
    }

    /** Sending one more event keeps the cap when the event is not a longer wait. */
    lemma Extend(e: Event)
      requires Valid()
      requires e.Sleep? ==> e.ms <= BackoffCapMs
      ensures WaitsCapped(trace + [e])
    {
    }

    /** `delay(ms)` between attempts. */
    method Delay(ms: nat)
      requires Valid() && ms <= BackoffCapMs
      modifies this`trace
      ensures Valid()
      ensures trace == old(trace) + [Sleep(ms)]
    {
      Extend(Sleep(ms));
      trace := trace + [Sleep(ms)];
    }

    /** `connect(host, port)`: opens the socket and reads the greeting; a new session starts at the login directory. */
    method Connect(host: string, port: int) returns (g: Greeting)
      requires Valid() && ValidPort(port)
      modifies this`connected, this`remoteDir, this`trace, this`connects
      ensures Valid()
      ensures g == server.GreetingAt(old(connects))
      ensures connects == old(connects) + 1
      ensures connected == g.Reply?
      ensures remoteDir == None
      ensures trace == old(trace) + [Open(host, port)]
    {
      Extend(Open(host, port));
      g := server.GreetingAt(connects);
      connects := connects + 1;
      connected := g.Reply?;
      remoteDir := None;
      trace := trace + [Open(host, port)];
    }

    /** `disconnect()`. */
    method Disconnect()
      requires Valid()
      modifies this`connected, this`trace
      ensures Valid()
      ensures !connected
      ensures trace == old(trace) + [Close]
    {
      Extend(Close);
      connected := false;
      trace := trace + [Close];
    }

    /** `isConnected`: false once closed; on an open socket, whatever the server's state is. */
    method IsConnected() returns (b: bool)
      modifies this`connected, this`probes
      ensures b == (old(connected) && server.AliveAt(old(probes)))
      ensures probes == old(probes) + 1
      ensures connected == b
    {
      b := connected && server.AliveAt(probes);
      probes := probes + 1;
      connected := b;
    }

    /** `login(user, password)` (USER and PASS). */
    method Login(user: string, password: string) returns (a: Answer)
      requires Valid()
      modifies this`trace, this`logins
      ensures Valid()
      ensures a == server.LoginAt(old(logins))
      ensures logins == old(logins) + 1
      ensures trace == old(trace) + [UserPass(user, password)]
    {
      Extend(UserPass(user, password));
      a := server.LoginAt(logins);
      logins := logins + 1;
      trace := trace + [UserPass(user, password)];
    }

    /** `setFileType(BINARY_FILE_TYPE)` (TYPE I); its boolean result is not looked at. */
    method SetBinaryFileType() returns (a: Answer)
      requires Valid()
      modifies this`trace, this`fileTypes
      ensures Valid()
      ensures a == server.FileTypeAt(old(fileTypes))
      ensures fileTypes == old(fileTypes) + 1
      ensures trace == old(trace) + [TypeImage]
    {
      Extend(TypeImage);
      a := server.FileTypeAt(fileTypes);
      fileTypes := fileTypes + 1;
      trace := trace + [TypeImage];
    }

    /** `enterLocalPassiveMode()`: only sets a client flag; PASV is sent with the next transfer. */
    method EnterLocalPassiveMode()
      requires Valid()
      modifies this`trace
      ensures Valid()
      ensures trace == old(trace) + [Passive]
    {
      Extend(Passive);
      trace := trace + [Passive];
    }

    /** `changeWorkingDirectory(path)` (CWD). */
    method ChangeWorkingDirectory(path: string) returns (a: Answer)
      modifies this`trace, this`cwds, this`remoteDir
      ensures a == server.CwdAt(old(cwds))
      ensures cwds == old(cwds) + 1
      ensures remoteDir == if a == Yes then Some(path) else old(remoteDir)
      ensures trace == old(trace) + [Cwd(path)]
    {
      a := server.CwdAt(cwds);
      cwds := cwds + 1;
      if a == Yes {
        remoteDir := Some(path);
      }
      trace := trace + [Cwd(path)];
    }

    /** `makeDirectory(path)` (MKD); the current directory does not change. */
    method MakeDirectory(path: string) returns (a: Answer)
      modifies this`trace, this`mkds
      ensures a == server.MkdAt(old(mkds))
      ensures mkds == old(mkds) + 1
      ensures trace == old(trace) + [Mkd(path)]
    {
      a := server.MkdAt(mkds);
      mkds := mkds + 1;
      trace := trace + [Mkd(path)];
    }

    /** `storeFile(name, stream)` (STOR) into the current directory. */
    method StoreFile(name: string) returns (t: Transfer)
      requires Valid()
      modifies this`trace, this`stores
      ensures Valid()
      ensures t == server.StoreAt(old(stores))
      ensures stores == old(stores) + 1
      ensures trace == old(trace) + [Stor(name)]
    {
      Extend(Stor(name));
      t := server.StoreAt(stores);
      stores := stores + 1;
      trace := trace + [Stor(name)];
    }

    /** `logout()` (QUIT); its boolean result is not looked at. */
    method Logout() returns (a: Answer)
      requires Valid()
      modifies this`trace, this`logouts
      ensures Valid()
      ensures a == server.LogoutAt(old(logouts))
      ensures logouts == old(logouts) + 1
      ensures trace == old(trace) + [Quit]
    {
      Extend(Quit);
      a := server.LogoutAt(logouts);
      logouts := logouts + 1;
      trace := trace + [Quit];
    }
  }
}

=== FILE: ftp_upload.dfy ===
/**
 * `FtpClientWrapper.uploadFile`: connect with up to five attempts and
 * exponential backoff, log in with up to three attempts, switch to binary
 * passive mode, enter (or create) the dated working directory, store the file
 * with up to three attempts (reconnecting when the connection was lost), and
 * always log out and disconnect at the end.
 */
module FtpUpload {
  import opened Wrappers
  import opened Settings
  import opened PhotoRepo
  import opened RemotePath
  import opened FtpSession

  const MaxConnectRetries: nat := 5
  const MaxLoginRetries: nat := 3
  const MaxUploadRetries: nat := 3
  const LoginRetryDelayMs: nat := 500

  function Pow2(n: nat): (p: nat)
    ensures p >= 1
  {
    if n == 0 then 1 else 2 * Pow2(n - 1)
  }

  lemma {:induction false} Pow2AtLeast16(n: nat)
    requires n >= 4
    ensures Pow2(n) >= 16
  {
    if n > 4 {
      Pow2AtLeast16(n - 1);
    }
  }

  /** The wait after the r-th failed attempt: 2^r seconds, capped at ten seconds. */
  function Backoff(r: nat): (ms: nat)
    ensures ms <= BackoffCapMs
  {
    if Pow2(r) * 1000 <= BackoffCapMs then Pow2(r) * 1000 else BackoffCapMs
  }

  /** The waits are 2, 4 and 8 seconds, and ten seconds from the fourth failure on. */
  lemma BackoffValues(r: nat)
    ensures Backoff(1) == 2000 && Backoff(2) == 4000 && Backoff(3) == 8000
    ensures r >= 4 ==> Backoff(r) == BackoffCapMs
  {
    if r >= 4 {
      Pow2AtLeast16(r);
    }
  }

  /** The waits before the retries that follow failures 1 to n. */
  function BackoffSchedule(n: nat): (w: seq<nat>)
    ensures |w| == n
  {
    if n == 0 then [] else BackoffSchedule(n - 1) + [Backoff(n)]
  }

  /** A failed connection waits 2, 4, 8 and 10 seconds between its five attempts; an upload 2 and 4 seconds between its three. */
  lemma RetrySchedules()
    ensures BackoffSchedule(MaxConnectRetries - 1) == [2000, 4000, 8000, 10000]
    ensures BackoffSchedule(MaxUploadRetries - 1) == [2000, 4000]
  {
    BackoffValues(4);
  }

  // ---- connecting ----

  /** One connection attempt: the wait before a retry, the connect, and a disconnect after a refusing greeting. */
  function ConnectRound(g: Greeting, retry: nat, host: string, port: int): seq<Event> {
    (if retry > 0 then [Sleep(Backoff(retry))] else [])
    + [Open(host, port)]
    + (if g.Reply? && !Accepted(g) then [Close] else [])
  }

  /** The first n connection attempts of a session whose greetings are numbered from `base`. */
  function ConnectTrace(greeting: nat -> Greeting, base: nat, n: nat, host: string, port: int): seq<Event> {
    if n == 0 then []
    else ConnectTrace(greeting, base, n - 1, host, port) + ConnectRound(greeting(base + n - 1), n - 1, host, port)
  }

  lemma ConnectRoundShape(g: Greeting, retry: nat, host: string, port: int)
    ensures var round := ConnectRound(g, retry, host, port);
            && round != []
            && round[0] == (if retry > 0 then Sleep(Backoff(retry)) else Open(host, port))
            && Count(round, IsOpen) == 1
            && Waits(round) == (if retry > 0 then [Backoff(retry)] else [])
  {
    var pre := if retry > 0 then [Sleep(Backoff(retry))] else [];
    var open := [Open(host, port)];
    var tail := if g.Reply? && !Accepted(g) then [Close] else [];
    assert ConnectRound(g, retry, host, port) == pre + open + tail;
    CountAppend(pre + open, tail, IsOpen);
    CountAppend(pre, open, IsOpen);
    WaitsAppend(pre + open, tail);
    WaitsAppend(pre, open);
    Single(Open(host, port), IsOpen);
    Single(Sleep(Backoff(retry)), IsOpen);
    Single(Close, IsOpen);
  }

  /** n attempts open n connections, start with a connect (never a wait) and wait 2, 4, 8, ... seconds between them. */
  lemma {:induction false} ConnectTraceShape(greeting: nat -> Greeting, base: nat, n: nat, host: string, port: int)
    requires n >= 1
    ensures var t := ConnectTrace(greeting, base, n, host, port);
            && t != []
            && t[0] == Open(host, port)
            && Count(t, IsOpen) == n
            && Waits(t) == BackoffSchedule(n - 1)
  {
    var previous := ConnectTrace(greeting, base, n - 1, host, port);
    var round := ConnectRound(greeting(base + n - 1), n - 1, host, port);
    var t := previous + round;
    ConnectRoundShape(greeting(base + n - 1), n - 1, host, port);
    CountAppend(previous, round, IsOpen);
    WaitsAppend(previous, round);
    if n == 1 {
      assert previous == [] && t == round;
    } else {
      ConnectTraceShape(greeting, base, n - 1, host, port);
      assert t[0] == previous[0];
      assert Waits(t) == BackoffSchedule(n - 2) + [Backoff(n - 1)];
    }
  }

  /** The connection attempts send no login. */
  lemma {:induction false} ConnectTraceHasNoLogin(greeting: nat -> Greeting, base: nat, n: nat, host: string, port: int)
    ensures Count(ConnectTrace(greeting, base, n, host, port), IsUserPass) == 0
  {
    if n > 0 {
      var g := greeting(base + n - 1);
      var pre: seq<Event> := if n - 1 > 0 then [Sleep(Backoff(n - 1))] else [];
      var open := [Open(host, port)];
      var tail: seq<Event> := if g.Reply? && !Accepted(g) then [Close] else [];
      assert ConnectRound(g, n - 1, host, port) == pre + open + tail;
      ConnectTraceHasNoLogin(greeting, base, n - 1, host, port);
      CountAppend(ConnectTrace(greeting, base, n - 1, host, port), pre + open + tail, IsUserPass);
      CountAppend(pre + open, tail, IsUserPass);
      CountAppend(pre, open, IsUserPass);
      Single(Open(host, port), IsUserPass);
      Single(Sleep(Backoff(n - 1)), IsUserPass);
      Single(Close, IsUserPass);
    }
  }

  /** Five failed connection attempts: five connects, no login, and waits of 2, 4, 8 and 10 seconds. */
  lemma FailedConnectTrace(greeting: nat -> Greeting, host: string, port: int)
    ensures var t := ConnectTrace(greeting, 0, MaxConnectRetries, host, port);
            && Count(t, IsOpen) == MaxConnectRetries && Count(t, IsUserPass) == 0
            && Waits(t) == [2000, 4000, 8000, 10000]
  {
    ConnectTraceShape(greeting, 0, MaxConnectRetries, host, port);
    ConnectTraceHasNoLogin(greeting, 0, MaxConnectRetries, host, port);
    RetrySchedules();
  }

  /** One connection attempt: wait before a retry, connect, and disconnect again when the greeting is not a positive completion. */
  method ConnectAttempt(client: FtpClient, retry: nat, host: string, port: int) returns (g: Greeting)
    requires client.Valid() && ValidPort(port)
    modifies client`connected, client`remoteDir, client`trace, client`connects
    ensures client.Valid()
    ensures g == client.server.GreetingAt(old(client.connects))
    ensures client.connects == old(client.connects) + 1
    ensures client.connected == Accepted(g)
    ensures client.trace == old(client.trace) + ConnectRound(g, retry, host, port)
  {
    if retry > 0 {
      client.Delay(Backoff(retry));
    }
    g := client.Connect(host, port);
    if g.Reply? && !Accepted(g) {
      client.Disconnect();
    }
  }

  /** The connect loop: stops at the first greeting with a positive completion code, gives up after five attempts. */
  method ConnectWithRetry(client: FtpClient, host: string, port: int) returns (ok: bool, attempts: nat)
    requires client.Valid() && ValidPort(port) && !client.connected
    modifies client`connected, client`remoteDir, client`trace, client`connects
    ensures client.Valid()
    ensures 1 <= attempts <= MaxConnectRetries
    ensures client.connects == old(client.connects) + attempts
    ensures forall k :: old(client.connects) <= k < old(client.connects) + attempts - 1 ==> !Accepted(client.server.GreetingAt(k))
    ensures ok <==> Accepted(client.server.GreetingAt(old(client.connects) + attempts - 1))
    ensures !ok ==> attempts == MaxConnectRetries
    ensures client.connected == ok
    ensures client.trace == old(client.trace) + ConnectTrace(client.server.greeting, old(client.connects), attempts, host, port)
  {
    var base := client.connects;
    attempts := 0;
    ok := false;
    while !ok && attempts < MaxConnectRetries
      invariant client.Valid()
      invariant 0 <= attempts <= MaxConnectRetries
      invariant ok ==> attempts >= 1
      invariant client.connects == base + attempts
      invariant forall k :: base <= k < base + attempts - (if ok then 1 else 0) ==> !Accepted(client.server.GreetingAt(k))
      invariant ok ==> Accepted(client.server.GreetingAt(base + attempts - 1))
      invariant client.connected == ok
      invariant client.trace == old(client.trace) + ConnectTrace(client.server.greeting, base, attempts, host, port)
      decreases MaxConnectRetries - attempts
    {
      var g := ConnectAttempt(client, attempts, host, port);
      assert g == client.server.greeting(base + attempts);
      AppendAssoc(old(client.trace), ConnectTrace(client.server.greeting, base, attempts, host, port), ConnectRound(g, attempts, host, port));
      attempts := attempts + 1;
      ok := Accepted(g);
    }
    ghost var last := base + attempts - 1;
    assert ok <==> Accepted(client.server.GreetingAt(last));
  }

  // ---- logging in ----

  /** n login attempts with half a second between them. */
  function LoginTrace(n: nat, user: string, password: string): seq<Event> {
    if n == 0 then []
    else if n == 1 then [UserPass(user, password)]
    else LoginTrace(n - 1, user, password) + [Sleep(LoginRetryDelayMs), UserPass(user, password)]
  }

  function Repeat(x: nat, n: nat): (s: seq<nat>)
    ensures |s| == n
  {
    if n == 0 then [] else Repeat(x, n - 1) + [x]
  }

  /** n login attempts send n logins and wait half a second before each retry. */
  lemma {:induction false} LoginTraceShape(n: nat, user: string, password: string)
    requires n >= 1
    ensures var t := LoginTrace(n, user, password);
            && t[0] == UserPass(user, password)
            && Count(t, IsUserPass) == n
            && Waits(t) == Repeat(LoginRetryDelayMs, n - 1)
  {
    if n > 1 {
      var previous := LoginTrace(n - 1, user, password);
      var round := [Sleep(LoginRetryDelayMs), UserPass(user, password)];
      LoginTraceShape(n - 1, user, password);
      CountAppend(previous, round, IsUserPass);
      WaitsAppend(previous, round);
      assert round[1..] == [UserPass(user, password)];
    }
  }

  /** The login loop: stops at the first accepted login; a refusal and an I/O error both count as a failed attempt. */
  method LoginWithRetry(client: FtpClient, user: string, password: string) returns (ok: bool, attempts: nat)
    requires client.Valid()
    modifies client`trace, client`logins
    ensures client.Valid()
    ensures 1 <= attempts <= MaxLoginRetries
    ensures client.logins == old(client.logins) + attempts
    ensures forall k :: old(client.logins) <= k < old(client.logins) + attempts - 1 ==> client.server.LoginAt(k) != Yes
    ensures ok <==> client.server.LoginAt(old(client.logins) + attempts - 1) == Yes
    ensures !ok ==> attempts == MaxLoginRetries
    ensures client.trace == old(client.trace) + LoginTrace(attempts, user, password)
  {
    var base := client.logins;
    var retries := 0;
    ok := false;
    assert client.trace == old(client.trace) + LoginTrace(0, user, password);
    while !ok
      invariant client.Valid()
      invariant 0 <= retries < MaxLoginRetries
      invariant client.logins == base + retries + (if ok then 1 else 0)
      invariant forall k :: base <= k < base + retries ==> client.server.LoginAt(k) != Yes
      invariant ok ==> client.server.LoginAt(base + retries) == Yes
      invariant client.trace == old(client.trace) + LoginTrace(retries + (if ok then 1 else 0), user, password)
               + (if retries > 0 && !ok then [Sleep(LoginRetryDelayMs)] else [])
      decreases MaxLoginRetries - retries, if ok then 0 else 1
    {
      var a := client.Login(user, password);
      assert client.trace == old(client.trace) + LoginTrace(retries + 1, user, password) by {
        if retries > 0 {
          assert LoginTrace(retries + 1, user, password)
              == LoginTrace(retries, user, password) + [Sleep(LoginRetryDelayMs), UserPass(user, password)];
        }
      }
      if a == Yes {
        ok := true;
      } else {
        retries := retries + 1;
        if retries >= MaxLoginRetries {
          attempts := retries;
          return;
        }
        client.Delay(LoginRetryDelayMs);
      }
    }
    attempts := retries + 1;
  }

  // ---- the working directory ----

  /** How entering the working directory ended. */
  datatype DirOutcome = DirsReady | CreateFailed(path: string) | DirIoError

  /**
   * What walking a list of absolute prefixes does: the outcome, the commands
   * sent, how many CWD and MKD answers it used, and the last directory it
   * entered (`None` when it entered none).
   */
  datatype DirRun = DirRun(outcome: DirOutcome, events: seq<Event>, cwdsUsed: nat, mkdsUsed: nat, entered: Option<string>)

  /** Some steps that did not stop the walk, followed by the rest of it. */
  function Then(events: seq<Event>, cwdsUsed: nat, mkdsUsed: nat, entered: Option<string>, rest: DirRun): DirRun {
    DirRun(rest.outcome, events + rest.events, cwdsUsed + rest.cwdsUsed, mkdsUsed + rest.mkdsUsed, rest.entered.Or(entered))
  }

  lemma ThenThen(d1: seq<Event>, c1: nat, m1: nat, e1: Option<string>,
                 d2: seq<Event>, c2: nat, m2: nat, e2: Option<string>, rest: DirRun)
    ensures Then(d1, c1, m1, e1, Then(d2, c2, m2, e2, rest))
         == Then(d1 + d2, c1 + c2, m1 + m2, e2.Or(e1), rest)
  {
    assert d1 + (d2 + rest.events) == (d1 + d2) + rest.events;
  }

  /**
   * The loop over `/s1`, `/s1/s2`, ...: CWD into each; when that is refused,
   * MKD it instead and go on to the next prefix without entering it. A refused
   * MKD stops the walk with a failure naming that prefix; an I/O error stops it too.
   * The CWD and MKD answers used are the server's from index `c` and `m` on.
   */
  function MakePath(server: Server, ps: seq<string>, c: nat, m: nat): (r: DirRun)
    ensures r.outcome.CreateFailed? ==> r.outcome.path in ps
    ensures r.entered.Some? ==> r.entered.value in ps
    decreases |ps|
  {
    if ps == [] then DirRun(DirsReady, [], 0, 0, None)
    else
      var p := ps[0];
      match server.CwdAt(c)
      case IoError => DirRun(DirIoError, [Cwd(p)], 1, 0, None)
      case Yes => Then([Cwd(p)], 1, 0, Some(p), MakePath(server, ps[1..], c + 1, m))
      case No =>
        match server.MkdAt(m)
        case IoError => DirRun(DirIoError, [Cwd(p), Mkd(p)], 1, 1, None)
        case No => DirRun(CreateFailed(p), [Cwd(p), Mkd(p)], 1, 1, None)
        case Yes => Then([Cwd(p), Mkd(p)], 1, 1, None, MakePath(server, ps[1..], c + 1, m + 1))
  }

  /**
   * The walk tries the prefixes in order, each once; when it succeeds it has
   * tried all of them; a failed create names the last prefix tried, and MKD
   * of it is the last command; a directory it entered is one of the prefixes.
   */
  ghost predicate VisitsInOrder(ps: seq<string>, r: DirRun) {
    var tried := CwdPaths(r.events);
    && |tried| <= |ps| && tried == ps[..|tried|]
    && (r.outcome.DirsReady? ==> tried == ps)
    && (r.outcome.CreateFailed? ==>
          && |tried| >= 1 && r.outcome.path == tried[|tried| - 1]
          && r.events != [] && r.events[|r.events| - 1] == Mkd(r.outcome.path))
    && (r.entered.Some? ==> r.entered.value in ps)
  }

  /** A step that goes on to the next prefix keeps the walk in order. */
  lemma StepKeepsOrder(ps: seq<string>, pre: seq<Event>, c: nat, m: nat, entered: Option<string>, rest: DirRun)
    requires ps != []
    requires pre == [Cwd(ps[0])] || pre == [Cwd(ps[0]), Mkd(ps[0])]
    requires entered == None || entered == Some(ps[0])
    requires VisitsInOrder(ps[1..], rest)
    ensures VisitsInOrder(ps, Then(pre, c, m, entered, rest))
  {
    var r := Then(pre, c, m, entered, rest);
    StepTriesHead(ps, pre, rest.events);
    var tried := CwdPaths(r.events);
    var later := CwdPaths(rest.events);
    assert tried == [ps[0]] + later;
    assert ps[..|tried|] == [ps[0]] + ps[1..][..|later|];
    if r.outcome.DirsReady? {
      assert ps == [ps[0]] + ps[1..];
    }
    if r.outcome.CreateFailed? {
      assert r.events[|r.events| - 1] == rest.events[|rest.events| - 1];
      assert tried[|tried| - 1] == later[|later| - 1];
    }
    if r.entered.Some? && rest.entered.Some? {
      assert rest.entered.value in ps[1..];
    }
  }

  /** A CWD of the first prefix, maybe followed by its MKD, adds that prefix to the CWD paths. */
  lemma StepTriesHead(ps: seq<string>, pre: seq<Event>, more: seq<Event>)
    requires ps != []
    requires pre == [Cwd(ps[0])] || pre == [Cwd(ps[0]), Mkd(ps[0])]
    ensures CwdPaths(pre + more) == [ps[0]] + CwdPaths(more)
  {
    CwdPathsAppend(pre, more);
    Single(Cwd(ps[0]), IsOpen);
    Single(Mkd(ps[0]), IsOpen);
    if |pre| == 2 {
      CwdPathsAppend([Cwd(ps[0])], [Mkd(ps[0])]);
    }
  }

  /** A step that stops the walk at the first prefix. */
  lemma StopIsInOrder(ps: seq<string>, r: DirRun)
    requires ps != [] && !r.outcome.DirsReady? && r.entered == None
    requires r.events == [Cwd(ps[0])] || r.events == [Cwd(ps[0]), Mkd(ps[0])]
    requires r.outcome.CreateFailed? ==> r.outcome.path == ps[0] && |r.events| == 2
    ensures VisitsInOrder(ps, r)
  {
    Single(Cwd(ps[0]), IsOpen);
    Single(Mkd(ps[0]), IsOpen);
    CwdPathsAppend([Cwd(ps[0])], [Mkd(ps[0])]);
    assert CwdPaths(r.events) == [ps[0]];
  }

  lemma {:induction false} MakePathVisitsInOrder(server: Server, ps: seq<string>, c: nat, m: nat)
    ensures VisitsInOrder(ps, MakePath(server, ps, c, m))
  {
    if ps != [] {
      var p := ps[0];
      var r := MakePath(server, ps, c, m);
      match server.CwdAt(c)
      case IoError =>
        StopIsInOrder(ps, r);
      case Yes =>
        MakePathVisitsInOrder(server, ps[1..], c + 1, m);
        StepKeepsOrder(ps, [Cwd(p)], 1, 0, Some(p), MakePath(server, ps[1..], c + 1, m));
      case No =>
        match server.MkdAt(m)
        case IoError =>
          StopIsInOrder(ps, r);
        case No =>
          StopIsInOrder(ps, r);
        case Yes =>
          MakePathVisitsInOrder(server, ps[1..], c + 1, m + 1);
          StepKeepsOrder(ps, [Cwd(p), Mkd(p)], 1, 1, None, MakePath(server, ps[1..], c + 1, m + 1));
    }
  }

  /**
   * When none of the prefixes exists and each can be created, the walk creates
   * them all, succeeds, and enters none of them: the session stays in the
   * directory login left it in.
   */
  lemma {:induction false} CreatedDirectoriesAreNotEntered(server: Server, ps: seq<string>, c: nat, m: nat)
    requires forall k :: k >= c ==> server.CwdAt(k) == No
    requires forall k :: k >= m ==> server.MkdAt(k) == Yes
    ensures MakePath(server, ps, c, m).outcome == DirsReady
    ensures MakePath(server, ps, c, m).entered == None
    ensures |MakePath(server, ps, c, m).events| == 2 * |ps|
  {
    if ps != [] {
      CreatedDirectoriesAreNotEntered(server, ps[1..], c + 1, m + 1);
    }
  }

  /** The walk sends only CWD and MKD. */
  lemma {:induction false} MakePathSendsDirectoryCommands(server: Server, ps: seq<string>, c: nat, m: nat)
    ensures DirectoryCommands(MakePath(server, ps, c, m).events)
  {
    if ps != [] {
      MakePathSendsDirectoryCommands(server, ps[1..], c + 1, m);
      MakePathSendsDirectoryCommands(server, ps[1..], c + 1, m + 1);
    }
  }

  /** The walk over `[p] + rest`, one step unfolded. */
  lemma MakePathStep(server: Server, p: string, rest: seq<string>, c: nat, m: nat)
    ensures MakePath(server, [p] + rest, c, m)
         == match server.CwdAt(c)
            case IoError => DirRun(DirIoError, [Cwd(p)], 1, 0, None)
            case Yes => Then([Cwd(p)], 1, 0, Some(p), MakePath(server, rest, c + 1, m))
            case No =>
              match server.MkdAt(m)
              case IoError => DirRun(DirIoError, [Cwd(p), Mkd(p)], 1, 1, None)
              case No => DirRun(CreateFailed(p), [Cwd(p), Mkd(p)], 1, 1, None)
              case Yes => Then([Cwd(p), Mkd(p)], 1, 1, None, MakePath(server, rest, c + 1, m + 1))
  {
    assert ([p] + rest)[0] == p && ([p] + rest)[1..] == rest;
  }

  /** CWD into one prefix, and MKD it when that is refused; `stop` is set when the walk ends here. */
  method VisitPrefix(client: FtpClient, p: string, ghost rest: seq<string>)
    returns (stop: Option<DirOutcome>, ghost step: seq<Event>, ghost entered: Option<string>)
    modifies client`trace, client`cwds, client`mkds, client`remoteDir
    ensures client.trace == old(client.trace) + step
    ensures old(client.cwds) <= client.cwds && old(client.mkds) <= client.mkds
    ensures var run := MakePath(client.server, [p] + rest, old(client.cwds), old(client.mkds));
            stop.Some? ==> !stop.value.DirsReady? && run.outcome == stop.value && run.events == step && run.entered == None && entered == None
                           && client.cwds == old(client.cwds) + run.cwdsUsed && client.mkds == old(client.mkds) + run.mkdsUsed
    ensures var run := MakePath(client.server, [p] + rest, old(client.cwds), old(client.mkds));
            stop.None? ==> run == Then(step, client.cwds - old(client.cwds), client.mkds - old(client.mkds), entered,
                                       MakePath(client.server, rest, client.cwds, client.mkds))
    ensures client.remoteDir == entered.Or(old(client.remoteDir))
  {
    MakePathStep(client.server, p, rest, client.cwds, client.mkds);
    var a := client.ChangeWorkingDirectory(p);
    step, entered := [Cwd(p)], None;
    if a == IoError {
      return Some(DirIoError), step, entered;
    }
    if a == Yes {
      entered := Some(p);
      return None, step, entered;
    }
    var made := client.MakeDirectory(p);
    step := step + [Mkd(p)];
    if made == IoError {
      return Some(DirIoError), step, entered;
    }
    if made == No {
      return Some(CreateFailed(p)), step, entered;
    }
    stop := None;
  }

  /** Going on after a step that did not stop the walk. */
  lemma WalkContinues(whole: DirRun, events: seq<Event>, c: nat, m: nat, entered: Option<string>, here: DirRun,
                      step: seq<Event>, c2: nat, m2: nat, stepEntered: Option<string>, next: DirRun)
    requires whole == Then(events, c, m, entered, here)
    requires here == Then(step, c2, m2, stepEntered, next)
    ensures whole == Then(events + step, c + c2, m + m2, stepEntered.Or(entered), next)
  {
    ThenThen(events, c, m, entered, step, c2, m2, stepEntered, next);
  }

  /** Stopping after a step that ended the walk. */
  lemma WalkStops(whole: DirRun, events: seq<Event>, c: nat, m: nat, entered: Option<string>, here: DirRun)
    requires whole == Then(events, c, m, entered, here)
    requires here.entered == None
    ensures whole.outcome == here.outcome && whole.events == events + here.events && whole.entered == entered
    ensures whole.cwdsUsed == c + here.cwdsUsed && whole.mkdsUsed == m + here.mkdsUsed
  {
  }

  /** The walk so far has not stopped: it went through the first i prefixes and `whole` is what is left of it after them. */
  ghost predicate Walking(client: FtpClient, segments: seq<string>, i: nat, whole: DirRun, events: seq<Event>,
                          entered: Option<string>, c0: nat, m0: nat, dir0: Option<string>, trace0: seq<Event>)
    reads client
  {
    && i <= |segments|
    && c0 <= client.cwds && m0 <= client.mkds
    && client.trace == trace0 + events
    && whole == Then(events, client.cwds - c0, client.mkds - m0, entered,
                     MakePath(client.server, Prefixes(segments)[i..], client.cwds, client.mkds))
    && client.remoteDir == entered.Or(dir0)
  }

  /** The walk has stopped, and `whole` is all of it. */
  ghost predicate Stopped(client: FtpClient, outcome: DirOutcome, whole: DirRun, events: seq<Event>,
                          entered: Option<string>, c0: nat, m0: nat, dir0: Option<string>, trace0: seq<Event>)
    reads client
  {
    && whole.outcome == outcome && whole.events == events && whole.entered == entered
    && client.cwds == c0 + whole.cwdsUsed && client.mkds == m0 + whole.mkdsUsed
    && client.trace == trace0 + events
    && client.remoteDir == entered.Or(dir0)
  }

  /** The body of the walk: extend the current path by the i-th segment and visit it. */
  method WalkStep(client: FtpClient, segments: seq<string>, i: nat, currentPath: string,
                  ghost whole: DirRun, ghost events: seq<Event>, ghost entered: Option<string>,
                  ghost c0: nat, ghost m0: nat, ghost dir0: Option<string>, ghost trace0: seq<Event>)
    returns (nextPath: string, stop: Option<DirOutcome>, ghost events': seq<Event>, ghost entered': Option<string>)
    requires i < |segments| && currentPath == AbsolutePrefix(segments[..i])
    requires Walking(client, segments, i, whole, events, entered, c0, m0, dir0, trace0)
    modifies client`trace, client`cwds, client`mkds, client`remoteDir
    ensures nextPath == AbsolutePrefix(segments[..i + 1])
    ensures stop.None? ==> Walking(client, segments, i + 1, whole, events', entered', c0, m0, dir0, trace0)
    ensures stop.Some? ==> !stop.value.DirsReady? && Stopped(client, stop.value, whole, events', entered', c0, m0, dir0, trace0)
  {
    PrefixStep(segments, i);
    nextPath := currentPath + "/" + segments[i];
    ghost var rest := Prefixes(segments)[i..];
    assert rest == [nextPath] + Prefixes(segments)[i + 1..];
    var c, m := client.cwds, client.mkds;
    ghost var here := MakePath(client.server, rest, c, m);
    ghost var step, stepEntered;
    stop, step, stepEntered := VisitPrefix(client, nextPath, Prefixes(segments)[i + 1..]);
    events' := events + step;
    if stop.Some? {
      WalkStops(whole, events, c - c0, m - m0, entered, here);
      entered' := entered;
    } else {
      WalkContinues(whole, events, c - c0, m - m0, entered, here, step, client.cwds - c, client.mkds - m, stepEntered,
                    MakePath(client.server, Prefixes(segments)[i + 1..], client.cwds, client.mkds));
      entered' := stepEntered.Or(entered);
    }
  }

  /** The loop over the segments of a working path that could not be entered. */
  method CreateWorkingPath(client: FtpClient, segments: seq<string>) returns (outcome: DirOutcome, ghost events: seq<Event>)
    modifies client`trace, client`cwds, client`mkds, client`remoteDir
    ensures var run := MakePath(client.server, Prefixes(segments), old(client.cwds), old(client.mkds));
            && outcome == run.outcome
            && events == run.events
            && client.trace == old(client.trace) + events
            && client.remoteDir == run.entered.Or(old(client.remoteDir))
            && client.cwds == old(client.cwds) + run.cwdsUsed && client.mkds == old(client.mkds) + run.mkdsUsed
  {
    ghost var c0, m0, dir0, trace0 := client.cwds, client.mkds, client.remoteDir, client.trace;
    ghost var whole := MakePath(client.server, Prefixes(segments), c0, m0);
    ghost var entered: Option<string> := None;
    events := [];
    outcome := DirsReady;
    var currentPath := "";
    var i := 0;
    assert Walking(client, segments, 0, whole, events, entered, c0, m0, dir0, trace0);
    while i < |segments|
      invariant 0 <= i <= |segments|
      invariant currentPath == AbsolutePrefix(segments[..i])
      invariant outcome.DirsReady? ==> Walking(client, segments, i, whole, events, entered, c0, m0, dir0, trace0)
      invariant !outcome.DirsReady? ==> Stopped(client, outcome, whole, events, entered, c0, m0, dir0, trace0)
      decreases |segments| - i, if outcome.DirsReady? then 1 else 0
    {
      var stop;
      currentPath, stop, events, entered := WalkStep(client, segments, i, currentPath, whole, events, entered, c0, m0, dir0, trace0);
      if stop.Some? {
        outcome := stop.value;
        break;
      }
      i := i + 1;
    }
    if outcome.DirsReady? {
      assert Prefixes(segments)[i..] == [];
    }
  }

  /** The walk after the first CWD was refused; it sends only directory commands, so it keeps the client valid. */
  method CreateQuietly(client: FtpClient, workingPath: string) returns (outcome: DirOutcome, ghost events: seq<Event>)
    requires client.Valid()
    modifies client`trace, client`cwds, client`mkds, client`remoteDir
    ensures client.Valid()
    ensures var run := MakePath(client.server, Prefixes(Segments(workingPath)), old(client.cwds), old(client.mkds));
            && outcome == run.outcome
            && events == run.events
            && client.trace == old(client.trace) + events
            && client.remoteDir == run.entered.Or(old(client.remoteDir))
            && client.cwds == old(client.cwds) + run.cwdsUsed && client.mkds == old(client.mkds) + run.mkdsUsed
  {
    outcome, events := CreateWorkingPath(client, Segments(workingPath));
    MakePathSendsDirectoryCommands(client.server, Prefixes(Segments(workingPath)), old(client.cwds), old(client.mkds));
    DirectoryCommandsDoNotWait(old(client.trace), events);
  }

  /**
   * What entering the working path does, from CWD answer `c` and MKD answer
   * `m` on: CWD into the whole path; when that is refused, the prefix walk.
   */
  function EnterWorkingDirectory(server: Server, workingPath: string, c: nat, m: nat): (r: DirRun)
    ensures |r.events| >= 1 && r.events[0] == Cwd(workingPath)
    ensures server.CwdAt(c) == Yes ==> r.outcome.DirsReady? && r.entered == Some(workingPath) && r.mkdsUsed == 0
    ensures server.CwdAt(c) != No ==> |r.events| == 1
    ensures r.outcome.CreateFailed? ==> server.CwdAt(c) == No && r.outcome.path in Prefixes(Segments(workingPath))
  {
    match server.CwdAt(c)
    case Yes => DirRun(DirsReady, [Cwd(workingPath)], 1, 0, Some(workingPath))
    case IoError => DirRun(DirIoError, [Cwd(workingPath)], 1, 0, None)
    case No => Then([Cwd(workingPath)], 1, 0, None, MakePath(server, Prefixes(Segments(workingPath)), c + 1, m))
  }

  /**
   * A failed create happens only after the whole path was refused, and names
   * one of its absolute prefixes, the one whose MKD was the last command.
   */
  lemma EnterFailureNamesPrefix(server: Server, workingPath: string, c: nat, m: nat)
    ensures var run := EnterWorkingDirectory(server, workingPath, c, m);
            run.outcome.CreateFailed? ==>
              && server.CwdAt(c) == No
              && run.outcome.path in Prefixes(Segments(workingPath))
              && run.events[|run.events| - 1] == Mkd(run.outcome.path)
  {
    if server.CwdAt(c) == No {
      var ps := Prefixes(Segments(workingPath));
      var walk := MakePath(server, ps, c + 1, m);
      MakePathVisitsInOrder(server, ps, c + 1, m);
      if walk.outcome.CreateFailed? {
        var tried := CwdPaths(walk.events);
        assert tried[|tried| - 1] == ps[|tried| - 1];
      }
    }
  }

  /**
   * CWD into the working path; when refused, walk its absolute prefixes.
   * `remoteDir` ends at the last directory actually entered.
   */
  method ChangeToWorkingDirectory(client: FtpClient, workingPath: string) returns (outcome: DirOutcome, ghost events: seq<Event>)
    requires client.Valid()
    modifies client`trace, client`cwds, client`mkds, client`remoteDir
    ensures client.Valid()
    ensures client.trace == old(client.trace) + events
    ensures client.server.CwdAt(old(client.cwds)) == Yes ==>
              outcome == DirsReady && events == [Cwd(workingPath)] && client.remoteDir == Some(workingPath)
    ensures client.server.CwdAt(old(client.cwds)) == IoError ==>
              outcome == DirIoError && events == [Cwd(workingPath)] && client.remoteDir == old(client.remoteDir)
    ensures var run := EnterWorkingDirectory(client.server, workingPath, old(client.cwds), old(client.mkds));
            && outcome == run.outcome
            && events == run.events
            && client.remoteDir == run.entered.Or(old(client.remoteDir))
            && client.cwds == old(client.cwds) + run.cwdsUsed && client.mkds == old(client.mkds) + run.mkdsUsed
  {
    var first := client.ChangeWorkingDirectory(workingPath);
    events := [Cwd(workingPath)];
    DirectoryCommandsDoNotWait(old(client.trace), events);
    if first != No {
      outcome := if first == Yes then DirsReady else DirIoError;
      return;
    }
    ghost var more;
    outcome, more := CreateQuietly(client, workingPath);
    AppendAssoc(old(client.trace), events, more);
    events := events + more;
  }

  // ---- storing ----

  /** How the store loop ended. */
  datatype StoreOutcome = Uploaded(elapsedMs: int) | Exhausted | ReconnectFailed

  /** The full reconnect sequence. */
  function ReconnectTrace(host: string, port: int, user: string, password: string, workingPath: string): seq<Event> {
    [Open(host, port), UserPass(user, password), TypeImage, Passive, Cwd(workingPath)]
  }

  lemma ReconnectTraceHasNoWaits(host: string, port: int, user: string, password: string, workingPath: string)
    ensures forall n :: 0 <= n <= 5 ==> Waits(ReconnectTrace(host, port, user, password, workingPath)[..n]) == []
  {
    var full := ReconnectTrace(host, port, user, password, workingPath);
    forall n | 0 <= n <= 5
      ensures Waits(full[..n]) == []
    {
      NoWaits(full[..n]);
    }
  }

  /** The first half of a reconnect: connect, then log in unless the connect hit an I/O error. */
  method Reopen(client: FtpClient, host: string, port: int, user: string, password: string)
    returns (ok: bool, ghost events: seq<Event>)
    requires client.Valid() && ValidPort(port)
    modifies client`connected, client`remoteDir, client`trace, client`connects, client`logins
    ensures client.Valid()
    ensures client.trace == old(client.trace) + events
    ensures client.connects == old(client.connects) + 1
    ensures client.logins == old(client.logins) + (if client.server.GreetingAt(old(client.connects)).Unreachable? then 0 else 1)
    ensures client.remoteDir == None
    ensures client.connected == client.server.GreetingAt(old(client.connects)).Reply?
    ensures ok <==> client.server.GreetingAt(old(client.connects)).Reply? && client.server.LoginAt(old(client.logins)) != IoError
    ensures events == [Open(host, port)] || events == [Open(host, port), UserPass(user, password)]
    ensures ok ==> events == [Open(host, port), UserPass(user, password)]
  {
    var g := client.Connect(host, port);
    events := [Open(host, port)];
    if g.Unreachable? {
      return false, events;
    }
    var a := client.Login(user, password);
    events := events + [UserPass(user, password)];
    ok := a != IoError;
  }

  /** The second half of a reconnect: binary mode, then passive mode and CWD unless binary mode hit an I/O error. */
  method Resume(client: FtpClient, workingPath: string) returns (ok: bool, ghost events: seq<Event>)
    requires client.Valid()
    modifies client`remoteDir, client`trace, client`fileTypes, client`cwds
    ensures client.Valid()
    ensures client.trace == old(client.trace) + events
    ensures client.fileTypes == old(client.fileTypes) + 1
    ensures client.cwds == old(client.cwds) + (if client.server.FileTypeAt(old(client.fileTypes)) == IoError then 0 else 1)
    ensures ok <==> client.server.FileTypeAt(old(client.fileTypes)) != IoError && client.server.CwdAt(old(client.cwds)) != IoError
    ensures events == [TypeImage] || events == [TypeImage, Passive, Cwd(workingPath)]
    ensures ok ==> events == [TypeImage, Passive, Cwd(workingPath)]
    ensures ok ==> client.remoteDir == (if client.server.CwdAt(old(client.cwds)) == Yes then Some(workingPath) else old(client.remoteDir))
  {
    var a := client.SetBinaryFileType();
    events := [TypeImage];
    if a == IoError {
      return false, events;
    }
    client.EnterLocalPassiveMode();
    ghost var beforeCwd := client.trace;
    a := client.ChangeWorkingDirectory(workingPath);
    DirectoryCommandsDoNotWait(beforeCwd, [Cwd(workingPath)]);
    events := events + [Passive, Cwd(workingPath)];
    ok := a != IoError;
  }

  /** The part of the client's state the store loop reads and advances: the connection flag and the answer counters. */
  datatype Cursor = Cursor(connected: bool, connects: nat, logins: nat, fileTypes: nat, cwds: nat, stores: nat, probes: nat)

  function CursorOf(client: FtpClient): Cursor
    reads client
  {
    Cursor(client.connected, client.connects, client.logins, client.fileTypes, client.cwds, client.stores, client.probes)
  }

  /** A reconnect from `c` gets through: a greeting arrives, and none of login, TYPE I and CWD hits an I/O error. */
  predicate ReconnectOk(server: Server, c: Cursor) {
    && server.GreetingAt(c.connects).Reply?
    && server.LoginAt(c.logins) != IoError
    && server.FileTypeAt(c.fileTypes) != IoError
    && server.CwdAt(c.cwds) != IoError
  }

  /** Whether a reconnect got through, and the state after it. */
  datatype Reconnection = Reconnection(ok: bool, next: Cursor)

  /**
   * A reconnect from `c`: connect, then login, TYPE I and CWD, each only when
   * the step before it did not hit an I/O error. Refusals are not looked at.
   */
  function ReconnectFrom(server: Server, c: Cursor): (r: Reconnection)
    ensures r.ok <==> ReconnectOk(server, c)
    ensures r.next.connects == c.connects + 1 && r.next.stores == c.stores && r.next.probes == c.probes
    ensures r.ok ==> r.next.connected
  {
    var g := server.GreetingAt(c.connects);
    var greeted := c.(connected := g.Reply?, connects := c.connects + 1);
    if g.Unreachable? then Reconnection(false, greeted)
    else
      var loggedIn := greeted.(logins := c.logins + 1);
      if server.LoginAt(c.logins) == IoError then Reconnection(false, loggedIn)
      else
        var typed := loggedIn.(fileTypes := c.fileTypes + 1);
        if server.FileTypeAt(c.fileTypes) == IoError then Reconnection(false, typed)
        else Reconnection(server.CwdAt(c.cwds) != IoError, typed.(cwds := c.cwds + 1))
  }

  /** After a failed store with attempts left: ask `isConnected`, and reconnect when the connection is gone. */
  function AfterFailure(server: Server, c: Cursor): (r: Reconnection)
    ensures r.ok <==> (c.connected && server.AliveAt(c.probes)) || ReconnectOk(server, c)
    ensures r.next.probes == c.probes + 1 && r.next.stores == c.stores
    ensures r.next.connects == c.connects + (if c.connected && server.AliveAt(c.probes) then 0 else 1)
  {
    var up := c.connected && server.AliveAt(c.probes);
    var probed := c.(connected := up, probes := c.probes + 1);
    if up then Reconnection(true, probed) else ReconnectFrom(server, probed)
  }

  /** One round of the store loop: the transfer, whether the loop may go on, and the state after the round. */
  datatype RoundRun = RoundRun(t: Transfer, ok: bool, next: Cursor)

  /** Store attempt `retry` (counted from zero) at state `c`, then, when it failed with attempts left, the wait's aftermath. */
  function Round(server: Server, retry: nat, c: Cursor): (r: RoundRun)
    ensures r.t == server.StoreAt(c.stores) && r.next.stores == c.stores + 1
    ensures !r.ok <==> && !r.t.Stored? && retry + 1 < MaxUploadRetries
                       && !(c.connected && server.AliveAt(c.probes)) && !ReconnectOk(server, c)
  {
    var t := server.StoreAt(c.stores);
    var stored := c.(stores := c.stores + 1);
    if t.Stored? || retry + 1 >= MaxUploadRetries then RoundRun(t, true, stored)
    else
      var after := AfterFailure(server, stored);
      RoundRun(t, after.ok, after.next)
  }

  /** How the store loop ended, after how many attempts, and the state its last round started from. */
  datatype StoreRun = StoreRun(outcome: StoreOutcome, attempts: nat, last: Cursor)

  /**
   * The store loop from attempt `retry` at state `c`: it stops at the first
   * stored transfer, after the third attempt, or when a reconnect hits an
   * I/O error; in that last case the connection had been found gone.
   */
  function StoreFrom(server: Server, retry: nat, c: Cursor): (r: StoreRun)
    requires retry < MaxUploadRetries
    ensures retry < r.attempts <= MaxUploadRetries
    decreases MaxUploadRetries - retry
  {
    var round := Round(server, retry, c);
    if round.t.Stored? then StoreRun(Uploaded(round.t.elapsedMs), retry + 1, c)
    else if retry + 1 >= MaxUploadRetries then StoreRun(Exhausted, retry + 1, c)
    else if !round.ok then StoreRun(ReconnectFailed, retry + 1, c)
    else StoreFrom(server, retry + 1, round.next)
  }

  /**
   * Each round stores once: the loop ends uploaded exactly when its last
   * transfer was stored, after failed transfers only; exhausted after the
   * third attempt; and after a failed reconnect only when the connection had
   * been found gone and the reconnect hit an I/O error.
   */
  lemma {:induction false} StoreFromOutcomes(server: Server, retry: nat, c: Cursor)
    requires retry < MaxUploadRetries
    ensures var r := StoreFrom(server, retry, c);
            && r.last.stores == c.stores + (r.attempts - 1 - retry)
            && (forall k :: c.stores <= k < r.last.stores ==> !server.StoreAt(k).Stored?)
            && (r.outcome.Uploaded? <==> server.StoreAt(r.last.stores).Stored?)
            && (r.outcome.Uploaded? ==> r.outcome.elapsedMs == server.StoreAt(r.last.stores).elapsedMs)
            && (r.outcome.Exhausted? ==> r.attempts == MaxUploadRetries)
            && (r.outcome.ReconnectFailed? ==>
                  && r.attempts < MaxUploadRetries
                  && !(r.last.connected && server.AliveAt(r.last.probes))
                  && !ReconnectOk(server, r.last))
    decreases MaxUploadRetries - retry
  {
    var round := Round(server, retry, c);
    if !round.t.Stored? && retry + 1 < MaxUploadRetries && round.ok {
      StoreFromOutcomes(server, retry + 1, round.next);
    }
  }

  /** How the loop ends after a round that stops it. */
  function Decided(t: Transfer, ok: bool): StoreOutcome {
    if t.Stored? then Uploaded(t.elapsedMs) else if ok then Exhausted else ReconnectFailed
  }

  /**
   * After round `retry` ended with `t` and `ok` at state `cur`, the run
   * `whole` is the rest of the loop from `cur` when it goes on, and is decided
   * by that round when it stops.
   */
  ghost predicate Deciding(server: Server, whole: StoreRun, retry: nat, t: Transfer, ok: bool, cur: Cursor) {
    if !t.Stored? && retry + 1 < MaxUploadRetries && ok then whole == StoreFrom(server, retry + 1, cur)
    else whole.outcome == Decided(t, ok) && whole.attempts == retry + 1
  }

  /** One round of the loop, in terms of the run from its start. */
  lemma StoreFromStep(server: Server, retry: nat, c: Cursor, t: Transfer, ok: bool, next: Cursor)
    requires retry < MaxUploadRetries
    requires Round(server, retry, c) == RoundRun(t, ok, next)
    ensures Deciding(server, StoreFrom(server, retry, c), retry, t, ok, next)
  {
  }

  /**
   * While `isConnected` keeps reporting the connection up, the store loop
   * never reconnects: it ends uploaded or, when every transfer fails, exhausted.
   */
  lemma {:induction false} LiveConnectionNeverReconnects(server: Server, retry: nat, c: Cursor)
    requires retry < MaxUploadRetries && c.connected
    requires forall k :: c.probes <= k < c.probes + MaxUploadRetries - retry ==> server.AliveAt(k)
    ensures var r := StoreFrom(server, retry, c);
            && !r.outcome.ReconnectFailed?
            && r.last.connects == c.connects && r.last.logins == c.logins
            && ((forall k :: c.stores <= k < c.stores + MaxUploadRetries - retry ==> !server.StoreAt(k).Stored?)
                ==> r.outcome == Exhausted)
    decreases MaxUploadRetries - retry
  {
    var round := Round(server, retry, c);
    if !round.t.Stored? && retry + 1 < MaxUploadRetries {
      assert server.AliveAt(c.probes);
      LiveConnectionNeverReconnects(server, retry + 1, round.next);
    }
  }

  /**
   * Reconnect after a lost connection: connect, log in, binary mode, passive
   * mode, CWD. Only an I/O error stops it; a refusing greeting, a refused
   * login and a refused CWD are not looked at.
   */
  method Reconnect(client: FtpClient, host: string, port: int, user: string, password: string, workingPath: string)
    returns (ok: bool, ghost events: seq<Event>)
    requires client.Valid() && ValidPort(port)
    modifies client`connected, client`remoteDir, client`trace, client`connects, client`logins, client`fileTypes, client`cwds
    ensures client.Valid()
    ensures client.trace == old(client.trace) + events
    ensures client.connects == old(client.connects) + 1
    ensures client.logins <= old(client.logins) + 1
    ensures Reconnection(ok, CursorOf(client)) == ReconnectFrom(client.server, old(CursorOf(client)))
    ensures ok ==> client.connected && events == ReconnectTrace(host, port, user, password, workingPath)
    ensures ok ==> client.remoteDir == (if client.server.CwdAt(old(client.cwds)) == Yes then Some(workingPath) else None)
    ensures 1 <= |events| <= 5 && events == ReconnectTrace(host, port, user, password, workingPath)[..|events|]
    ensures Waits(events) == []
  {
    ReconnectTraceHasNoWaits(host, port, user, password, workingPath);
    ghost var more;
    ok, events := Reopen(client, host, port, user, password);
    if !ok {
      return;
    }
    ok, more := Resume(client, workingPath);
    AppendAssoc(old(client.trace), events, more);
    events := events + more;
  }

  /** After a failed store: wait 2^r seconds, then reconnect when `isConnected` reports the connection gone. */
  method AfterFailedStore(client: FtpClient, retry: nat, host: string, port: int, user: string, password: string, workingPath: string)
    returns (ok: bool, ghost events: seq<Event>)
    requires client.Valid() && ValidPort(port)
    modifies client`connected, client`remoteDir, client`trace, client`connects, client`logins, client`fileTypes
    modifies client`cwds, client`probes
    ensures client.Valid()
    ensures client.trace == old(client.trace) + events
    ensures events != [] && events[0] == Sleep(Backoff(retry))
    ensures Waits(events) == [Backoff(retry)]
    ensures client.connects <= old(client.connects) + 1
    ensures client.logins <= old(client.logins) + 1
    ensures Reconnection(ok, CursorOf(client)) == AfterFailure(client.server, old(CursorOf(client)))
    ensures var up := old(client.connected) && client.server.AliveAt(old(client.probes));
            && (up ==> ok && events == [Sleep(Backoff(retry))])
            && (!up ==> && client.connects == old(client.connects) + 1
                        && 2 <= |events| <= 6
                        && events == [Sleep(Backoff(retry))] + ReconnectTrace(host, port, user, password, workingPath)[..|events| - 1])
            && (ok <==> up || ReconnectOk(client.server, old(CursorOf(client))))
  {
    client.Delay(Backoff(retry));
    events := [Sleep(Backoff(retry))];
    Single(Sleep(Backoff(retry)), IsStor);
    var up := client.IsConnected();
    ok := true;
    if !up {
      ghost var more;
      ok, more := Reconnect(client, host, port, user, password, workingPath);
      AppendAssoc(old(client.trace), events, more);
      WaitsAppend(events, more);
      events := events + more;
    }
  }

  /**
   * One store attempt at retry count `retry`; after a failure that leaves
   * attempts over, the wait and the reconnect check too. `ok` is false only
   * when the reconnect hit an I/O error.
   */
  method StoreRound(client: FtpClient, name: string, retry: nat, host: string, port: int, user: string, password: string,
                    workingPath: string)
    returns (t: Transfer, ok: bool, ghost events: seq<Event>)
    requires client.Valid() && ValidPort(port) && retry < MaxUploadRetries
    modifies client`connected, client`remoteDir, client`trace, client`connects, client`logins, client`fileTypes
    modifies client`cwds, client`stores, client`probes
    ensures client.Valid()
    ensures t == client.server.StoreAt(old(client.stores))
    ensures client.stores == old(client.stores) + 1
    ensures client.trace == old(client.trace) + events
    ensures events != [] && events[0] == Stor(name)
    ensures var last := t.Stored? || retry + 1 >= MaxUploadRetries;
            && (last ==> ok && events == [Stor(name)] && client.connects == old(client.connects) && client.logins == old(client.logins))
            && (!last ==> Waits(events) == [Backoff(retry + 1)])
            && client.connects <= old(client.connects) + 1
            && client.logins <= old(client.logins) + 1
    ensures RoundRun(t, ok, CursorOf(client)) == Round(client.server, retry, old(CursorOf(client)))
  {
    t := client.StoreFile(name);
    events := [Stor(name)];
    Single(Stor(name), IsStor);
    ok := true;
    if !t.Stored? && retry + 1 < MaxUploadRetries {
      ghost var more;
      ok, more := AfterFailedStore(client, retry + 1, host, port, user, password, workingPath);
      AppendAssoc(old(client.trace), events, more);
      WaitsAppend(events, more);
      events := events + more;
    }
  }

  /**
   * The state of the store loop after attempt `retries` (counted from zero):
   * the answers it used, the waits it made, and at most one reconnect per wait.
   */
  ghost predicate Storing(client: FtpClient, name: string, base: nat, retries: nat, t: Transfer, waits: nat,
                          events: seq<Event>, trace0: seq<Event>, connects0: nat, logins0: nat)
    reads client
  {
    && client.trace == trace0 + events
    && client.stores == base + retries + 1
    && t == client.server.StoreAt(base + retries)
    && (forall k :: base <= k < base + retries ==> !client.server.StoreAt(k).Stored?)
    && waits == (if t.Stored? || retries + 1 >= MaxUploadRetries then retries else retries + 1)
    && Waits(events) == BackoffSchedule(waits)
    && client.connects <= connects0 + waits && client.logins <= logins0 + waits
    && events != [] && events[0] == Stor(name)
  }

  /** The body of the store loop: the next attempt after a failed one. */
  method StoreStep(client: FtpClient, name: string, retries: nat, host: string, port: int, user: string, password: string,
                   workingPath: string, t0: Transfer, ghost base: nat, ghost waits0: nat, ghost events0: seq<Event>,
                   ghost trace0: seq<Event>, ghost connects0: nat, ghost logins0: nat, ghost whole: StoreRun)
    returns (t: Transfer, ok: bool, ghost waits: nat, ghost events: seq<Event>)
    requires client.Valid() && ValidPort(port)
    requires !t0.Stored? && retries + 1 < MaxUploadRetries
    requires Storing(client, name, base, retries, t0, waits0, events0, trace0, connects0, logins0)
    requires whole == StoreFrom(client.server, retries + 1, CursorOf(client))
    modifies client`connected, client`remoteDir, client`trace, client`connects, client`logins, client`fileTypes
    modifies client`cwds, client`stores, client`probes
    ensures client.Valid()
    ensures Storing(client, name, base, retries + 1, t, waits, events, trace0, connects0, logins0)
    ensures !ok ==> retries + 2 < MaxUploadRetries
    ensures Deciding(client.server, whole, retries + 1, t, ok, CursorOf(client))
  {
    ghost var start := CursorOf(client);
    ghost var more;
    t, ok, more := StoreRound(client, name, retries + 1, host, port, user, password, workingPath);
    StoreFromStep(client.server, retries + 1, start, t, ok, CursorOf(client));
    AppendAssoc(trace0, events0, more);
    WaitsAppend(events0, more);
    events := events0 + more;
    waits := if t.Stored? || retries + 2 >= MaxUploadRetries then retries + 1 else retries + 2;
  }

  /** The first round of the store loop, before the loop's test. */
  method FirstStore(client: FtpClient, name: string, host: string, port: int, user: string, password: string,
                    workingPath: string, ghost whole: StoreRun)
    returns (t: Transfer, ok: bool, ghost waits: nat, ghost events: seq<Event>)
    requires client.Valid() && ValidPort(port)
    requires whole == StoreFrom(client.server, 0, CursorOf(client))
    modifies client`connected, client`remoteDir, client`trace, client`connects, client`logins, client`fileTypes
    modifies client`cwds, client`stores, client`probes
    ensures client.Valid()
    ensures Storing(client, name, old(client.stores), 0, t, waits, events, old(client.trace), old(client.connects), old(client.logins))
    ensures !ok ==> 1 < MaxUploadRetries
    ensures t.Stored? ==> events == [Stor(name)] && client.connects == old(client.connects) && client.logins == old(client.logins)
    ensures Deciding(client.server, whole, 0, t, ok, CursorOf(client))
  {
    ghost var start := CursorOf(client);
    t, ok, events := StoreRound(client, name, 0, host, port, user, password, workingPath);
    StoreFromStep(client.server, 0, start, t, ok, CursorOf(client));
    Single(Stor(name), IsStor);
    waits := if t.Stored? || 1 >= MaxUploadRetries then 0 else 1;
  }

  /**
   * The store loop: up to three attempts; after a failed one, wait 2^r
   * seconds and reconnect when the connection is gone.
   */
  method StoreWithRetry(client: FtpClient, name: string, host: string, port: int, user: string, password: string, workingPath: string)
    returns (outcome: StoreOutcome, attempts: nat, ghost events: seq<Event>)
    requires client.Valid() && ValidPort(port)
    modifies client`connected, client`remoteDir, client`trace, client`connects, client`logins, client`fileTypes
    modifies client`cwds, client`stores, client`probes
    ensures client.Valid()
    ensures client.trace == old(client.trace) + events
    ensures 1 <= attempts <= MaxUploadRetries
    ensures client.stores == old(client.stores) + attempts
    ensures Waits(events) == BackoffSchedule(if outcome.ReconnectFailed? then attempts else attempts - 1)
    ensures client.connects <= old(client.connects) + attempts - (if outcome.ReconnectFailed? then 0 else 1)
    ensures client.logins <= old(client.logins) + attempts - (if outcome.ReconnectFailed? then 0 else 1)
    ensures events != [] && events[0] == Stor(name)
    ensures client.server.StoreAt(old(client.stores)).Stored? ==>
              events == [Stor(name)] && client.connects == old(client.connects) && client.logins == old(client.logins)
    ensures var run := StoreFrom(client.server, 0, old(CursorOf(client)));
            outcome == run.outcome && attempts == run.attempts
  {
    var base := client.stores;
    ghost var connects0, logins0 := client.connects, client.logins;
    ghost var whole := StoreFrom(client.server, 0, CursorOf(client));
    var t, ok;
    ghost var waits;
    t, ok, waits, events := FirstStore(client, name, host, port, user, password, workingPath, whole);
    var retries;
    t, ok, retries, waits, events := StoreLoop(client, name, host, port, user, password, workingPath, t, ok,
                                               base, waits, events, old(client.trace), connects0, logins0, whole);
    attempts := retries + 1;
    outcome := Decided(t, ok);
  }

  /** The `while` loop of the store loop, entered after its first round. */
  method StoreLoop(client: FtpClient, name: string, host: string, port: int, user: string, password: string,
                   workingPath: string, t0: Transfer, ok0: bool, ghost base: nat, ghost waits0: nat,
                   ghost events0: seq<Event>, ghost trace0: seq<Event>, ghost connects0: nat, ghost logins0: nat,
                   ghost whole: StoreRun)
    returns (t: Transfer, ok: bool, retries: nat, ghost waits: nat, ghost events: seq<Event>)
    requires client.Valid() && ValidPort(port)
    requires Storing(client, name, base, 0, t0, waits0, events0, trace0, connects0, logins0)
    requires !ok0 ==> 1 < MaxUploadRetries
    requires t0.Stored? ==> events0 == [Stor(name)] && client.connects == connects0 && client.logins == logins0
    requires Deciding(client.server, whole, 0, t0, ok0, CursorOf(client))
    modifies client`connected, client`remoteDir, client`trace, client`connects, client`logins, client`fileTypes
    modifies client`cwds, client`stores, client`probes
    ensures client.Valid() && retries < MaxUploadRetries
    ensures Storing(client, name, base, retries, t, waits, events, trace0, connects0, logins0)
    ensures t.Stored? || retries + 1 >= MaxUploadRetries || !ok
    ensures !ok ==> retries + 1 < MaxUploadRetries
    ensures retries == 0 && t.Stored? ==> events == [Stor(name)] && client.connects == connects0 && client.logins == logins0
    ensures whole.outcome == Decided(t, ok) && whole.attempts == retries + 1
  {
    t, ok, retries, waits, events := t0, ok0, 0, waits0, events0;
    while !t.Stored? && retries + 1 < MaxUploadRetries && ok
      invariant client.Valid()
      invariant 0 <= retries < MaxUploadRetries
      invariant Storing(client, name, base, retries, t, waits, events, trace0, connects0, logins0)
      invariant !ok ==> retries + 1 < MaxUploadRetries
      invariant retries == 0 && t.Stored? ==>
                  events == [Stor(name)] && client.connects == connects0 && client.logins == logins0
      invariant Deciding(client.server, whole, retries, t, ok, CursorOf(client))
      decreases MaxUploadRetries - retries
    {
      t, ok, waits, events := StoreStep(client, name, retries, host, port, user, password, workingPath,
                                        t, base, waits, events, trace0, connects0, logins0, whole);
      retries := retries + 1;
    }
  }

  // ---- the whole upload ----

  /** Why an upload failed. */
  datatype UploadError =
    | InvalidPort            // `InetSocketAddress` rejects the port
    | ConnectFailed          // five connection attempts failed
    | LoginFailed            // three login attempts failed
    | DirectoryCreateFailed(path: string)
    | UploadFailed           // three store attempts failed
    | IoFailure              // an I/O error outside the retry loops

  /** `Result<Long>`: the upload time in milliseconds, or why it failed. */
  datatype UploadResult = Success(elapsedMs: int) | Failure(error: UploadError)

  /** The `finally` block: when still connected, QUIT and close; an I/O error during QUIT skips the close. */
  method Cleanup(client: FtpClient)
    requires client.Valid()
    modifies client`connected, client`trace, client`probes, client`logouts
    ensures client.Valid()
    ensures var up := old(client.connected) && client.server.AliveAt(old(client.probes));
            client.trace == old(client.trace) + (if !up then [] else if client.server.LogoutAt(old(client.logouts)) == IoError then [Quit] else [Quit, Close])
  {
    var up := client.IsConnected();
    if up {
      var a := client.Logout();
      if a != IoError {
        client.Disconnect();
      }
    }
  }

  /** The fresh client of one upload. */
  ghost predicate Fresh(client: FtpClient)
    reads client
  {
    && client.Valid() && !client.connected && client.trace == []
    && client.connects == 0 && client.logins == 0 && client.fileTypes == 0 && client.cwds == 0
    && client.mkds == 0 && client.stores == 0 && client.probes == 0
  }

  /** Some greeting among the first five is a positive completion. */
  predicate SomeGreetingAccepted(server: Server) {
    exists i :: 0 <= i < MaxConnectRetries && Accepted(server.GreetingAt(i))
  }

  /** Some login among the first three is accepted. */
  predicate SomeLoginAccepted(server: Server) {
    exists j :: 0 <= j < MaxLoginRetries && server.LoginAt(j) == Yes
  }

  /**
   * The state of a session that is ready to enter the working directory: the
   * connect loop stopped at the first accepted greeting, the login loop at the
   * first accepted login, TYPE I was sent once, and nothing else was asked.
   */
  ghost predicate ReadySession(server: Server, s: Cursor) {
    && s.connected
    && 1 <= s.connects <= MaxConnectRetries && Accepted(server.GreetingAt(s.connects - 1))
    && (forall k :: 0 <= k < s.connects - 1 ==> !Accepted(server.GreetingAt(k)))
    && 1 <= s.logins <= MaxLoginRetries && server.LoginAt(s.logins - 1) == Yes
    && (forall k :: 0 <= k < s.logins - 1 ==> server.LoginAt(k) != Yes)
    && s.fileTypes == 1 && s.cwds == 0 && s.stores == 0 && s.probes == 0
  }

  /** The upload's result for how the store loop ended. */
  function StoreResult(outcome: StoreOutcome): UploadResult {
    match outcome
    case Uploaded(ms) => Success(ms)
    case Exhausted => Failure(UploadFailed)
    case ReconnectFailed => Failure(IoFailure)
  }

  /**
   * The result of an open session at state `c`, with MKD answers from `m` on:
   * a refused create or an I/O error while entering the working path ends it;
   * otherwise the store loop decides.
   */
  function SessionResult(server: Server, workingPath: string, c: Cursor, m: nat): (r: UploadResult)
    ensures r.Failure? ==> r.error.DirectoryCreateFailed? || r.error == UploadFailed || r.error == IoFailure
  {
    var dir := EnterWorkingDirectory(server, workingPath, c.cwds, m);
    match dir.outcome
    case CreateFailed(p) => Failure(DirectoryCreateFailed(p))
    case DirIoError => Failure(IoFailure)
    case DirsReady => StoreResult(StoreFrom(server, 0, c.(cwds := c.cwds + dir.cwdsUsed)).outcome)
  }

  /** A directory failure names a prefix of the working path whose CWD and MKD were both refused. */
  lemma SessionCreateFailure(server: Server, workingPath: string, c: Cursor, m: nat)
    ensures var r := SessionResult(server, workingPath, c, m);
            r.Failure? && r.error.DirectoryCreateFailed? ==>
              && server.CwdAt(c.cwds) == No
              && r.error.path in Prefixes(Segments(workingPath))
              && EnterWorkingDirectory(server, workingPath, c.cwds, m).outcome == CreateFailed(r.error.path)
  {
    EnterFailureNamesPrefix(server, workingPath, c.cwds, m);
  }

  /** A success reports the elapsed time of the first stored transfer among at most three. */
  lemma SessionSuccess(server: Server, workingPath: string, c: Cursor, m: nat)
    ensures var r := SessionResult(server, workingPath, c, m);
            var dir := EnterWorkingDirectory(server, workingPath, c.cwds, m);
            r.Success? <==>
              && dir.outcome.DirsReady?
              && StoreFrom(server, 0, c.(cwds := c.cwds + dir.cwdsUsed)).outcome.Uploaded?
    ensures var r := SessionResult(server, workingPath, c, m);
            r.Success? ==>
              exists k :: c.stores <= k < c.stores + MaxUploadRetries && server.StoreAt(k) == Stored(r.elapsedMs)
                          && forall j :: c.stores <= j < k ==> !server.StoreAt(j).Stored?
  {
    var dir := EnterWorkingDirectory(server, workingPath, c.cwds, m);
    if dir.outcome.DirsReady? {
      var run := StoreFrom(server, 0, c.(cwds := c.cwds + dir.cwdsUsed));
      StoreFromOutcomes(server, 0, c.(cwds := c.cwds + dir.cwdsUsed));
      if run.outcome.Uploaded? {
        assert server.StoreAt(run.last.stores) == Stored(run.outcome.elapsedMs);
      }
    }
  }

  /** `UploadFailed` means the working directory was ready and three transfers in a row failed. */
  lemma SessionUploadFailed(server: Server, workingPath: string, c: Cursor, m: nat)
    ensures SessionResult(server, workingPath, c, m) == Failure(UploadFailed) ==>
              && EnterWorkingDirectory(server, workingPath, c.cwds, m).outcome.DirsReady?
              && forall k :: c.stores <= k < c.stores + MaxUploadRetries ==> !server.StoreAt(k).Stored?
  {
    var dir := EnterWorkingDirectory(server, workingPath, c.cwds, m);
    StoreFromOutcomes(server, 0, c.(cwds := c.cwds + dir.cwdsUsed));
  }

  /** On a live connection with the directory ready, three failed transfers give `UploadFailed`. */
  lemma SessionRefusedOnLiveConnection(server: Server, workingPath: string, c: Cursor, m: nat)
    requires EnterWorkingDirectory(server, workingPath, c.cwds, m).outcome.DirsReady?
    requires c.connected && forall k :: c.probes <= k < c.probes + MaxUploadRetries ==> server.AliveAt(k)
    requires forall k :: c.stores <= k < c.stores + MaxUploadRetries ==> !server.StoreAt(k).Stored?
    ensures SessionResult(server, workingPath, c, m) == Failure(UploadFailed)
  {
    var dir := EnterWorkingDirectory(server, workingPath, c.cwds, m);
    LiveConnectionNeverReconnects(server, 0, c.(cwds := c.cwds + dir.cwdsUsed));
  }

  /**
   * `IoFailure` comes from an I/O error while entering the working path, or
   * from a reconnect that hit one after the connection was found gone.
   */
  lemma SessionIoFailure(server: Server, workingPath: string, c: Cursor, m: nat)
    ensures var dir := EnterWorkingDirectory(server, workingPath, c.cwds, m);
            var run := StoreFrom(server, 0, c.(cwds := c.cwds + dir.cwdsUsed));
            SessionResult(server, workingPath, c, m) == Failure(IoFailure) ==>
              || dir.outcome.DirIoError?
              || (&& dir.outcome.DirsReady?
                  && !(run.last.connected && server.AliveAt(run.last.probes))
                  && !ReconnectOk(server, run.last))
  {
    var dir := EnterWorkingDirectory(server, workingPath, c.cwds, m);
    StoreFromOutcomes(server, 0, c.(cwds := c.cwds + dir.cwdsUsed));
  }

  /** Connect, log in, binary mode and passive mode on a fresh client; `None` when the session is ready. */
  method OpenSession(client: FtpClient, host: string, port: int, user: string, password: string)
    returns (failure: Option<UploadError>)
    requires Fresh(client) && ValidPort(port)
    modifies client`connected, client`remoteDir, client`trace, client`connects, client`logins, client`fileTypes
    ensures client.Valid()
    ensures failure == Some(ConnectFailed)
        <==> forall i :: 0 <= i < MaxConnectRetries ==> !Accepted(client.server.GreetingAt(i))
    ensures failure == Some(LoginFailed)
        <==> && (exists i :: 0 <= i < MaxConnectRetries && Accepted(client.server.GreetingAt(i)))
             && forall j :: 0 <= j < MaxLoginRetries ==> client.server.LoginAt(j) != Yes
    ensures failure == None || failure == Some(ConnectFailed) || failure == Some(LoginFailed) || failure == Some(IoFailure)
    ensures failure == Some(IoFailure)
        <==> SomeGreetingAccepted(client.server) && SomeLoginAccepted(client.server) && client.server.FileTypeAt(0) == IoError
    ensures failure == None ==> ReadySession(client.server, CursorOf(client))
    ensures failure == Some(ConnectFailed) ==>
              && !client.connected && client.logins == 0
              && client.trace == ConnectTrace(client.server.greeting, 0, MaxConnectRetries, host, port)
    ensures client.connects <= MaxConnectRetries && client.logins <= MaxLoginRetries
    ensures Accepted(client.server.GreetingAt(0)) && client.server.LoginAt(0) == Yes && client.server.FileTypeAt(0) != IoError
            ==> && failure == None && client.connects == 1 && client.logins == 1
                && client.trace == [Open(host, port), UserPass(user, password), TypeImage, Passive]
  {
    var connected, connectAttempts := ConnectWithRetry(client, host, port);
    if !connected {
      return Some(ConnectFailed);
    }
    ghost var afterConnect := client.trace;
    var loggedIn, loginAttempts := LoginWithRetry(client, user, password);
    if !loggedIn {
      return Some(LoginFailed);
    }
    var binary := client.SetBinaryFileType();
    if binary == IoError {
      return Some(IoFailure);
    }
    client.EnterLocalPassiveMode();
    failure := None;
  }

  /** The store loop in an open session, its outcome turned into the upload's result. */
  method StoreInSession(client: FtpClient, name: string, host: string, port: int, user: string, password: string,
                        workingPath: string)
    returns (result: UploadResult, ghost events: seq<Event>)
    requires client.Valid() && ValidPort(port)
    modifies client`connected, client`remoteDir, client`trace, client`connects, client`logins, client`fileTypes
    modifies client`cwds, client`stores, client`probes
    ensures client.Valid()
    ensures client.trace == old(client.trace) + events
    ensures result == StoreResult(StoreFrom(client.server, 0, old(CursorOf(client))).outcome)
    ensures client.connects <= old(client.connects) + MaxUploadRetries - 1
    ensures client.logins <= old(client.logins) + MaxUploadRetries - 1
    ensures client.stores <= old(client.stores) + MaxUploadRetries
    ensures client.server.StoreAt(old(client.stores)).Stored? ==>
              && result == Success(client.server.StoreAt(old(client.stores)).elapsedMs)
              && client.connects == old(client.connects) && client.logins == old(client.logins)
              && client.stores == old(client.stores) + 1
              && events == [Stor(name)]
  {
    var stored, storeAttempts;
    stored, storeAttempts, events := StoreWithRetry(client, name, host, port, user, password, workingPath);
    result := StoreResult(stored);
  }

  /** The rest of the `try` block once the session is open: enter the working directory, then store the file. */
  method UploadInSession(client: FtpClient, name: string, host: string, port: int, user: string, password: string,
                         workingPath: string)
    returns (result: UploadResult)
    requires client.Valid() && ValidPort(port)
    modifies client`connected, client`remoteDir, client`trace, client`connects, client`logins, client`fileTypes
    modifies client`cwds, client`mkds, client`stores, client`probes
    ensures client.Valid()
    ensures client.connects <= old(client.connects) + MaxUploadRetries - 1
    ensures client.logins <= old(client.logins) + MaxUploadRetries - 1
    ensures client.stores <= old(client.stores) + MaxUploadRetries
    ensures client.server.CwdAt(old(client.cwds)) == Yes && client.server.StoreAt(old(client.stores)).Stored? ==>
              && result == Success(client.server.StoreAt(old(client.stores)).elapsedMs)
              && client.connects == old(client.connects) && client.logins == old(client.logins)
              && client.stores == old(client.stores) + 1
              && client.trace == old(client.trace) + [Cwd(workingPath), Stor(name)]
    ensures result == SessionResult(client.server, workingPath, old(CursorOf(client)), old(client.mkds))
  {
    ghost var c0, m0 := CursorOf(client), client.mkds;
    ghost var run := EnterWorkingDirectory(client.server, workingPath, client.cwds, client.mkds);
    var dir, dirEvents := ChangeToWorkingDirectory(client, workingPath);
    assert dir == run.outcome;
    if dir.CreateFailed? {
      return Failure(DirectoryCreateFailed(dir.path));
    }
    if dir.DirIoError? {
      return Failure(IoFailure);
    }
    assert CursorOf(client) == c0.(cwds := c0.cwds + run.cwdsUsed);
    ghost var storeEvents;
    result, storeEvents := StoreInSession(client, name, host, port, user, password, workingPath);
    AppendAssoc(old(client.trace), dirEvents, storeEvents);
  }

  /** The `try` block of the upload. */
  method TryUpload(client: FtpClient, file: LocalFile, settings: FtpSettings) returns (result: UploadResult, ghost session: Cursor)
    requires Fresh(client)
    modifies client
    ensures client.Valid()
    ensures ValidPort(settings.port) && SomeGreetingAccepted(client.server) && SomeLoginAccepted(client.server) ==>
              if client.server.FileTypeAt(0) == IoError then result == Failure(IoFailure)
              else && ReadySession(client.server, session)
                   && result == SessionResult(client.server, WorkingPath(settings.uploadFolder, file.Name()), session, 0)
    ensures !ValidPort(settings.port) ==>
              result == Failure(InvalidPort) && client.trace == [] && !client.connected
              && client.connects == 0 && client.logins == 0 && client.stores == 0
    ensures result == Failure(ConnectFailed)
        <==> ValidPort(settings.port) && forall i :: 0 <= i < MaxConnectRetries ==> !Accepted(client.server.GreetingAt(i))
    ensures result == Failure(LoginFailed)
        <==> && ValidPort(settings.port)
             && (exists i :: 0 <= i < MaxConnectRetries && Accepted(client.server.GreetingAt(i)))
             && forall j :: 0 <= j < MaxLoginRetries ==> client.server.LoginAt(j) != Yes
    ensures result.Success? ==>
              exists k :: 0 <= k < MaxUploadRetries && client.server.StoreAt(k) == Stored(result.elapsedMs)
                          && forall j :: 0 <= j < k ==> !client.server.StoreAt(j).Stored?
    ensures result == Failure(ConnectFailed) ==>
              && !client.connected && client.logins == 0 && client.stores == 0
              && client.trace == ConnectTrace(client.server.greeting, 0, MaxConnectRetries, settings.serverIp, settings.port)
    ensures client.connects <= MaxConnectRetries + MaxUploadRetries - 1
    ensures client.stores <= MaxUploadRetries
    ensures client.logins <= MaxLoginRetries + MaxUploadRetries - 1
    ensures ValidPort(settings.port) && Accepted(client.server.GreetingAt(0)) && client.server.LoginAt(0) == Yes
            && client.server.FileTypeAt(0) != IoError && client.server.CwdAt(0) == Yes && client.server.StoreAt(0).Stored?
            ==> result == Success(client.server.StoreAt(0).elapsedMs)
                && client.connects == 1 && client.logins == 1 && client.stores == 1
                && client.trace == [Open(settings.serverIp, settings.port), UserPass(settings.userName, settings.password),
                                    TypeImage, Passive, Cwd(WorkingPath(settings.uploadFolder, file.Name())), Stor(file.Name())]
  {
    var port := settings.port as int;
    session := CursorOf(client);
    if !ValidPort(port) {
      // connect() throws IllegalArgumentException before any socket is opened; it is not an IOException, so no retry
      result := Failure(InvalidPort);
      return;
    }
    var failure := OpenSession(client, settings.serverIp, port, settings.userName, settings.password);
    session := CursorOf(client);
    if failure.Some? {
      result := Failure(failure.value);
      return;
    }
    var workingPath := WorkingPath(settings.uploadFolder, file.Name());
    result := UploadInSession(client, file.Name(), settings.serverIp, port, settings.userName, settings.password, workingPath);
    SessionSuccess(client.server, workingPath, session, 0);
  }

  /** How many times the upload called `connect`, `login` and `storeFile`. */
  datatype Calls = Calls(connects: nat, logins: nat, stores: nat)

  /**
   * `uploadFile(localFile, settings)` against one server: the result, the
   * commands sent (including the closing QUIT), and how many connects, logins
   * and stores it made.
   */
  method UploadFile(file: LocalFile, settings: FtpSettings, server: Server)
    returns (result: UploadResult, trace: seq<Event>, calls: Calls, ghost session: Cursor)
    ensures ValidPort(settings.port) && SomeGreetingAccepted(server) && SomeLoginAccepted(server) ==>
              if server.FileTypeAt(0) == IoError then result == Failure(IoFailure)
              else && ReadySession(server, session)
                   && result == SessionResult(server, WorkingPath(settings.uploadFolder, file.Name()), session, 0)
    ensures !ValidPort(settings.port) ==> result == Failure(InvalidPort) && trace == [] && calls == Calls(0, 0, 0)
    ensures result == Failure(ConnectFailed)
        <==> ValidPort(settings.port) && forall i :: 0 <= i < MaxConnectRetries ==> !Accepted(server.GreetingAt(i))
    ensures result == Failure(LoginFailed)
        <==> && ValidPort(settings.port)
             && (exists i :: 0 <= i < MaxConnectRetries && Accepted(server.GreetingAt(i)))
             && forall j :: 0 <= j < MaxLoginRetries ==> server.LoginAt(j) != Yes
    ensures result.Success? ==>
              exists k :: 0 <= k < MaxUploadRetries && server.StoreAt(k) == Stored(result.elapsedMs)
                          && forall j :: 0 <= j < k ==> !server.StoreAt(j).Stored?
    ensures result == Failure(ConnectFailed) ==>
              && calls.logins == 0 && calls.stores == 0
              && Count(trace, IsOpen) == MaxConnectRetries && Count(trace, IsUserPass) == 0
              && Waits(trace) == [2000, 4000, 8000, 10000]
    ensures calls.connects <= MaxConnectRetries + MaxUploadRetries - 1
    ensures calls.logins <= MaxLoginRetries + MaxUploadRetries - 1
    ensures calls.stores <= MaxUploadRetries
    ensures WaitsCapped(trace)
    ensures ValidPort(settings.port) && Accepted(server.GreetingAt(0)) && server.LoginAt(0) == Yes
            && server.FileTypeAt(0) != IoError && server.CwdAt(0) == Yes && server.StoreAt(0).Stored?
            ==> && result == Success(server.StoreAt(0).elapsedMs)
                && calls == Calls(1, 1, 1)
                && |trace| >= 6
                && trace[..6] == [Open(settings.serverIp, settings.port), UserPass(settings.userName, settings.password),
                                  TypeImage, Passive, Cwd(WorkingPath(settings.uploadFolder, file.Name())), Stor(file.Name())]
  {
    var client := new FtpClient(server);
    result, session := TryUpload(client, file, settings);
    ghost var attempted := client.trace;
    Cleanup(client);
    trace := client.trace;
    calls := Calls(client.connects, client.logins, client.stores);
    assert trace[..|attempted|] == attempted;
    if result == Failure(ConnectFailed) {
      assert trace == attempted;
      FailedConnectTrace(server.greeting, settings.serverIp, settings.port);
    }
  }
}

=== FILE: lists.dfy ===
/**
 * The two query shapes the DAOs use: `WHERE` (an order-preserving filter) and
 * `ORDER BY <column> DESC`, modelled as a stable insertion sort on an integer
 * key, so rows with equal keys keep their stored order.
 */
module Lists {

  /** Non-increasing by `key`. */
  predicate SortedDesc<T>(s: seq<T>, key: T -> int) {
    forall i, j :: 0 <= i < j < |s| ==> key(s[i]) >= key(s[j])
  }

  /** The rows of `s` that satisfy `p`, in their stored order. */
  function Filter<T(!new)>(s: seq<T>, p: T -> bool): (r: seq<T>)
    ensures forall x :: x in r <==> x in s && p(x)
    ensures |r| <= |s|
  {
    if s == [] then []
    else
      var rest := Filter(s[1..], p);
      assert s == [s[0]] + s[1..];
      if p(s[0]) then [s[0]] + rest else rest
  }

  /** Inserts `x` before the first element whose key is not larger. */
  function InsertDesc<T>(x: T, s: seq<T>, key: T -> int): (r: seq<T>)
    requires SortedDesc(s, key)
    ensures SortedDesc(r, key)
    ensures multiset(r) == multiset(s) + multiset{x}
  {
    if s == [] then [x]
    else if key(x) >= key(s[0]) then [x] + s
    else
      var rest := InsertDesc(x, s[1..], key);
      assert s == [s[0]] + s[1..];
      HeadBoundsRest(x, s, rest, key);
      [s[0]] + rest
  }

  /** The head of a sorted `s` bounds every element of a rearrangement of its tail plus a smaller `x`. */
  lemma HeadBoundsRest<T>(x: T, s: seq<T>, rest: seq<T>, key: T -> int)
    requires s != [] && SortedDesc(s, key) && key(x) < key(s[0])
    requires multiset(rest) == multiset(s[1..]) + multiset{x}
    ensures forall j :: 0 <= j < |rest| ==> key(s[0]) >= key(rest[j])
  {
    forall j | 0 <= j < |rest| ensures key(s[0]) >= key(rest[j]) {
      var y := rest[j];
      assert y in multiset(rest);
      if y != x {
        assert y in multiset(s[1..]);
        assert y in s[1..];
        var k :| 0 <= k < |s[1..]| && s[1..][k] == y;
        assert s[k + 1] == y;
      }
    }
  }

  /** `ORDER BY key DESC`. */
  function SortDesc<T>(s: seq<T>, key: T -> int): (r: seq<T>)
    ensures SortedDesc(r, key)
    ensures multiset(r) == multiset(s)
    ensures |r| == |s|
  {
    if s == [] then []
    else
      assert s == [s[0]] + s[1..];
      InsertDesc(s[0], SortDesc(s[1..], key), key)
  }

  /** Sorting keeps exactly the rows it was given. */
  lemma SortDescMembers<T>(s: seq<T>, key: T -> int, x: T)
    ensures x in SortDesc(s, key) <==> x in s
  {
    assert x in SortDesc(s, key) <==> x in multiset(SortDesc(s, key));
    assert x in s <==> x in multiset(s);
  }

  /** No two rows share a key. */
  predicate DistinctKeys<T, K(==)>(s: seq<T>, key: T -> K) {
    forall i, j :: 0 <= i < j < |s| ==> key(s[i]) != key(s[j])
  }

  /** A filter keeps a key unique, since it keeps rows in order and adds none. */
  lemma {:induction false} FilterKeepsDistinctKeys<T(!new), K>(s: seq<T>, p: T -> bool, key: T -> K)
    requires DistinctKeys(s, key)
    ensures DistinctKeys(Filter(s, p), key)
  {
    if s != [] {
      assert DistinctKeys(s[1..], key) by {
        forall i, j | 0 <= i < j < |s[1..]| ensures key(s[1..][i]) != key(s[1..][j]) {
          assert s[1..][i] == s[i + 1] && s[1..][j] == s[j + 1];
        }
      }
      FilterKeepsDistinctKeys(s[1..], p, key);
      var rest := Filter(s[1..], p);
      if p(s[0]) {
        forall j | 0 <= j < |rest| ensures key(s[0]) != key(rest[j]) {
          assert rest[j] in s[1..];
          var k :| 0 <= k < |s[1..]| && s[1..][k] == rest[j];
          assert s[k + 1] == rest[j];
        }
        assert Filter(s, p) == [s[0]] + rest;
      }
    }
  }

  /** `a` is `b` with some elements left out, the rest in order. */
  ghost predicate IsSubsequence<T>(a: seq<T>, b: seq<T>)
    decreases |b|
  {
    a == [] || (b != [] && ((a[0] == b[0] && IsSubsequence(a[1..], b[1..])) || IsSubsequence(a, b[1..])))
  }

  lemma {:induction false} FilterIsSubsequence<T(!new)>(s: seq<T>, p: T -> bool)
    ensures IsSubsequence(Filter(s, p), s)
  {
    if s != [] {
      FilterIsSubsequence(s[1..], p);
      if p(s[0]) {
        assert Filter(s, p)[1..] == Filter(s[1..], p);
      }
    }
  }

  /** Applying `f` to every element (Kotlin's `map`). */
  function Map<T, U>(s: seq<T>, f: T -> U): (r: seq<U>)
    ensures |r| == |s| && forall i :: 0 <= i < |s| ==> r[i] == f(s[i])
  {
    seq(|s|, i requires 0 <= i < |s| => f(s[i]))
  }

  lemma {:induction false} MapKeepsSubsequence<T, U>(a: seq<T>, b: seq<T>, f: T -> U)
    requires IsSubsequence(a, b)
    ensures IsSubsequence(Map(a, f), Map(b, f))
    decreases |b|
  {
    if a != [] {
      assert Map(a, f)[1..] == Map(a[1..], f);
      assert Map(b, f)[1..] == Map(b[1..], f);
      if a[0] == b[0] && IsSubsequence(a[1..], b[1..]) {
        MapKeepsSubsequence(a[1..], b[1..], f);
      } else {
        MapKeepsSubsequence(a, b[1..], f);
      }
    }
  }

  lemma {:induction false} SubsequenceTransitive<T>(a: seq<T>, b: seq<T>, c: seq<T>)
    requires IsSubsequence(a, b) && IsSubsequence(b, c)
    ensures IsSubsequence(a, c)
    decreases |c|
  {
    if a != [] {
      if IsSubsequence(b, c[1..]) {
        SubsequenceTransitive(a, b, c[1..]);
      } else if a[0] == b[0] && IsSubsequence(a[1..], b[1..]) {
        SubsequenceTransitive(a[1..], b[1..], c[1..]);
      } else {
        SubsequenceTransitive(a, b[1..], c[1..]);
      }
    }
  }

  lemma {:induction false} FilterAppend<T(!new)>(a: seq<T>, b: seq<T>, p: T -> bool)
    ensures Filter(a + b, p) == Filter(a, p) + Filter(b, p)
  {
    if a != [] {
      assert (a + b)[1..] == a[1..] + b;
      FilterAppend(a[1..], b, p);
    } else {
      assert a + b == b;
    }
  }
}

=== FILE: photo_repo.dfy ===
/**
 * The backup target list: the local media paths that have not been
 * uploaded successfully yet and that still name an existing, non-empty file.
 */
module PhotoRepo {
  import opened Lists

  /** The name of a path: what follows its last '/'. */
  function FileName(path: string): (name: string)
    ensures '/' !in name
    ensures |name| <= |path|
  {
    if path == [] || path[|path| - 1] == '/' then []
    else FileName(path[..|path| - 1]) + [path[|path| - 1]]
  }

  /** The name ends the path, and is the whole path or follows a '/'. */
  lemma {:induction false} FileNameIsLastComponent(path: string)
    ensures var name := FileName(path);
            && (forall k :: 0 <= k < |name| ==> path[|path| - |name| + k] == name[k])
            && (|name| < |path| ==> path[|path| - |name| - 1] == '/')
  {
    if path != [] && path[|path| - 1] != '/' {
      var front := path[..|path| - 1];
      FileNameIsLastComponent(front);
      var n := FileName(front);
      var name := FileName(path);
      assert name == n + [path[|path| - 1]];
      forall k | 0 <= k < |name| ensures path[|path| - |name| + k] == name[k] {
        if k < |n| {
          assert path[|path| - |name| + k] == front[|front| - |n| + k];
        }
      }
      if |n| < |front| {
        assert path[|path| - |name| - 1] == front[|front| - |n| - 1];
      }
    }
  }

  /** A local file, named by the absolute path the media index reports. */
  datatype LocalFile = LocalFile(path: string) {
    function Name(): string {
      FileName(path)
    }
  }

  /**
   * The file system at the moment of the check: the length in bytes of each
   * existing file. `File.length()` is 0 for a missing file.
   */
  type FileLengths = map<string, int>

  function Length(fs: FileLengths, path: string): int {
    if path in fs then fs[path] else 0
  }

  predicate ExistsNonEmpty(fs: FileLengths, path: string) {
    path in fs && fs[path] > 0
  }

  function IsNotIn(paths: seq<string>): string -> bool { (p: string) => p !in paths }
  function ToFile(p: string): LocalFile { LocalFile(p) }
  function IsNonEmptyFile(fs: FileLengths): LocalFile -> bool { (f: LocalFile) => ExistsNonEmpty(fs, f.path) }

  /**
   * `createBackupTargetList`: drop the already-successful paths, make files,
   * keep those that exist with a positive length.
   */
  function CreateBackupTargetList(localPaths: seq<string>, successful: seq<string>, fs: FileLengths): (r: seq<LocalFile>)
    ensures forall i :: 0 <= i < |r| ==> r[i].path !in successful
    ensures forall i :: 0 <= i < |r| ==> ExistsNonEmpty(fs, r[i].path)
    ensures forall i :: 0 <= i < |localPaths| && localPaths[i] !in successful && ExistsNonEmpty(fs, localPaths[i])
              ==> LocalFile(localPaths[i]) in r
    ensures IsSubsequence(r, Map(localPaths, ToFile))
  {
    var newFilePaths := Filter(localPaths, IsNotIn(successful));
    var files := Map(newFilePaths, ToFile);
    var r := Filter(files, IsNonEmptyFile(fs));
    TargetsAreNew(localPaths, successful, fs);
    TargetsAreComplete(localPaths, successful, fs);
    FilterIsSubsequence(files, IsNonEmptyFile(fs));
    FilterIsSubsequence(localPaths, IsNotIn(successful));
    MapKeepsSubsequence(newFilePaths, localPaths, ToFile);
    SubsequenceTransitive(r, files, Map(localPaths, ToFile));
    assert forall i :: 0 <= i < |r| ==> r[i] in r;
    r
  }

  lemma TargetsAreNew(localPaths: seq<string>, successful: seq<string>, fs: FileLengths)
    ensures forall f :: f in Filter(Map(Filter(localPaths, IsNotIn(successful)), ToFile), IsNonEmptyFile(fs))
              ==> f.path !in successful
  {
    var newFilePaths := Filter(localPaths, IsNotIn(successful));
    var files := Map(newFilePaths, ToFile);
    forall f | f in Filter(files, IsNonEmptyFile(fs)) ensures f.path !in successful {
      assert f in files;
      var j :| 0 <= j < |files| && files[j] == f;
      assert newFilePaths[j] in newFilePaths;
    }
  }

  lemma TargetsAreComplete(localPaths: seq<string>, successful: seq<string>, fs: FileLengths)
    ensures forall i :: 0 <= i < |localPaths| && localPaths[i] !in successful && ExistsNonEmpty(fs, localPaths[i])
              ==> LocalFile(localPaths[i]) in Filter(Map(Filter(localPaths, IsNotIn(successful)), ToFile), IsNonEmptyFile(fs))
  {
    var newFilePaths := Filter(localPaths, IsNotIn(successful));
    var files := Map(newFilePaths, ToFile);
    forall i | 0 <= i < |localPaths| && localPaths[i] !in successful && ExistsNonEmpty(fs, localPaths[i])
      ensures LocalFile(localPaths[i]) in Filter(files, IsNonEmptyFile(fs))
    {
      assert localPaths[i] in localPaths;
      assert localPaths[i] in newFilePaths;
      var j :| 0 <= j < |newFilePaths| && newFilePaths[j] == localPaths[i];
      assert files[j] == LocalFile(localPaths[i]);
    }
  }
}

=== FILE: remote_path.dfy ===
/**
 * Where a file goes on the server. The remote directory is derived from the
 * first eight-digit run (a `yyyyMMdd` date) in the file name, and a path that
 * cannot be entered is split into the absolute prefixes `/s1`, `/s1/s2`, ...
 * that are entered or created one by one.
 */
module RemotePath {
  import opened Wrappers
  import opened Chars
  import opened Lists

  const DateLength: nat := 8

  /** Eight digits start at `i`. */
  predicate DateAt(s: string, i: int) {
    0 <= i && i + DateLength <= |s| && forall k :: i <= k < i + DateLength ==> IsDigit(s[k])
  }

  /** The leftmost match of `\d{8}` at or after `from`. */
  function FindDateFrom(s: string, from: nat): (r: Option<nat>)
    ensures r.Some? ==> from <= r.value && DateAt(s, r.value)
    ensures r.Some? ==> forall k :: from <= k < r.value ==> !DateAt(s, k)
    ensures r.None? ==> forall k :: from <= k ==> !DateAt(s, k)
    decreases |s| - from
  {
    if from + DateLength > |s| then None
    else if DateAt(s, from) then Some(from)
    else FindDateFrom(s, from + 1)
  }

  /** `Regex("\\d{8}").find(name)`: the position of the leftmost eight-digit run. */
  function FindDate(name: string): (r: Option<nat>)
    ensures r.Some? ==> DateAt(name, r.value) && forall k :: 0 <= k < r.value ==> !DateAt(name, k)
    ensures r.None? ==> forall k :: 0 <= k ==> !DateAt(name, k)
  {
    FindDateFrom(name, 0)
  }

  /**
   * `uploadFolder/yyyy/yyyyMM` from the date in the name, or `uploadFolder`
   * without one: a dated file goes two levels below the folder, into a
   * four-digit year directory and a six-digit month directory that starts
   * with that year.
   */
  function WorkingPath(uploadFolder: string, fileName: string): (p: string)
    ensures FindDate(fileName).None? ==> p == uploadFolder
    ensures FindDate(fileName).Some? ==>
              var n := |uploadFolder|;
              && |p| == n + 12 && p[..n] == uploadFolder
              && p[n] == '/' && AllDigits(p[n + 1..n + 5])
              && p[n + 5] == '/' && AllDigits(p[n + 6..])
              && p[n + 6..n + 10] == p[n + 1..n + 5]
  {
    match FindDate(fileName)
    case None => uploadFolder
    case Some(i) =>
      var date := fileName[i..i + DateLength];
      assert forall k :: 0 <= k < |date| ==> date[k] == fileName[i + k];
      var p := uploadFolder + "/" + date[..4] + "/" + date[..6];
      var n := |uploadFolder|;
      assert p[n + 1..n + 5] == date[..4] && p[n + 6..] == date[..6];
      p
  }

  // ---- splitting on '/' ----

  /** Kotlin's `split("/")`: every piece between separators, empty ones included. */
  function SplitSlash(s: string): (parts: seq<string>)
    ensures |parts| >= 1
    ensures forall i :: 0 <= i < |parts| ==> '/' !in parts[i]
  {
    if s == [] then [""]
    else
      var rest := SplitSlash(s[1..]);
      if s[0] == '/' then [""] + rest
      else [[s[0]] + rest[0]] + rest[1..]
  }

  /** `joinToString("/")`. */
  function JoinSlash(parts: seq<string>): string
    requires |parts| >= 1
  {
    if |parts| == 1 then parts[0] else parts[0] + "/" + JoinSlash(parts[1..])
  }

  /** Splitting loses nothing: joining the pieces gives the path back. */
  lemma {:induction false} JoinSplitRoundTrip(s: string)
    ensures JoinSlash(SplitSlash(s)) == s
  {
    if s != [] {
      JoinSplitRoundTrip(s[1..]);
      var rest := SplitSlash(s[1..]);
      if s[0] == '/' {
        assert JoinSlash([""] + rest) == "" + "/" + JoinSlash(rest);
      } else if |rest| == 1 {
        assert JoinSlash([[s[0]] + rest[0]]) == [s[0]] + rest[0];
      } else {
        assert ([[s[0]] + rest[0]] + rest[1..])[1..] == rest[1..];
        assert JoinSlash(rest) == rest[0] + "/" + JoinSlash(rest[1..]);
      }
    }
  }

  /** A separator between two paths separates their pieces. */
  lemma {:induction false} SplitAppend(a: string, b: string)
    ensures SplitSlash(a + "/" + b) == SplitSlash(a) + SplitSlash(b)
  {
    if a == [] {
      assert a + "/" + b == "/" + b;
      assert ("/" + b)[1..] == b;
    } else {
      assert (a + "/" + b)[1..] == a[1..] + "/" + b;
      SplitAppend(a[1..], b);
    }
  }

  function IsNonEmpty(s: string): bool { s != [] }

  /** The path's non-empty '/'-separated segments. */
  function Segments(path: string): (segs: seq<string>)
    ensures forall i :: 0 <= i < |segs| ==> segs[i] != [] && '/' !in segs[i]
  {
    var segs := Filter(SplitSlash(path), IsNonEmpty);
    assert forall i :: 0 <= i < |segs| ==> segs[i] in segs;
    segs
  }

  lemma SegmentsAppend(a: string, b: string)
    ensures Segments(a + "/" + b) == Segments(a) + Segments(b)
  {
    SplitAppend(a, b);
    FilterAppend(SplitSlash(a), SplitSlash(b), IsNonEmpty);
  }

  /** A piece without '/' that is not empty is its own single segment. */
  lemma SegmentsOfPiece(s: string)
    requires s != [] && '/' !in s
    ensures Segments(s) == [s]
  {
    SplitOfPiece(s);
    assert Filter([s], IsNonEmpty) == [s] + Filter([], IsNonEmpty);
  }

  lemma {:induction false} SplitOfPiece(s: string)
    requires '/' !in s
    ensures SplitSlash(s) == [s]
  {
    if s != [] {
      SplitOfPiece(s[1..]);
      assert [s[0]] + s[1..] == s;
    }
  }

  /** Two separator-free pieces joined by '/' are exactly two segments. */
  lemma TwoPieceSegments(year: string, month: string)
    requires year != [] && '/' !in year
    requires month != [] && '/' !in month
    ensures Segments(year + "/" + month) == [year, month]
  {
    SegmentsAppend(year, month);
    SegmentsOfPiece(year);
    SegmentsOfPiece(month);
    assert [year] + [month] == [year, month];
  }

  /** Two separator-free pieces appended to a folder become its last two segments. */
  lemma AppendTwoSegments(folder: string, year: string, month: string)
    requires year != [] && '/' !in year
    requires month != [] && '/' !in month
    ensures Segments(folder + "/" + year + "/" + month) == Segments(folder) + [year, month]
  {
    var tail := year + "/" + month;
    TwoPieceSegments(year, month);
    SegmentsAppend(folder, tail);
    assert folder + "/" + year + "/" + month == folder + "/" + tail;
  }

  /**
   * With a date in the name, the working path's segments are the folder's
   * followed by the year and the year-month.
   */
  lemma WorkingPathSegments(uploadFolder: string, fileName: string)
    requires FindDate(fileName).Some?
    ensures var i := FindDate(fileName).value;
            var date := fileName[i..i + DateLength];
            Segments(WorkingPath(uploadFolder, fileName)) == Segments(uploadFolder) + [date[..4], date[..6]]
  {
    var i := FindDate(fileName).value;
    var date := fileName[i..i + DateLength];
    assert forall k :: 0 <= k < |date| ==> date[k] == fileName[i + k];
    assert '/' !in date[..4] && '/' !in date[..6] by {
      forall k | 0 <= k < 6 ensures date[k] != '/' { assert DateAt(fileName, i); }
    }
    AppendTwoSegments(uploadFolder, date[..4], date[..6]);
  }

  /** The worked examples: a dated camera file name and an undated one. */
  lemma DatedNameExample()
    ensures WorkingPath("backup", "IMG_20230615_0001.jpg") == "backup/2023/202306"
  {
    var name := "IMG_20230615_0001.jpg";
    CameraNameDate();
    assert name[4..12] == "20230615";
    assert "20230615"[..4] == "2023";
    assert "20230615"[..6] == "202306";
  }

  /** The date in a camera file name starts after the `IMG_` prefix. */
  lemma CameraNameDate()
    ensures FindDate("IMG_20230615_0001.jpg") == Some(4)
  {
    var name := "IMG_20230615_0001.jpg";
    assert !DateAt(name, 0) && !DateAt(name, 1) && !DateAt(name, 2) && !DateAt(name, 3) by {
      assert !IsDigit(name[3]);
    }
    assert DateAt(name, 4);
  }

  /** A name without eight digits in a row stays in the upload folder. */
  lemma UndatedNameExample()
    ensures WorkingPath("backup", "note.txt") == "backup"
  {
    assert !DateAt("note.txt", 0) by { assert !IsDigit("note.txt"[0]); }
  }

  // ---- absolute prefixes ----

  /** `"/" + s1 + "/" + s2 + ... + "/" + sk`, the value of `currentPath` after k segments. */
  function AbsolutePrefix(segs: seq<string>): string {
    if segs == [] then "" else AbsolutePrefix(segs[..|segs| - 1]) + "/" + segs[|segs| - 1]
  }

  /** The directories entered or created, in order: `/s1`, `/s1/s2`, ... */
  function Prefixes(segs: seq<string>): (ps: seq<string>)
    ensures |ps| == |segs|
  {
    if segs == [] then [] else Prefixes(segs[..|segs| - 1]) + [AbsolutePrefix(segs)]
  }

  /** The k-th directory is the absolute path of the first k + 1 segments. */
  lemma {:induction false} PrefixAt(segs: seq<string>, k: nat)
    requires k < |segs|
    ensures Prefixes(segs)[k] == AbsolutePrefix(segs[..k + 1])
  {
    var n := |segs|;
    if k == n - 1 {
      assert segs[..k + 1] == segs;
    } else {
      PrefixAt(segs[..n - 1], k);
      assert segs[..n - 1][..k + 1] == segs[..k + 1];
    }
  }

  /** Appending the next segment to `currentPath` gives the next prefix. */
  lemma PrefixStep(segs: seq<string>, i: nat)
    requires i < |segs|
    ensures AbsolutePrefix(segs[..i]) + "/" + segs[i] == Prefixes(segs)[i]
    ensures AbsolutePrefix(segs[..i]) + "/" + segs[i] == AbsolutePrefix(segs[..i + 1])
  {
    var p := segs[..i + 1];
    assert p[..|p| - 1] == segs[..i] && p[|p| - 1] == segs[i];
    PrefixAt(segs, i);
  }
}

=== FILE: service.dfy ===
/**
 * `BackupService`: one backup run. It resets the progress state, opens a
 * provisional session row, rejects a blank server address, builds the target
 * list, uploads every target and records one history row per file, then
 * rewrites the session with the final counts. `stopBackup` rewrites the
 * session as cancelled by the user.
 *
 * The uploads run one after another in target order; the clock is a sequence
 * of readings (`clock(0)`, `clock(1)`, ...) taken one per `currentTimeMillis`
 * call, and the n-th upload talks to the server `servers(n)`.
 */
module Service {
  import opened Wrappers
  import opened Chars
  import opened Entities
  import opened Settings
  import opened PhotoRepo
  import opened Dao
  import FtpSession
  import FtpUpload

  const NoNewFilesMessage: string := "백업할 새로운 파일이 없습니다."
  const UserStoppedMessage: string := "백업이 사용자에 의해 중지되었습니다."
  const BlankServerIpMessage: string := "FTP 서버 IP가 설정되지 않았습니다. 설정 화면에서 IP를 입력해주세요."

  /** The progress of the current run, as shown to the user. */
  datatype BackupState = BackupState(
    isBackingUp: bool := false,
    completedCount: int := 0,
    totalCount: int := 0,
    successCount: int := 0,
    failureCount: int := 0,
    totalUploadedSize: int := 0,
    errorMessage: Option<string> := None)

  /**
   * `createHistoryEntity`: the row for one finished file. A success records
   * the upload time the client measured; a failure records 0.
   */
  function CreateHistoryEntity(file: PhotoRepo.LocalFile, length: int, result: FtpUpload.UploadResult, now: int, sessionId: int)
    : (e: FileHistoryEntity)
    ensures e.filePath == file.path && e.fileName == file.Name() && e.fileSize == length
    ensures e.uploadTimestamp == now && e.sessionId == sessionId
    ensures e.status == SUCCESS <==> result.Success?
    ensures e.uploadDurationMs == if result.Success? then result.elapsedMs else 0
  {
    match result
    case Success(duration) => FileHistoryEntity(file.path, file.Name(), length, now, duration, SUCCESS, sessionId)
    case Failure(_) => FileHistoryEntity(file.path, file.Name(), length, now, 0, FAILURE, sessionId)
  }

  /** The state update after one finished file of `length` bytes. */
  function Advance(st: BackupState, status: BackupStatus, length: int): (r: BackupState)
    ensures r.completedCount == st.completedCount + 1
    ensures status == SUCCESS ==> r.successCount == st.successCount + 1 && r.failureCount == st.failureCount
    ensures status == FAILURE ==> r.failureCount == st.failureCount + 1 && r.successCount == st.successCount
    ensures r.totalUploadedSize == st.totalUploadedSize + (if status == SUCCESS then length else 0)
    ensures r.(completedCount := 0, successCount := 0, failureCount := 0, totalUploadedSize := 0)
         == st.(completedCount := 0, successCount := 0, failureCount := 0, totalUploadedSize := 0)
  {
    assert status == SUCCESS || status == FAILURE;
    st.(completedCount := st.completedCount + 1,
        successCount := if status == SUCCESS then st.successCount + 1 else st.successCount,
        failureCount := if status == FAILURE then st.failureCount + 1 else st.failureCount,
        totalUploadedSize := if status == SUCCESS then st.totalUploadedSize + length else st.totalUploadedSize)
  }

  /** The state after the per-file updates for `rows`, in order. */
  function AdvanceAll(st: BackupState, rows: seq<FileHistoryEntity>): BackupState {
    if rows == [] then st
    else Advance(AdvanceAll(st, rows[..|rows| - 1]), rows[|rows| - 1].status, rows[|rows| - 1].fileSize)
  }

  /** How many rows record a success. */
  function Successes(rows: seq<FileHistoryEntity>): nat {
    if rows == [] then 0
    else Successes(rows[..|rows| - 1]) + (if rows[|rows| - 1].status == SUCCESS then 1 else 0)
  }

  /** How many rows record a failure. */
  function Failures(rows: seq<FileHistoryEntity>): nat {
    if rows == [] then 0
    else Failures(rows[..|rows| - 1]) + (if rows[|rows| - 1].status == FAILURE then 1 else 0)
  }

  /** The bytes of the files uploaded successfully. */
  function UploadedSize(rows: seq<FileHistoryEntity>): int {
    if rows == [] then 0
    else UploadedSize(rows[..|rows| - 1]) + (if rows[|rows| - 1].status == SUCCESS then rows[|rows| - 1].fileSize else 0)
  }

  /** Every row is a success or a failure, never both. */
  lemma {:induction false} OutcomesPartition(rows: seq<FileHistoryEntity>)
    ensures Successes(rows) + Failures(rows) == |rows|
  {
    if rows != [] {
      OutcomesPartition(rows[..|rows| - 1]);
    }
  }

  /**
   * The per-file updates count what the final tally counts: after them the
   * completed count grew by the number of files and the success, failure and
   * size counters by the successes, failures and uploaded bytes.
   */
  lemma {:induction false} AdvanceAllCounts(st: BackupState, rows: seq<FileHistoryEntity>)
    ensures AdvanceAll(st, rows).completedCount == st.completedCount + |rows|
    ensures AdvanceAll(st, rows).successCount == st.successCount + Successes(rows)
    ensures AdvanceAll(st, rows).failureCount == st.failureCount + Failures(rows)
    ensures AdvanceAll(st, rows).totalUploadedSize == st.totalUploadedSize + UploadedSize(rows)
    ensures AdvanceAll(st, rows).(completedCount := 0, successCount := 0, failureCount := 0, totalUploadedSize := 0)
         == st.(completedCount := 0, successCount := 0, failureCount := 0, totalUploadedSize := 0)
  {
    if rows != [] {
      AdvanceAllCounts(st, rows[..|rows| - 1]);
    }
  }

  /** The history table after inserting `rows` one by one. */
  function UpsertAll(history: seq<FileHistoryEntity>, rows: seq<FileHistoryEntity>): seq<FileHistoryEntity> {
    if rows == [] then history else Upsert(UpsertAll(history, rows[..|rows| - 1]), rows[|rows| - 1])
  }

  /** Some row records `path` for session `sessionId`. */
  predicate Recorded(history: seq<FileHistoryEntity>, sessionId: int, path: string) {
    exists i :: 0 <= i < |history| && history[i].filePath == path && history[i].sessionId == sessionId
  }

  /** Every file of `files` is recorded for session `sessionId`. */
  predicate AllRecorded(history: seq<FileHistoryEntity>, sessionId: int, files: seq<LocalFile>) {
    forall i :: 0 <= i < |files| ==> Recorded(history, sessionId, files[i].path)
  }

  /**
   * Rows stored before a fresh id was appended survive any change that keeps
   * every row whose id is not the fresh one.
   */
  lemma KeptBesideFresh(before: seq<BackupSessionEntity>, grown: seq<BackupSessionEntity>,
                        after: seq<BackupSessionEntity>, id: int)
    requires id !in SessionIds(before)
    requires |grown| == |before| + 1 && grown[..|before|] == before
    requires forall r :: r in grown && r.id != id ==> r in after
    ensures forall r :: r in before ==> r in after
  {
    forall r | r in before ensures r in after {
      assert r.id in SessionIds(before);
      var i :| 0 <= i < |before| && before[i] == r;
      assert grown[i] == r;
    }
  }

  /** An insert records its own path and keeps every other path's record. */
  lemma UpsertRecords(history: seq<FileHistoryEntity>, e: FileHistoryEntity, sessionId: int, path: string)
    ensures Recorded(Upsert(history, e), e.sessionId, e.filePath)
    ensures path != e.filePath && Recorded(history, sessionId, path) ==> Recorded(Upsert(history, e), sessionId, path)
  {
    var r := Upsert(history, e);
    var k :| 0 <= k < |r| && r[k] == e;
    if path != e.filePath && Recorded(history, sessionId, path) {
      var i :| 0 <= i < |history| && history[i].filePath == path && history[i].sessionId == sessionId;
      var j :| 0 <= j < |r| && r[j] == history[i];
    }
  }

  /** The aggregation after all uploads: the successes, the failures and the uploaded bytes. */
  method Tally(rows: seq<FileHistoryEntity>) returns (successCount: int, failureCount: int, totalUploadedSize: int)
    ensures successCount == Successes(rows) && failureCount == Failures(rows)
    ensures successCount + failureCount == |rows|
    ensures totalUploadedSize == UploadedSize(rows)
  {
    successCount, failureCount, totalUploadedSize := 0, 0, 0;
    for i := 0 to |rows|
      invariant successCount == Successes(rows[..i]) && failureCount == Failures(rows[..i])
      invariant totalUploadedSize == UploadedSize(rows[..i])
    {
      assert rows[..i + 1][..i] == rows[..i];
      if rows[i].status == SUCCESS {
        successCount := successCount + 1;
        totalUploadedSize := totalUploadedSize + rows[i].fileSize;
      } else {
        failureCount := failureCount + 1;
      }
    }
    assert rows[..|rows|] == rows;
    OutcomesPartition(rows);
  }

  /** The session row of a run, as the service writes it. */
  function SessionRow(id: int, start: int, result: BackupResult, successCount: int, failureCount: int, end: int)
    : (s: BackupSessionEntity)
    ensures !s.IsNew() <==> id != 0
    ensures s.totalDurationMs == end - start
  {
    BackupSessionEntity(id, start, result, successCount, failureCount, end - start)
  }

  /** `e` is the row of `file`, of `length` bytes, finished at `now` in session `sessionId`. */
  predicate RowFor(e: FileHistoryEntity, file: LocalFile, length: int, now: int, sessionId: int) {
    e.filePath == file.path && e.fileSize == length && e.uploadTimestamp == now && e.sessionId == sessionId
  }

  class BackupService {
    const db: Database
    const clock: nat -> int
    var ticks: nat
    var state: BackupState
    var currentSessionId: int

    /** The database is consistent and the current session is stored. */
    ghost predicate Valid()
      reads this, db
    {
      db.Valid() && (currentSessionId != 0 ==> currentSessionId in SessionIds(db.sessions))
    }

    constructor (db: Database, clock: nat -> int)
      requires db.Valid()
      ensures Valid()
      ensures this.db == db && this.clock == clock && ticks == 0
      ensures state == BackupState() && currentSessionId == 0
    {
      this.db := db;
      this.clock := clock;
      ticks := 0;
      state := BackupState();
      currentSessionId := 0;
    }

    /** `System.currentTimeMillis()`: the next clock reading. */
    method Now() returns (t: int)
      modifies this`ticks
      ensures t == clock(old(ticks)) && ticks == old(ticks) + 1
    {
      t := clock(ticks);
      ticks := ticks + 1;
    }

    /** A run starts: backing up, every counter zero, no message. */
    method Reset()
      requires Valid()
      modifies this`state
      ensures Valid()
      ensures state == BackupState(isBackingUp := true)
    {
      state := state.(isBackingUp := true, completedCount := 0, totalCount := 0, successCount := 0,
                      failureCount := 0, totalUploadedSize := 0, errorMessage := None);
    }

    /** The provisional session: COMPLETED with no files and no duration, stored under a new id. */
    method OpenSession() returns (sessionStartTime: int)
      requires Valid()
      modifies this`ticks, this`currentSessionId, db`sessions, db`lastSessionId
      ensures Valid()
      ensures sessionStartTime == clock(old(ticks)) && ticks == old(ticks) + 1
      ensures currentSessionId > 0 && currentSessionId !in old(SessionIds(db.sessions))
      ensures db.sessions == old(db.sessions) + [SessionRow(currentSessionId, sessionStartTime, COMPLETED, 0, 0, sessionStartTime)]
    {
      sessionStartTime := Now();
      var provisional := BackupSessionEntity(backupTimestamp := sessionStartTime, backupResult := COMPLETED,
                                             successCount := 0, failureCount := 0, totalDurationMs := 0);
      currentSessionId := db.InsertSession(provisional);
    }

    /** The `catch` block: stop with the message and mark the session ERROR_STOPPED with the live counts. */
    method Abort(message: string, startTime: int)
      requires Valid()
      modifies this`state, this`ticks, db`sessions, db`lastSessionId
      ensures Valid()
      ensures state == old(state).(isBackingUp := false, errorMessage := Some(message))
      ensures currentSessionId > 0 ==>
                && ticks == old(ticks) + 1
                && db.sessions == PutSession(old(db.sessions), SessionRow(currentSessionId, startTime, ERROR_STOPPED,
                                             state.successCount, state.failureCount, clock(old(ticks))))
      ensures currentSessionId <= 0 ==> ticks == old(ticks) && db.sessions == old(db.sessions)
    {
      state := state.(isBackingUp := false, errorMessage := Some(message));
      if currentSessionId > 0 {
        var endTime := Now();
        var id := db.InsertSession(SessionRow(currentSessionId, startTime, ERROR_STOPPED,
                                              state.successCount, state.failureCount, endTime));
      }
    }

    /**
     * One target: upload it, build its history row at the next clock reading,
     * insert the row, and count the file.
     */
    method UploadOne(file: LocalFile, settings: FtpSettings, server: FtpSession.Server, fs: FileLengths)
      returns (result: FtpUpload.UploadResult, e: FileHistoryEntity)
      requires Valid() && currentSessionId != 0
      modifies this`state, this`ticks, db`history
      ensures Valid()
      ensures !FtpSession.ValidPort(settings.port) ==> result == FtpUpload.Failure(FtpUpload.InvalidPort)
      ensures e == CreateHistoryEntity(file, Length(fs, file.path), result, clock(old(ticks)), currentSessionId)
      ensures ticks == old(ticks) + 1
      ensures db.history == Upsert(old(db.history), e)
      ensures state == Advance(old(state), e.status, Length(fs, file.path))
    {
      var trace, calls;
      ghost var session;
      result, trace, calls, session := FtpUpload.UploadFile(file, settings, server);
      var now := Now();
      e := CreateHistoryEntity(file, Length(fs, file.path), result, now, currentSessionId);
      var stored := db.InsertFileHistory(e);
      assert stored;
      state := Advance(state, e.status, Length(fs, file.path));
    }

    /**
     * After the uploads of `rows`, started at clock tick `t0` from state `st0`
     * and history `h0` in session `sid`: one row per target so far, in target
     * order, each counted in the state and stored in the history.
     */
    ghost predicate Uploaded(targets: seq<LocalFile>, fs: FileLengths, rows: seq<FileHistoryEntity>,
                             t0: nat, st0: BackupState, h0: seq<FileHistoryEntity>, sid: int)
      reads this, db
    {
      && |rows| <= |targets| && ticks == t0 + |rows| && currentSessionId == sid
      && (forall i :: 0 <= i < |rows| ==> RowFor(rows[i], targets[i], Length(fs, targets[i].path), clock(t0 + i), sid))
      && state == AdvanceAll(st0, rows)
      && db.history == UpsertAll(h0, rows)
      && (forall i :: 0 <= i < |rows| ==> Recorded(db.history, sid, targets[i].path))
    }

    /** The upload of the next target, `targets[|done|]`. */
    method UploadNext(targets: seq<LocalFile>, settings: FtpSettings, servers: nat -> FtpSession.Server, fs: FileLengths,
                      done: seq<FileHistoryEntity>, ghost t0: nat, ghost st0: BackupState, ghost h0: seq<FileHistoryEntity>,
                      ghost sid: int)
      returns (rows: seq<FileHistoryEntity>)
      requires Valid() && sid != 0 && |done| < |targets| && Uploaded(targets, fs, done, t0, st0, h0, sid)
      modifies this`state, this`ticks, db`history
      ensures Valid() && Uploaded(targets, fs, rows, t0, st0, h0, sid) && |rows| == |done| + 1
    {
      var n := |done|;
      ghost var before := db.history;
      var result, e := UploadOne(targets[n], settings, servers(n), fs);
      assert RowFor(e, targets[n], Length(fs, targets[n].path), clock(t0 + n), sid);
      forall i | 0 <= i < n ensures Recorded(db.history, sid, targets[i].path) {
        UpsertRecords(before, e, sid, targets[i].path);
      }
      UpsertRecords(before, e, sid, targets[n].path);
      rows := done + [e];
      forall i | 0 <= i < n + 1
        ensures RowFor(rows[i], targets[i], Length(fs, targets[i].path), clock(t0 + i), sid)
      {
        if i < n { assert rows[i] == done[i]; }
      }
      assert rows[..n] == done;
    }

    /** The uploads of all targets, one after another in target order. */
    method UploadAll(targets: seq<LocalFile>, settings: FtpSettings, servers: nat -> FtpSession.Server, fs: FileLengths)
      returns (rows: seq<FileHistoryEntity>)
      requires Valid() && currentSessionId != 0
      modifies this`state, this`ticks, db`history
      ensures Valid()
      ensures |rows| == |targets| && ticks == old(ticks) + |targets|
      ensures forall i :: 0 <= i < |targets| ==>
                RowFor(rows[i], targets[i], Length(fs, targets[i].path), clock(old(ticks) + i), currentSessionId)
      ensures state == AdvanceAll(old(state), rows)
      ensures db.history == UpsertAll(old(db.history), rows)
      ensures AllRecorded(db.history, currentSessionId, targets)
    {
      rows := [];
      ghost var t0, st0, h0, sid := ticks, state, db.history, currentSessionId;
      while |rows| < |targets|
        invariant Valid() && Uploaded(targets, fs, rows, t0, st0, h0, sid)
        decreases |targets| - |rows|
      {
        rows := UploadNext(targets, settings, servers, fs, rows, t0, st0, h0, sid);
      }
    }

    /**
     * Normal completion: tally the rows, rewrite the session as COMPLETED with
     * the counts and the run's duration (only for a positive id), and stop.
     */
    method CompleteBackup(rows: seq<FileHistoryEntity>, startTime: int)
      requires Valid()
      modifies this`state, this`ticks, db`sessions, db`lastSessionId
      ensures Valid()
      ensures state == old(state).(isBackingUp := false, successCount := Successes(rows), failureCount := Failures(rows),
                                   totalUploadedSize := UploadedSize(rows))
      ensures ticks == old(ticks) + 1
      ensures currentSessionId > 0 ==>
                && db.sessions == PutSession(old(db.sessions), SessionRow(currentSessionId, startTime, COMPLETED,
                                             Successes(rows), Failures(rows), clock(old(ticks))))
                && db.GetSessionById(currentSessionId)
                   == Some(SessionRow(currentSessionId, startTime, COMPLETED, Successes(rows), Failures(rows), clock(old(ticks))))
      ensures currentSessionId <= 0 ==> db.sessions == old(db.sessions)
    {
      var successCount, failureCount, totalUploadedSize := Tally(rows);
      var endTime := Now();
      if currentSessionId > 0 {
        var stored := SessionRow(currentSessionId, startTime, COMPLETED, successCount, failureCount, endTime);
        var id := db.InsertSession(stored);
        FindStored(db.sessions, stored);
      }
      state := state.(isBackingUp := false, successCount := successCount, failureCount := failureCount,
                      totalUploadedSize := totalUploadedSize);
    }

    /**
     * How a run's `try` block leaves the service. The block started at clock
     * tick `t` with history `h0` and session table `sessions0`, found the
     * current session as `session0`, and read `startTime` as the run's start.
     * A blank server address aborts the run: ERROR_STOPPED, no files, one more
     * clock reading. An empty target list stops it with a message and leaves
     * the sessions as they were. Otherwise every target is uploaded and
     * recorded, the counters are the outcome counts, and the session is
     * COMPLETED with them. Only the current session's row is ever rewritten.
     */
    ghost predicate Finished(settings: FtpSettings, targets: seq<LocalFile>, rows: seq<FileHistoryEntity>,
                             startTime: int, t: nat, h0: seq<FileHistoryEntity>, sessions0: seq<BackupSessionEntity>,
                             session0: Option<BackupSessionEntity>)
      reads this, db
    {
      && !state.isBackingUp
      && state.completedCount == state.successCount + state.failureCount
      && DistinctIds(sessions0)
      && (IsBlank(settings.serverIp) ==>
            && state == BackupState(errorMessage := Some(BlankServerIpMessage))
            && db.history == h0 && rows == [] && ticks == t + 1
            && db.sessions == PutSession(sessions0, SessionRow(currentSessionId, startTime, ERROR_STOPPED, 0, 0, clock(t)))
            && db.GetSessionById(currentSessionId) == Some(SessionRow(currentSessionId, startTime, ERROR_STOPPED, 0, 0, clock(t))))
      && (!IsBlank(settings.serverIp) && targets == [] ==>
            && state == BackupState(errorMessage := Some(NoNewFilesMessage))
            && db.history == h0 && rows == [] && ticks == t
            && db.sessions == sessions0
            && db.GetSessionById(currentSessionId) == session0)
      && (!IsBlank(settings.serverIp) && targets != [] ==>
            && |rows| == |targets| && ticks == t + |targets| + 1
            && state.completedCount == |targets| && state.totalCount == |targets|
            && state.successCount == Successes(rows) && state.failureCount == Failures(rows)
            && state.totalUploadedSize == UploadedSize(rows) && state.errorMessage == None
            && Successes(rows) + Failures(rows) == |targets|
            && db.history == UpsertAll(h0, rows)
            && AllRecorded(db.history, currentSessionId, targets)
            && db.sessions == PutSession(sessions0, SessionRow(currentSessionId, startTime, COMPLETED,
                                                               Successes(rows), Failures(rows), clock(t + |targets|)))
            && db.GetSessionById(currentSessionId)
               == Some(SessionRow(currentSessionId, startTime, COMPLETED, Successes(rows), Failures(rows), clock(t + |targets|))))
    }

    /**
     * `startBackup`'s run body. It reads the clock for the provisional
     * session, then for the run start, once per finished file, and once at
     * the end.
     */
    method StartBackup(settings: FtpSettings, localPaths: seq<string>, fs: FileLengths, servers: nat -> FtpSession.Server)
      returns (ghost targets: seq<LocalFile>, ghost rows: seq<FileHistoryEntity>)
      requires Valid()
      modifies this`state, this`ticks, this`currentSessionId, db`sessions, db`lastSessionId, db`history
      ensures Valid()
      ensures targets == CreateBackupTargetList(localPaths, SuccessfulPaths(old(db.history)), fs)
      ensures currentSessionId > 0 && currentSessionId !in old(SessionIds(db.sessions))
      ensures Finished(settings, targets, rows, clock(old(ticks) + 1), old(ticks) + 2, old(db.history),
                       old(db.sessions) + [SessionRow(currentSessionId, clock(old(ticks)), COMPLETED, 0, 0, clock(old(ticks)))],
                       Some(SessionRow(currentSessionId, clock(old(ticks)), COMPLETED, 0, 0, clock(old(ticks)))))
      ensures forall s :: s in old(db.sessions) ==> s in db.sessions
    {
      var sessionStartTime, startTime := Begin();
      ghost var t0, h0, sessions0, session0 := ticks, db.history, db.sessions, db.GetSessionById(currentSessionId);
      targets, rows := Run(settings, localPaths, fs, servers, startTime);
      assert Finished(settings, targets, rows, startTime, t0, h0, sessions0, session0);
      assert startTime == clock(old(ticks) + 1) && t0 == old(ticks) + 2 && h0 == old(db.history);
      assert sessions0 == old(db.sessions) + [SessionRow(currentSessionId, clock(old(ticks)), COMPLETED, 0, 0, clock(old(ticks)))];
      assert session0 == Some(SessionRow(currentSessionId, clock(old(ticks)), COMPLETED, 0, 0, clock(old(ticks))));
      FinishedKeepsOtherSessions(settings, targets, rows, startTime, t0, h0, sessions0, session0);
      KeptBesideFresh(old(db.sessions), sessions0, db.sessions, currentSessionId);
    }

    /**
     * The start of a run: reset the progress state, store the provisional
     * session, and read the run's start time.
     */
    method Begin() returns (sessionStartTime: int, startTime: int)
      requires Valid()
      modifies this`state, this`ticks, this`currentSessionId, db`sessions, db`lastSessionId
      ensures Valid() && state == BackupState(isBackingUp := true)
      ensures sessionStartTime == clock(old(ticks)) && startTime == clock(old(ticks) + 1) && ticks == old(ticks) + 2
      ensures currentSessionId > 0 && currentSessionId !in old(SessionIds(db.sessions))
      ensures db.sessions == old(db.sessions) + [SessionRow(currentSessionId, sessionStartTime, COMPLETED, 0, 0, sessionStartTime)]
      ensures db.GetSessionById(currentSessionId)
              == Some(SessionRow(currentSessionId, sessionStartTime, COMPLETED, 0, 0, sessionStartTime))
    {
      Reset();
      sessionStartTime := OpenSession();
      startTime := Now();
      FindStored(db.sessions, SessionRow(currentSessionId, sessionStartTime, COMPLETED, 0, 0, sessionStartTime));
    }

    /**
     * The `try` block of a run whose state was reset and whose provisional
     * session is stored.
     */
    method Run(settings: FtpSettings, localPaths: seq<string>, fs: FileLengths, servers: nat -> FtpSession.Server,
               startTime: int)
      returns (ghost targets: seq<LocalFile>, ghost rows: seq<FileHistoryEntity>)
      requires Valid() && currentSessionId > 0 && state == BackupState(isBackingUp := true)
      modifies this`state, this`ticks, db`sessions, db`lastSessionId, db`history
      ensures Valid()
      ensures targets == CreateBackupTargetList(localPaths, SuccessfulPaths(old(db.history)), fs)
      ensures Finished(settings, targets, rows, startTime, old(ticks), old(db.history), old(db.sessions),
                       old(db.GetSessionById(currentSessionId)))
    {
      // a ghost copy of the list, only so that the postcondition can name it
      targets := CreateBackupTargetList(localPaths, db.GetAllSuccessfulBackupPaths(), fs);
      if IsBlank(settings.serverIp) {
        AbortBlank(settings, targets, startTime);
        rows := [];
        return;
      }
      var files := CreateBackupTargetList(localPaths, db.GetAllSuccessfulBackupPaths(), fs);
      if files == [] {
        StopEmpty(settings, targets, startTime);
        rows := [];
        return;
      }
      rows := BackupFiles(files, settings, servers, fs, startTime);
    }

    /** A blank server address: the `catch` block with its message, before any file. */
    method AbortBlank(settings: FtpSettings, ghost targets: seq<LocalFile>, startTime: int)
      requires Valid() && currentSessionId > 0 && state == BackupState(isBackingUp := true)
      requires IsBlank(settings.serverIp)
      modifies this`state, this`ticks, db`sessions, db`lastSessionId
      ensures Valid() && db.history == old(db.history)
      ensures Finished(settings, targets, [], startTime, old(ticks), old(db.history), old(db.sessions),
                       old(db.GetSessionById(currentSessionId)))
    {
      Abort(BlankServerIpMessage, startTime);
      FindStored(db.sessions, SessionRow(currentSessionId, startTime, ERROR_STOPPED, 0, 0, clock(old(ticks))));
    }

    /** No new files: stop with a message and leave the session as stored. */
    method StopEmpty(settings: FtpSettings, ghost targets: seq<LocalFile>, startTime: int)
      requires Valid() && state == BackupState(isBackingUp := true)
      requires !IsBlank(settings.serverIp) && targets == []
      modifies this`state
      ensures Valid()
      ensures Finished(settings, targets, [], startTime, old(ticks), old(db.history), old(db.sessions),
                       old(db.GetSessionById(currentSessionId)))
    {
      state := state.(isBackingUp := false, errorMessage := Some(NoNewFilesMessage));
    }

    /**
     * The part of the run after a non-empty target list: set the total,
     * upload every file, and complete the session.
     */
    method BackupFiles(files: seq<LocalFile>, settings: FtpSettings, servers: nat -> FtpSession.Server, fs: FileLengths,
                       startTime: int)
      returns (rows: seq<FileHistoryEntity>)
      requires Valid() && currentSessionId > 0 && state == BackupState(isBackingUp := true)
      requires !IsBlank(settings.serverIp) && files != []
      modifies this`state, this`ticks, db`sessions, db`lastSessionId, db`history
      ensures Valid()
      ensures Finished(settings, files, rows, startTime, old(ticks), old(db.history), old(db.sessions),
                       old(db.GetSessionById(currentSessionId)))
    {
      rows := UploadTargets(files, settings, servers, fs);
      ghost var t0, h0, sessions0, session0 := old(ticks), old(db.history), db.sessions, old(db.GetSessionById(currentSessionId));
      Complete(files, rows, startTime, t0);
      CompletedIsFinished(settings, files, rows, startTime, t0, h0, sessions0, session0);
    }

    /**
     * `CompleteBackup` after every target of the run was uploaded: the run
     * stops, and the current session, and no other, becomes COMPLETED with
     * the outcome counts and the end time read at tick `t + |files|`.
     */
    method Complete(ghost files: seq<LocalFile>, rows: seq<FileHistoryEntity>, startTime: int, ghost t: nat)
      requires Valid() && currentSessionId > 0
      requires |rows| == |files| && ticks == t + |files|
      requires state.completedCount == |files| && state.totalCount == |files| && state.errorMessage == None
      requires Successes(rows) + Failures(rows) == |files|
      modifies this`state, this`ticks, db`sessions, db`lastSessionId
      ensures Valid() && ticks == t + |files| + 1
      ensures !state.isBackingUp && state.completedCount == |files| && state.totalCount == |files|
      ensures state.successCount == Successes(rows) && state.failureCount == Failures(rows)
      ensures state.totalUploadedSize == UploadedSize(rows) && state.errorMessage == None
      ensures db.sessions == PutSession(old(db.sessions), SessionRow(currentSessionId, startTime, COMPLETED,
                                                                     Successes(rows), Failures(rows), clock(t + |files|)))
      ensures db.GetSessionById(currentSessionId)
              == Some(SessionRow(currentSessionId, startTime, COMPLETED, Successes(rows), Failures(rows), clock(t + |files|)))
    {
      CompleteBackup(rows, startTime);
      assert old(ticks) == t + |files|;
    }

    /** A finished run rewrote at most the current session's row: every other row is still stored. */
    lemma FinishedKeepsOtherSessions(settings: FtpSettings, targets: seq<LocalFile>, rows: seq<FileHistoryEntity>,
                                     startTime: int, t: nat, h0: seq<FileHistoryEntity>, sessions0: seq<BackupSessionEntity>,
                                     session0: Option<BackupSessionEntity>)
      requires Finished(settings, targets, rows, startTime, t, h0, sessions0, session0)
      ensures forall r :: r in sessions0 && r.id != currentSessionId ==> r in db.sessions
    {
      forall r | r in sessions0 && r.id != currentSessionId ensures r in db.sessions {
        var i :| 0 <= i < |sessions0| && sessions0[i] == r;
      }
    }

    /** The state after a completed run, field by field, is how `Finished` describes it. */
    lemma CompletedIsFinished(settings: FtpSettings, files: seq<LocalFile>, rows: seq<FileHistoryEntity>, startTime: int,
                              t: nat, h0: seq<FileHistoryEntity>, sessions0: seq<BackupSessionEntity>,
                              session0: Option<BackupSessionEntity>)
      requires !IsBlank(settings.serverIp) && files != []
      requires |rows| == |files| && ticks == t + |files| + 1
      requires !state.isBackingUp && state.completedCount == |files| && state.totalCount == |files|
      requires state.successCount == Successes(rows) && state.failureCount == Failures(rows)
      requires state.totalUploadedSize == UploadedSize(rows) && state.errorMessage == None
      requires Successes(rows) + Failures(rows) == |files|
      requires db.history == UpsertAll(h0, rows) && AllRecorded(db.history, currentSessionId, files)
      requires DistinctIds(sessions0)
      requires db.sessions == PutSession(sessions0, SessionRow(currentSessionId, startTime, COMPLETED,
                                                               Successes(rows), Failures(rows), clock(t + |files|)))
      requires db.GetSessionById(currentSessionId)
               == Some(SessionRow(currentSessionId, startTime, COMPLETED, Successes(rows), Failures(rows), clock(t + |files|)))
      ensures Finished(settings, files, rows, startTime, t, h0, sessions0, session0)
    {
    }

    /** Set the total and upload every target; the counters are then the outcome counts. */
    method UploadTargets(files: seq<LocalFile>, settings: FtpSettings, servers: nat -> FtpSession.Server, fs: FileLengths)
      returns (rows: seq<FileHistoryEntity>)
      requires Valid() && currentSessionId > 0 && state == BackupState(isBackingUp := true)
      modifies this`state, this`ticks, db`history
      ensures Valid()
      ensures |rows| == |files| && ticks == old(ticks) + |files|
      ensures state.isBackingUp && state.completedCount == |files| && state.totalCount == |files|
      ensures state.successCount == Successes(rows) && state.failureCount == Failures(rows)
      ensures state.totalUploadedSize == UploadedSize(rows) && state.errorMessage == None
      ensures Successes(rows) + Failures(rows) == |files|
      ensures db.history == UpsertAll(old(db.history), rows)
      ensures AllRecorded(db.history, currentSessionId, files)
    {
      state := state.(totalCount := |files|);
      ghost var started := state;
      rows := UploadAll(files, settings, servers, fs);
      AdvanceAllCounts(started, rows);
      OutcomesPartition(rows);
    }

    /**
     * `stopBackup`: stop with the user-stopped message; when a session is
     * current and stored, rewrite it as USER_CANCELLED with the live counts,
     * keeping its start time, and a duration up to the clock reading now.
     */
    method StopBackup()
      requires Valid()
      modifies this`state, this`ticks, db`sessions, db`lastSessionId
      ensures Valid()
      ensures state == old(state).(isBackingUp := false, errorMessage := Some(UserStoppedMessage))
      ensures db.history == old(db.history)
      ensures currentSessionId > 0 ==>
                && ticks == old(ticks) + 1
                && var stored := old(db.GetSessionById(currentSessionId)).value;
                   db.sessions == PutSession(old(db.sessions), SessionRow(currentSessionId, stored.backupTimestamp, USER_CANCELLED,
                                             state.successCount, state.failureCount, clock(old(ticks))))
      ensures currentSessionId > 0 ==> SessionIds(db.sessions) == old(SessionIds(db.sessions)) && |db.sessions| == old(|db.sessions|)
      ensures currentSessionId <= 0 ==> ticks == old(ticks) && db.sessions == old(db.sessions)
    {
      state := state.(isBackingUp := false, errorMessage := Some(UserStoppedMessage));
      if currentSessionId > 0 {
        var endTime := Now();
        var session := db.GetSessionById(currentSessionId);
        if session.Some? {
          var id := db.InsertSession(SessionRow(currentSessionId, session.value.backupTimestamp, USER_CANCELLED,
                                                state.successCount, state.failureCount, endTime));
        }
      }
    }
  }
}

=== FILE: settings.dfy ===
/**
 * FTP connection settings and the repository that keeps them in a
 * key-value preference store.
 */
module Settings {

  /** Kotlin's `Int`. */
  type Int32 = x: int | -0x8000_0000 <= x < 0x8000_0000

  /** Connection parameters; every field has a default. */
  datatype FtpSettings = FtpSettings(
    serverIp: string := "",
    port: Int32 := 21,
    uploadFolder: string := "backup",
    userName: string := "",
    password: string := "")

  /** The preference keys: four string keys and one integer key. */
  const FtpServerIpKey: string := "ftp_server_ip"
  const FtpPortKey: string := "ftp_port"
  const UploadFolderKey: string := "upload_folder"
  const UserNameKey: string := "user_name"
  const PasswordKey: string := "password"

  /**
   * A snapshot of the preference store, with string-valued and
   * integer-valued entries in two maps. The store itself keeps one map keyed
   * by name; splitting it by value type is a modelling choice, and a harmless
   * one, since the five key names above are all different.
   */
  datatype Preferences = Preferences(strings: map<string, string>, ints: map<string, Int32>)

  function StringOr(p: Preferences, key: string, default: string): string {
    if key in p.strings then p.strings[key] else default
  }

  function IntOr(p: Preferences, key: string, default: Int32): Int32 {
    if key in p.ints then p.ints[key] else default
  }

  /** The settings read from a snapshot: each missing key gives the field's default. */
  function ReadSettings(p: Preferences): (s: FtpSettings)
    ensures FtpServerIpKey !in p.strings ==> s.serverIp == FtpSettings().serverIp
    ensures FtpPortKey !in p.ints ==> s.port == FtpSettings().port
    ensures UploadFolderKey !in p.strings ==> s.uploadFolder == FtpSettings().uploadFolder
    ensures UserNameKey !in p.strings ==> s.userName == FtpSettings().userName
    ensures PasswordKey !in p.strings ==> s.password == FtpSettings().password
    ensures FtpServerIpKey in p.strings ==> s.serverIp == p.strings[FtpServerIpKey]
    ensures FtpPortKey in p.ints ==> s.port == p.ints[FtpPortKey]
    ensures UploadFolderKey in p.strings ==> s.uploadFolder == p.strings[UploadFolderKey]
    ensures UserNameKey in p.strings ==> s.userName == p.strings[UserNameKey]
    ensures PasswordKey in p.strings ==> s.password == p.strings[PasswordKey]
  {
    FtpSettings(
      serverIp := StringOr(p, FtpServerIpKey, ""),
      port := IntOr(p, FtpPortKey, 21),
      uploadFolder := StringOr(p, UploadFolderKey, "backup"),
      userName := StringOr(p, UserNameKey, ""),
      password := StringOr(p, PasswordKey, ""))
  }

  /** The snapshot after the five keys are written from `s`. */
  function WriteSettings(p: Preferences, s: FtpSettings): (q: Preferences)
    ensures ReadSettings(q) == s
    ensures forall k :: k in p.strings && k !in {FtpServerIpKey, UploadFolderKey, UserNameKey, PasswordKey}
              ==> k in q.strings && q.strings[k] == p.strings[k]
    ensures forall k :: k in p.ints && k != FtpPortKey ==> k in q.ints && q.ints[k] == p.ints[k]
    ensures q.strings.Keys == p.strings.Keys + {FtpServerIpKey, UploadFolderKey, UserNameKey, PasswordKey}
    ensures q.ints.Keys == p.ints.Keys + {FtpPortKey}
  {
    Preferences(
      p.strings[FtpServerIpKey := s.serverIp][UploadFolderKey := s.uploadFolder]
               [UserNameKey := s.userName][PasswordKey := s.password],
      p.ints[FtpPortKey := s.port])
  }

  /** An empty store reads as the default settings. */
  lemma EmptyStoreReadsDefaults()
    ensures ReadSettings(Preferences(map[], map[])) == FtpSettings()
    ensures FtpSettings().port == 21 && FtpSettings().uploadFolder == "backup"
    ensures FtpSettings().serverIp == "" && FtpSettings().userName == "" && FtpSettings().password == ""
  {
  }

  /** The repository over the preference store. */
  class SettingsRepository {
    var prefs: Preferences

    constructor (initial: Preferences)
      ensures prefs == initial
    {
      prefs := initial;
    }

    /** The current value of the settings flow. */
    function FtpSettingsFlow(): (s: FtpSettings)
      reads this
      ensures s == ReadSettings(prefs)
      ensures prefs.strings == map[] && prefs.ints == map[] ==> s == FtpSettings()
      ensures FtpServerIpKey !in prefs.strings ==> s.serverIp == ""
      ensures FtpPortKey in prefs.ints ==> s.port == prefs.ints[FtpPortKey]
    {
      ReadSettings(prefs)
    }

    /** Writes the five keys in one edit; every other preference is kept. */
    method SaveSettings(settings: FtpSettings)
      modifies this
      ensures prefs == WriteSettings(old(prefs), settings)
      ensures FtpSettingsFlow() == settings
    {
      prefs := WriteSettings(prefs, settings);
    }
  }
}

=== FILE: settings_ui.dfy ===
/**
 * The settings screen's view model: it exposes the stored settings (the
 * defaults until the first stored value arrives) and saves the form, parsing
 * the port text with Kotlin's `String.toIntOrNull()` and falling back to 21.
 */
module SettingsUi {
  import opened Wrappers
  import opened Settings
  import opened Chars

  const DefaultPort: Int32 := 21

  /** The value of a string of decimal digits, most significant first. */
  function DigitsValue(s: string): (v: nat)
    requires AllDigits(s)
  {
    if s == [] then 0
    else DigitsValue(s[..|s| - 1]) * 10 + (s[|s| - 1] as int - '0' as int)
  }

  predicate InInt32(v: int) {
    -0x8000_0000 <= v < 0x8000_0000
  }

  /**
   * `toIntOrNull()` in radix 10: an optional '+' or '-' followed by at least
   * one digit, whose value fits in a 32-bit `Int`; anything else is null.
   */
  function ToIntOrNull(s: string): (r: Option<Int32>)
    ensures r.Some? ==> |s| > 0
    ensures r.Some? && AllDigits(s) ==> r.value == DigitsValue(s)
    ensures r.Some? && s[0] == '-' ==> AllDigits(s[1..]) && r.value == -(DigitsValue(s[1..]) as int)
    ensures r.Some? && s[0] == '+' ==> AllDigits(s[1..]) && r.value == DigitsValue(s[1..])
    ensures |s| > 1 && (s[0] == '-' || s[0] == '+') && AllDigits(s[1..]) ==>
              (r.Some? <==> InInt32(if s[0] == '-' then -(DigitsValue(s[1..]) as int) else DigitsValue(s[1..])))
    ensures |s| > 0 && AllDigits(s) ==> (r.Some? <==> InInt32(DigitsValue(s)))
    ensures r.Some? ==> AllDigits(s) || (|s| > 1 && (s[0] == '-' || s[0] == '+') && AllDigits(s[1..]))
  {
    if |s| == 0 then None
    else if s[0] == '-' || s[0] == '+' then
      if |s| == 1 || !AllDigits(s[1..]) then None
      else
        var v := if s[0] == '-' then -(DigitsValue(s[1..]) as int) else DigitsValue(s[1..]);
        if InInt32(v) then Some(v) else None
    else if AllDigits(s) then
      var v := DigitsValue(s);
      if InInt32(v) then Some(v) else None
    else None
  }

  /** The port that `saveSettings` stores for the text typed in the form. */
  function ParsePort(portText: string): (port: Int32)
    ensures ToIntOrNull(portText).Some? ==> port == ToIntOrNull(portText).value
    ensures ToIntOrNull(portText).None? ==> port == 21
  {
    ToIntOrNull(portText).GetOr(DefaultPort)
  }

  /** The settings record `saveSettings` builds and hands to the repository. */
  function FormSettings(ip: string, portText: string, folder: string, userName: string, password: string): (s: FtpSettings)
    ensures s.serverIp == ip && s.uploadFolder == folder && s.userName == userName && s.password == password
    ensures ToIntOrNull(portText).Some? ==> s.port == ToIntOrNull(portText).value
    ensures ToIntOrNull(portText).None? ==> s.port == 21
  {
    FtpSettings(serverIp := ip, port := ParsePort(portText), uploadFolder := folder,
                userName := userName, password := password)
  }

  /** The exposed settings: the defaults before any stored value has arrived. */
  function ExposedSettings(latest: Option<FtpSettings>): (s: FtpSettings)
    ensures latest.None? ==> s == FtpSettings()
    ensures latest.Some? ==> s == latest.value
  {
    latest.GetOr(FtpSettings())
  }

  /** `saveSettings`: one repository write with the parsed port. */
  method SaveSettings(repo: SettingsRepository, ip: string, portText: string, folder: string,
                      userName: string, password: string)
    modifies repo
    ensures repo.prefs == WriteSettings(old(repo.prefs), FormSettings(ip, portText, folder, userName, password))
    ensures repo.FtpSettingsFlow() == FormSettings(ip, portText, folder, userName, password)
  {
    repo.SaveSettings(FormSettings(ip, portText, folder, userName, password));
  }

  // ---- Decimal rendering, the inverse of the parse ----

  function DigitChar(d: nat): (c: char)
    requires d < 10
    ensures IsDigit(c) && c as int - '0' as int == d
  {
    ('0' as int + d) as char
  }

  /** The decimal digits of `n` without leading zeros ("0" for zero). */
  function NatToDigits(n: nat): (s: string)
    ensures |s| > 0 && AllDigits(s)
    decreases n
  {
    if n < 10 then [DigitChar(n)] else NatToDigits(n / 10) + [DigitChar(n % 10)]
  }

  /** Kotlin's `Int.toString()`. */
  function IntToString(n: Int32): string {
    if n < 0 then "-" + NatToDigits(-(n as int)) else NatToDigits(n)
  }

  lemma {:induction false} DigitsValueOfNatToDigits(n: nat)
    ensures DigitsValue(NatToDigits(n)) == n
    decreases n
  {
    var s := NatToDigits(n);
    if n >= 10 {
      DigitsValueOfNatToDigits(n / 10);
      assert s[..|s| - 1] == NatToDigits(n / 10);
    }
  }

  /** Every `Int` typed in the form is stored as itself. */
  lemma {:induction false} ParsePortRoundTrip(n: Int32)
    ensures ToIntOrNull(IntToString(n)) == Some(n)
    ensures ParsePort(IntToString(n)) == n
  {
    if n < 0 {
      DigitsValueOfNatToDigits(-(n as int));
      assert IntToString(n)[1..] == NatToDigits(-(n as int));
    } else {
      DigitsValueOfNatToDigits(n);
    }
  }

  /** No range check: a negative number is stored as it is. */
  lemma NegativePortKept()
    ensures ParsePort("-1") == -1
  {
    assert AllDigits("1");
    assert DigitsValue("1") == 1 by {
      assert "1"[..0] == "";
    }
  }

  /**
   * Empty or non-numeric text and values beyond `Int`, unsigned or signed,
   * fall back to 21.
   */
  lemma {:induction false} UnparsablePortIsDefault(portText: string)
    requires portText == "" || !(AllDigits(portText) || (|portText| > 1 && (portText[0] == '-' || portText[0] == '+') && AllDigits(portText[1..])))
             || (AllDigits(portText) && !InInt32(DigitsValue(portText)))
             || (|portText| > 1 && (portText[0] == '-' || portText[0] == '+') && AllDigits(portText[1..])
                 && !InInt32(if portText[0] == '-' then -(DigitsValue(portText[1..]) as int) else DigitsValue(portText[1..])))
    ensures ParsePort(portText) == 21
  {
  }
}

=== FILE: wrappers.dfy ===
/** The optional value used wherever the source returns a nullable result. */
module Wrappers {

  datatype Option<+T> = None | Some(value: T) {

    /** The value, or `default` when there is none (Kotlin's `?:`). */
    function GetOr(default: T): T {
      match this
      case Some(v) => v
      case None => default
    }

    /** This value when there is one, otherwise `other`. */
    function Or(other: Option<T>): Option<T> {
      if Some? then this else other
    }
  }
}
